=== FILE: README.md ===
# RFID access control, modelled in Dafny

The system controls access to a site with RFID cards. It has three parts:

- **Firmware.** An ESP32 reads a card's UID, renders it as a hex tag, posts the tag to the backend and shows the outcome on an LCD.
- **Spring backend.**
  - It keeps users (`Usuario`), readers (`Lector`) and access records (`Registro`).
  - It decides whether a new movement is an `entrada` or a `salida`.
  - It remembers the last tag that no user carries, so the frontend can offer it when registering a card.
  - It issues a JWT at `/auth/login` and has a filter that authenticates a request from its bearer token. The filter is a `@Component` (JwtRequestFilter.java:18), so Spring Boot registers it as a plain servlet filter, which runs after the security chain. The security configuration never adds it to that chain (SecurityConfig.java:26), and it requires an authenticated request for every path but `/auth/login` (SecurityConfig.java:18-20).
- **React frontend.**
  - It attaches the stored token to every request.
  - It shows the users, readers and records pages: local list edits, filters, pagination, summary counts and a CSV export.

This project models those cores as immutable datatypes and pure functions, and proves the properties the code promises:

- alternation of movements;
- capture of unknown tags;
- the field-overwrite rules of the CRUD endpoints;
- the `Bearer` header round trip and the filter's authentication decision;
- the composition of the record filters and the exact cover of the list by its pages;
- the tag encoder's length, alphabet, injectivity and decoding;
- the firmware's outcome classification and its wrap-around-safe clock.

A few lemmas connect the parts:

- the header the client writes is the token the filter reads;
- a user created from the page starts active;
- a card scan's LCD message follows the controller's answer, for a scan that reaches the controller;
- the dashboard's entry/exit counts never see the backend's records.

Modules follow the program. Shared helpers:

- `Wrappers`: `Option` and `Result`.
- `Text`: ASCII case folding, `startsWith`/`includes`, decimal rendering, `split`/`join`.
- `Seqs`: `filter` as `Keep`, `Count`, subsequences.
- `Persistence`: entities and id-keyed tables standing for the Spring Data repositories.

Backend modules: `UsuarioController`, `LectorController`, `RegistroController`, `JwtUtil`, `JwtRequestFilter`, and `Routing` (the controllers' request mappings).

Frontend modules: `Api`, `Registros`, `Lectores`, `Usuarios`.

`Firmware` models the ESP32 side. `EndToEnd` holds the cross-component lemmas.

Facts of the code the model is built on:

- JwtRequestFilter.java:40-46: only `IllegalArgumentException` and `ExpiredJwtException` are caught while the username is read. Any other JWT error, and a failure of `loadUserByUsername` (line 50), escapes before `chain.doFilter` (line 59).
- Lectores.js:75-76: the status filter compares the lower-cased state with the lower-cased choice.
- Registros.js:74-78: normalisation reads `registro.usuario.nombre` and `registro.lector.ubicacion` with no fallback. A null relation throws into the `catch` of line 83.
- LectorController.java:27-53: the reader controller maps only `/lectores` and `/lectores/{id}`. The client's `/lectores/activos` and `/lectores/con-registros` (api.js:83-91) fall on `/{id}` and fail its `Long` conversion.
- UsuarioController.java:35-37: `estado` defaults to `"Activo"` only when the body's value is null or empty. The page's create body has no `estado` (Usuarios.js:42).
- Lector.java:13: the shipped `Lector` entity declares `ubicacion` but no `estado`. LectorController.java:42-48 and Lectores.js read and write one.

## Model

| member | source | states |
|---|---|---|
| Persistence.FindById | demo/src/main/java/com/example/demo/Controllers/UsuarioController.java:43-44 | a row is found iff its id is stored, and it is that row |
| Persistence.Insert | demo/src/main/java/com/example/demo/Controllers/UsuarioController.java:38 | saving a new entity assigns the next id, adds exactly that key and keeps every other row |
| Persistence.Put | demo/src/main/java/com/example/demo/Controllers/UsuarioController.java:63 | saving an existing entity replaces that row only; keys and id counter unchanged |
| Persistence.DeleteById | demo/src/main/java/com/example/demo/Controllers/UsuarioController.java:69 | deletion removes exactly that key and leaves the other rows as they were |
| Persistence.TaggedIds | demo/src/main/java/com/example/demo/repositories/UsuarioRepository.java:13 | the ids of exactly the users whose tag column equals the given tag; a null tag selects the users without a tag (`IS NULL`) |
| Persistence.FindByRfidTag | demo/src/main/java/com/example/demo/repositories/UsuarioRepository.java:13 | no user iff no user matches the tag (null included); one user iff exactly one does, and it is a stored user with that tag |
| Persistence.FindByEstado | demo/src/main/java/com/example/demo/repositories/UsuarioRepository.java:16 | exactly the rows whose estado equals the given value, unchanged |
| Persistence.LatestFor | demo/src/main/java/com/example/demo/repositories/RegistroRepository.java:15 | present iff the user has a record; then it is one of the user's records with the highest id |
| UsuarioController.CreateUsuario | demo/src/main/java/com/example/demo/Controllers/UsuarioController.java:32-39 | a null or empty estado becomes "Activo", any other is kept; other fields are the body's; `save` inserts a body without an id under the next id and merges a body carrying a stored user's id over that user |
| UsuarioController.GetUsuarioById | demo/src/main/java/com/example/demo/Controllers/UsuarioController.java:41-45 | succeeds iff the id is stored, with that row; otherwise the not-found error for that id |
| UsuarioController.GetActiveUsuarios | demo/src/main/java/com/example/demo/Controllers/UsuarioController.java:48-51 | exactly the users whose estado is "Activo" |
| UsuarioController.UpdateUsuario | demo/src/main/java/com/example/demo/Controllers/UsuarioController.java:53-64 | a missing id fails and changes nothing; otherwise nombre, documento, rfidTag and estado are the body's, the id is kept, and only that row changes |
| UsuarioController.DeleteUsuario | demo/src/main/java/com/example/demo/Controllers/UsuarioController.java:66-70 | the id is gone and every other user is unaffected |
| UsuarioController.CreateThenGet | demo/src/main/java/com/example/demo/Controllers/UsuarioController.java:32-45 | a created user is then found under its id and no other user's lookup changes; a body without an id gets a new id, which was free |
| UsuarioController.CreateWithStoredIdOverwrites | demo/src/main/java/com/example/demo/Controllers/UsuarioController.java:32-39 | a POST whose body carries a stored user's id adds no row and overwrites that user with the body |
| UsuarioController.CreatedUserActiveIff | demo/src/main/java/com/example/demo/Controllers/UsuarioController.java:35-37 | a created user is listed by `/activos` iff its body had no estado or had exactly "Activo" |
| UsuarioController.UpdateKeepsNullEstado | demo/src/main/java/com/example/demo/Controllers/UsuarioController.java:61 | an update with a null estado stores null (no default), and the user drops out of `/activos` |
| UsuarioController.UpdateIdempotent | demo/src/main/java/com/example/demo/Controllers/UsuarioController.java:53-64 | updating twice with one body equals updating once |
| UsuarioController.UpdateThenGetThenDelete | demo/src/main/java/com/example/demo/Controllers/UsuarioController.java:41-70 | after an update a read returns the saved user; after a delete the read fails with not-found |
| LectorController.CreateLector | demo/src/main/java/com/example/demo/Controllers/LectorController.java:32-35 | the reader is saved as given, with no default estado: under the next id, or over the stored reader whose id the body carries |
| LectorController.GetLectorById | demo/src/main/java/com/example/demo/Controllers/LectorController.java:37-40 | succeeds iff the id is stored, with that row; otherwise no-such-element for that id |
| LectorController.UpdateLector | demo/src/main/java/com/example/demo/Controllers/LectorController.java:42-48 | a missing id fails before any save; otherwise exactly ubicacion and estado are overwritten, and the id is kept |
| LectorController.DeleteLector | demo/src/main/java/com/example/demo/Controllers/LectorController.java:50-53 | the id is gone and every other reader is unaffected |
| LectorController.CreateKeepsNullEstado | demo/src/main/java/com/example/demo/Controllers/LectorController.java:33-35 | a reader created without estado is stored and read back without one |
| LectorController.CreateWithStoredIdOverwrites | demo/src/main/java/com/example/demo/Controllers/LectorController.java:32-35 | a POST whose body carries a stored reader's id adds no row and overwrites that reader with the body |
| LectorController.UpdateThenGet | demo/src/main/java/com/example/demo/Controllers/LectorController.java:37-48 | a read after an update returns the body's ubicacion and estado under the old id; other reads are unchanged |
| LectorController.DeleteThenGet | demo/src/main/java/com/example/demo/Controllers/LectorController.java:37-53 | a read after a delete fails for that id and is unchanged for all others |
| RegistroController.NextMovement | demo/src/main/java/com/example/demo/Controllers/RegistroController.java:112-117 | "salida" iff the user's latest record exists and its type is "entrada" ignoring case, otherwise "entrada" |
| RegistroController.ProcesarMovimiento | demo/src/main/java/com/example/demo/Controllers/RegistroController.java:111-126 | saves one record with the resolved user and reader, the next id, the clock and the computed type, and leaves the unknown tag alone |
| RegistroController.CreateRegistro | demo/src/main/java/com/example/demo/Controllers/RegistroController.java:71-84 | succeeds iff the user exists, is active and the reader exists; the user checks come first (not found, then 403); a failure saves nothing |
| RegistroController.CreateRegistroByRfid | demo/src/main/java/com/example/demo/Controllers/RegistroController.java:86-108 | a tag no user carries is stored in `ultimoTagDesconocido` (a null tag no user lacks stores null) and answered 404, nothing saved; a single holder that is inactive gets 403 and a missing reader 500, nothing saved; several holders 500; success iff exactly one active user matches and the reader exists, with a record for that user |
| RegistroController.GetUltimoTagDesconocido | demo/src/main/java/com/example/demo/Controllers/RegistroController.java:62-69 | 404 iff no unknown tag has been stored, otherwise exactly the stored tag |
| RegistroController.IsActivo | demo/src/main/java/com/example/demo/Controllers/RegistroController.java:76 | `"Activo".equalsIgnoreCase(estado)`: false for a null estado |
| RegistroController.Step | demo/src/main/java/com/example/demo/Controllers/RegistroController.java:62-108 | reading `/ultimo-desconocido` never changes the controller |
| RegistroController.Run | demo/src/main/java/com/example/demo/Controllers/RegistroController.java:62-108 | the controller after handling a sequence of requests in order |
| RegistroController.LastUnknownTag | demo/src/main/java/com/example/demo/Controllers/RegistroController.java:89-97 | reference definition: the tag of the last scan no user matched, null when that scan had none, else the initial value |
| RegistroController.RunRemembersLastUnknownTag | demo/src/main/java/com/example/demo/Controllers/RegistroController.java:89-97 | after any sequence of requests the stored tag is that of the last scan no user matched (null when it had none), or the initial value |
| RegistroController.UltimoAfterRun | demo/src/main/java/com/example/demo/Controllers/RegistroController.java:62-97 | from a fresh controller, `/ultimo-desconocido` is 404 iff every unmatched scan carrying a tag was later followed by an unmatched scan without one, and otherwise returns the tag of the last unmatched scan |
| RegistroController.LastUnknownTagNoneIff | demo/src/main/java/com/example/demo/Controllers/RegistroController.java:92-94 | the reference "last unknown tag" is absent iff every unmatched scan with a tag is followed by an unmatched scan without one |
| RegistroController.Expected | demo/src/main/java/com/example/demo/Controllers/RegistroController.java:113-116 | the k-th movement of an alternating history is one of the two types |
| RegistroController.LatestIsLastOfHistory | demo/src/main/java/com/example/demo/repositories/RegistroRepository.java:15 | with ids increasing, the highest-id record is the last one in the user's history |
| RegistroController.NextMovementByParity | demo/src/main/java/com/example/demo/Controllers/RegistroController.java:112-117 | on an alternating history the next type is "entrada" after an even count and "salida" after an odd one |
| RegistroController.HistoryAppend | demo/src/main/java/com/example/demo/Controllers/RegistroController.java:119-125 | saving a record extends only its own user's history, by its type |
| RegistroController.ProcesarPreservesAlternation | demo/src/main/java/com/example/demo/Controllers/RegistroController.java:111-126 | a saved movement keeps ids increasing and every user's history alternating |
| RegistroController.StepPreservesAlternation | demo/src/main/java/com/example/demo/Controllers/RegistroController.java:71-108 | every request handled keeps every user's history alternating entrada, salida, … |
| RegistroController.RunAlternates | demo/src/main/java/com/example/demo/Controllers/RegistroController.java:71-126 | any sequence of requests keeps every user's history alternating |
| RegistroController.EmptyTableAlternates | demo/src/main/java/com/example/demo/Controllers/RegistroController.java:111-117 | the empty table is a valid, alternating start |
| RegistroController.ConsecutiveMovementsAlternate | demo/src/main/java/com/example/demo/Controllers/RegistroController.java:111-126 | two successive movements of one user are one entrada and one salida, and a first movement is an entrada |
| RegistroController.TipoMovimientoIgnored | demo/src/main/java/com/example/demo/Controllers/RegistroController.java:72-84 | the body's tipoMovimiento has no effect on the outcome |
| RegistroController.InactiveUserForbidden | demo/src/main/java/com/example/demo/Controllers/RegistroController.java:76-78 | an inactive (or null-estado) user gets 403 and nothing is saved |
| RegistroController.InactiveHolderForbidden | demo/src/main/java/com/example/demo/Controllers/RegistroController.java:99-103 | a scanned tag whose single holder is inactive gets 403 whether or not the reader exists, with nothing saved or remembered |
| RegistroController.NullTagScan | demo/src/main/java/com/example/demo/Controllers/RegistroController.java:89-97 | a scan without a tag: with no untagged user it is answered 404 and `/ultimo-desconocido` is 404 again; the single untagged user, if active with an existing reader, gets a record; several untagged users give 500 |
| JwtUtil.DoGenerateToken | demo/src/main/java/com/example/demo/config/JwtUtil.java:57-61 | the claims carry the given map and subject; issuedAt is the first clock read and expiration the second plus 18,000,000 ms, each truncated to whole seconds |
| JwtUtil.GenerateToken | demo/src/main/java/com/example/demo/config/JwtUtil.java:52-61 | empty custom claims, subject = username, expiration at least issuedAt + 5 hours |
| JwtUtil.ValidateToken | demo/src/main/java/com/example/demo/config/JwtUtil.java:38-67 | throws `ExpiredJwtException` iff now is after the expiration; otherwise throws on a null subject; answers true iff the subject is the user's name and the token has not expired |
| JwtUtil.GeneratedTokenRoundTrip | demo/src/main/java/com/example/demo/config/JwtUtil.java:26-67 | the subject read back is the username; the token validates for it until the second clock read plus five hours, truncated to whole seconds, and throws after; it never validates for another name |
| JwtUtil.WholeSeconds | demo/src/main/java/com/example/demo/config/JwtUtil.java:58-59 | a clock reading as `iat`/`exp` keep it: a multiple of 1000 within the last second before the reading |
| JwtUtil.ExpiryTruncated | demo/src/main/java/com/example/demo/config/JwtUtil.java:58-59 | a token issued at clock 1999 has `exp` 18,001,000 and has already expired 998 ms before the clock plus five hours |
| JwtRequestFilter.ExtractToken | demo/src/main/java/com/example/demo/config/JwtRequestFilter.java:38-39 | a token iff the header is present and starts with "Bearer ", and the header is "Bearer " + token |
| JwtRequestFilter.ReadUsername | demo/src/main/java/com/example/demo/config/JwtRequestFilter.java:35-47 | no token gives no name; only an uncaught JWT error escapes; a name read is the parsed subject |
| JwtRequestFilter.DoFilterInternal | demo/src/main/java/com/example/demo/config/JwtRequestFilter.java:30-60 | the chain runs once unless an exception escapes (an uncaught parse error, a failed user load, or `validateToken` throwing); an existing authentication is kept; a new one is set iff the token parses, the user loads and the token validates |
| JwtRequestFilter.SwallowedFailuresDoNotAuthenticate | demo/src/main/java/com/example/demo/config/JwtRequestFilter.java:40-46 | an illegal-argument or expired token is swallowed: no authentication, chain called once |
| Routing.SegmentsOfPath | demo/src/main/java/com/example/demo/Controllers/UsuarioController.java:18-41 | splitting a built path gives back its slash-free segments |
| Routing.Resolve | demo/src/main/java/com/example/demo/Controllers/LectorController.java:27-53 | the first mapping of the verb that matches and converts handles the request; else 400 if a mapping of the verb matched; else 405 if a mapping of another verb matched the path; else 404 |
| Routing.IsoDateWithOffset | demo/src/main/java/com/example/demo/Controllers/RegistroController.java:128-129 | `2024-05-01`, `2024-05-01Z` and `2024-05-01+02:00` all convert to a date |
| Routing.IsoDateLeapDay | demo/src/main/java/com/example/demo/Controllers/RegistroController.java:128-129 | February 29th converts in 2024 and not in 2023 |
| Routing.IsoDateMalformed | demo/src/main/java/com/example/demo/Controllers/RegistroController.java:128-129 | a thirteenth month and an unpadded date fail the conversion |
| Routing.ResolveSpec | demo/src/main/java/com/example/demo/Controllers/LectorController.java:18-53 | a request is handled iff some mapping serves it (by the first such mapping's handler); 404 iff no mapping's path matches; 405 iff paths match but none under the verb |
| Routing.ResolveMisses | demo/src/main/java/com/example/demo/Controllers/UsuarioController.java:18-68 | a request is handled or refused with 400 iff some mapping of its verb matches the path; 404 iff no mapping of any verb matches the path; 405 iff only mappings of other verbs match it |
| Routing.ResolveAppend | demo/src/main/java/com/example/demo/Controllers/RegistroController.java:40-141 | resolving against two mapping lists combines the two results: a handler of the first list, else of the second, else 400, else 405, else 404 |
| Routing.OutsidePrefix | demo/src/main/java/com/example/demo/Controllers/AuthController.java:21-34 | mappings under one prefix never answer a path with a different first segment |
| Api.BaseUrl | front/control-acceso-frontend/src/api.js:6-8 | the Render URL iff NODE_ENV is "production", otherwise localhost:8080 |
| Api.Expected | front/control-acceso-frontend/src/api.js:31-123 | the outcome each client call should get, reading the date as the raw path segment: 400 for the two unmapped reader queries and for a date `ISO_DATE` does not read, 404 for an empty date, otherwise its endpoint |
| Api.Intercept | front/control-acceso-frontend/src/api.js:18-24 | with a truthy token Authorization is "Bearer " + token and every other header is kept; otherwise the headers are unchanged |
| Api.DecimalHasNoSlash | front/control-acceso-frontend/src/api.js:49 | a rendered id never contains '/' |
| Api.RequestPathSegments | front/control-acceso-frontend/src/api.js:31-123 | splitting a call's path gives back its segments (for a date without '/') |
| Api.SegmentsAvoidSlash | front/control-acceso-frontend/src/api.js:31-123 | no path segment of a call contains '/' |
| Api.ControllerPrefixes | demo/src/main/java/com/example/demo/Controllers/UsuarioController.java:18 | every controller's mappings sit under its own prefix |
| Api.ByController | demo/src/main/java/com/example/demo/Controllers/RegistroController.java:40 | a path is resolved by the controller its first segment names alone |
| Api.ActualizarUsuarioCall | front/control-acceso-frontend/src/api.js:48-51 | PUT `/usuarios/<s>` reaches updateUsuario for every Long literal s |
| Api.EliminarUsuarioCall | front/control-acceso-frontend/src/api.js:53-55 | DELETE `/usuarios/<s>` reaches deleteUsuario for every Long literal s |
| Api.UsuariosActivosCall | front/control-acceso-frontend/src/api.js:57-60 | GET `/usuarios/activos` reaches getActiveUsuarios. Spring gets there because a literal segment outranks `{id}`; the model's first-match rule (see Routing.Resolve under Left out) gets there because "activos" fails the `Long` conversion of `/usuarios/{id}` |
| Api.UsuarioCalls | front/control-acceso-frontend/src/api.js:38-60 | every user call reaches its intended UsuarioController handler |
| Api.DeleteUsuariosIs405 | demo/src/main/java/com/example/demo/Controllers/UsuarioController.java:18-68 | DELETE `/usuarios`, mapped only for GET and POST, is refused with 405 |
| Api.PostUsuarioIs405 | demo/src/main/java/com/example/demo/Controllers/UsuarioController.java:18-68 | POST `/usuarios/1`, mapped only for GET, PUT and DELETE, is refused with 405 |
| Api.PutRegistrosIs405 | demo/src/main/java/com/example/demo/Controllers/RegistroController.java:40-141 | PUT `/registros`, mapped only for GET and POST, is refused with 405 |
| Api.ActualizarLectorCall | front/control-acceso-frontend/src/api.js:74-77 | PUT `/lectores/<s>` reaches updateLector for every Long literal s |
| Api.EliminarLectorCall | front/control-acceso-frontend/src/api.js:79-81 | DELETE `/lectores/<s>` reaches deleteLector for every Long literal s |
| Api.LectorQueryCall | front/control-acceso-frontend/src/api.js:83-91 | GET `/lectores/<s>` with a non-empty s that is no `Long` literal matches only `/lectores/{id}` and fails its conversion: 400 |
| Api.LectorCalls | front/control-acceso-frontend/src/api.js:64-91 | reader calls reach their handlers, except `/lectores/activos` and `/lectores/con-registros`, which have no mapping and get 400 |
| Api.RegistroFecha | front/control-acceso-frontend/src/api.js:110-114 | `/registros/fecha/<f>` reaches getRegistrosByFecha iff f is an ISO date; an empty f has no handler; anything else is 400 |
| Api.RegistrosPorUsuarioCall | front/control-acceso-frontend/src/api.js:105-108 | GET `/registros/usuario/<s>` reaches getRegistrosByUsuario for every Long literal s |
| Api.RegistrosPorLectorCall | front/control-acceso-frontend/src/api.js:116-119 | GET `/registros/lector/<s>` reaches getRegistrosByLector for every Long literal s |
| Api.RegistroFechaIso | front/control-acceso-frontend/src/api.js:110-114 | GET `/registros/fecha/<f>` reaches getRegistrosByFecha for every f `ISO_DATE` reads, with or without an offset |
| Api.RegistroFechaMalformed | front/control-acceso-frontend/src/api.js:110-114 | a non-empty f that `ISO_DATE` does not read (no calendar date, or a malformed offset) matches the date mapping only and fails its conversion: 400 |
| Api.RegistroFechaEmpty | front/control-acceso-frontend/src/api.js:110-114 | an empty f leaves the path `/registros/fecha/` with an empty last segment, which no mapping matches: 404 |
| Api.RegistroCalls | front/control-acceso-frontend/src/api.js:95-123 | every record call reaches its intended RegistroController handler |
| Api.CallResolution | front/control-acceso-frontend/src/api.js:31-123 | every client call whose date is a plain segment (no `/`, `%`, `;`, `?`, `#`, not a dot segment) is resolved as intended: its handler, 400 for the unmapped reader paths and bad dates, 404 for an empty date |
| Registros.Normalize | front/control-acceso-frontend/src/components/Registros.js:74-78 | usuario and lector become the user's name and the reader's location; every other field is kept |
| Registros.NormalizeAll | front/control-acceso-frontend/src/components/Registros.js:74-78 | the list is normalised element by element, in order |
| Registros.Reload | front/control-acceso-frontend/src/components/Registros.js:65-88 | a successful fetch with all relations replaces the three lists; a failure or a null relation leaves the page as it was; filters and page are untouched |
| Registros.NullRelationKeepsList | front/control-acceso-frontend/src/components/Registros.js:74-84 | one record with a null user or reader keeps the old list |
| Registros.LimpiarFiltros | front/control-acceso-frontend/src/components/Registros.js:90-98 | all six filters are cleared and the page is 1; records and page size kept |
| Registros.ChangePerPage | front/control-acceso-frontend/src/components/Registros.js:240-243 | the page size is set and the page reset to 1; records and filters kept |
| Registros.FilteredMembers | front/control-acceso-frontend/src/components/Registros.js:100-122 | the filtered list is a subsequence, and a record is in it iff it is in the list and passes all six filters |
| Registros.FiltersCompose | front/control-acceso-frontend/src/components/Registros.js:100-122 | applying the six filters one after another gives the combined filter |
| Registros.SinFiltrosShowsAll | front/control-acceso-frontend/src/components/Registros.js:101-118 | with every filter empty, every record is shown |
| Registros.Filtered | front/control-acceso-frontend/src/components/Registros.js:100-122 | the filtered list is a subsequence of the records, every element passes the six filters, and every passing record is in it |
| Registros.Matches | front/control-acceso-frontend/src/components/Registros.js:120-121 | a record is shown iff it passes all six filters |
| Registros.MatchesSearch | front/control-acceso-frontend/src/components/Registros.js:101-103 | an empty term, or the lower-cased term inside the lower-cased user name or reader location |
| Registros.MatchesUsuario | front/control-acceso-frontend/src/components/Registros.js:105-106 | no user chosen, or the record's user id rendered in decimal equals the choice |
| Registros.MatchesLector | front/control-acceso-frontend/src/components/Registros.js:108-109 | no reader chosen, or the record's reader id rendered in decimal equals the choice |
| Registros.MatchesTipo | front/control-acceso-frontend/src/components/Registros.js:111-112 | no type chosen, or the record's type equals the choice exactly |
| Registros.MatchesInicio | front/control-acceso-frontend/src/components/Registros.js:114-116 | no start date, or the record's day is not before it |
| Registros.MatchesFin | front/control-acceso-frontend/src/components/Registros.js:117-118 | no end date, or the record's day is not after it |
| Registros.TipoFilterHidesBackendTypes | front/control-acceso-frontend/src/components/Registros.js:111-112 | "Solo entradas" or "Solo salidas" over backend records typed entrada/salida shows no record |
| Registros.MatchesTipoIgnoringCase | front/control-acceso-frontend/src/components/Registros.js:111-112 | corrected type filter: no type chosen, or the type equals the choice ignoring case |
| Registros.TipoFilterIgnoringCase | front/control-acceso-frontend/src/components/Registros.js:111-112 | ignoring case, "Entrada" keeps exactly the entrada records and "Salida" exactly the salida ones |
| Registros.LimpiarShowsAll | front/control-acceso-frontend/src/components/Registros.js:90-98 | after clearing the filters the whole list is shown, from page 1 |
| Registros.SearchIgnoresCase | front/control-acceso-frontend/src/components/Registros.js:101-103 | the search term matches the same records in any letter case |
| Registros.SingleDay | front/control-acceso-frontend/src/components/Registros.js:114-118 | with start and end set to one day, exactly that day's records pass |
| Registros.SelectedIdFilter | front/control-acceso-frontend/src/components/Registros.js:105-109 | selecting an id keeps exactly the records with that user id (reader id) |
| Registros.TotalPages | front/control-acceso-frontend/src/components/Registros.js:124 | the least page count whose pages hold all records (ceil n/perPage) |
| Registros.Slice | front/control-acceso-frontend/src/components/Registros.js:127 | `slice` clamped to the list: exactly max(0, min(end, length) − start) elements, those from start on |
| Registros.Page | front/control-acceso-frontend/src/components/Registros.js:125-127 | page p holds exactly min(perPage, max(0, n − (p−1)·perPage)) records, those from (p−1)·perPage on |
| Registros.PagePastEnd | front/control-acceso-frontend/src/components/Registros.js:124-127 | a page number beyond totalPages shows no records |
| Registros.PagesPrefix | front/control-acceso-frontend/src/components/Registros.js:124-127 | the first k pages laid end to end are the first k·perPage records |
| Registros.PagesCoverList | front/control-acceso-frontend/src/components/Registros.js:124-127 | pages 1..totalPages laid end to end are exactly the filtered list |
| Registros.Ventana | front/control-acceso-frontend/src/components/Registros.js:513-515 | at most 5 consecutive numbers from max(1,p−2), none above totalPages, including the current page, and every number from max(1,p−2) up to totalPages within min(5,totalPages) of the start |
| Registros.VentanaExamples | front/control-acceso-frontend/src/components/Registros.js:513-515 | on page 1 of 10 the buttons are 1 to 5; on page 9 of 10 they are 7 to 10 |
| Registros.ClickInRange | front/control-acceso-frontend/src/components/Registros.js:489-548 | from a page in range every button leads to a page in range; previous is max(p−1,1), next is min(p+1,totalPages) |
| Registros.Click | front/control-acceso-frontend/src/components/Registros.js:489-548 | Primera gives 1, Anterior max(p−1,1), Siguiente min(p+1,totalPages), Ultima totalPages, a window button its number |
| Registros.ClicksStayInRange | front/control-acceso-frontend/src/components/Registros.js:485-548 | any sequence of clicks stays in range |
| Registros.StalePage | front/control-acceso-frontend/src/components/Registros.js:124-127 | a page beyond a shrunken list shows nothing; when the bar is rendered (more than one page), "next" brings it back to the last page |
| Registros.SetFiltros | front/control-acceso-frontend/src/components/Registros.js:231 | a filter input sets its filter and keeps the page number, records and page size |
| Registros.CurrentRecords | front/control-acceso-frontend/src/components/Registros.js:124-127 | the records shown: at most a page of them, each a filtered record |
| Registros.SinglePage | front/control-acceso-frontend/src/components/Registros.js:124 | between 1 and perPage records make exactly one page |
| Registros.FilterKeepsStalePage | front/control-acceso-frontend/src/components/Registros.js:461-485 | from page 2 or later, a filter leaving 1 to perPage matches shows none of them and renders no pagination bar |
| Registros.SetFiltrosResettingPage | front/control-acceso-frontend/src/components/Registros.js:90-98 | corrected filter change: sets the filter and returns to page 1, as `limpiarFiltros` does |
| Registros.FilterResetShowsMatches | front/control-acceso-frontend/src/components/Registros.js:124-127 | after a filter change that resets the page, the first perPage matches are shown |
| Registros.CountsBounded | front/control-acceso-frontend/src/components/Registros.js:129-130 | entries plus exits never exceed the records, with equality when every type is exactly Entrada or Salida |
| Registros.TotalEntradas | front/control-acceso-frontend/src/components/Registros.js:129 | the number of records typed exactly `Entrada` |
| Registros.TotalSalidas | front/control-acceso-frontend/src/components/Registros.js:130 | the number of records typed exactly `Salida` |
| Registros.RegistrosHoy | front/control-acceso-frontend/src/components/Registros.js:131-134 | the number of records whose `fechaHora` up to the first space is today's date |
| Registros.BackendTypesNotCounted | front/control-acceso-frontend/src/components/Registros.js:129-130 | lower-case entrada/salida records are counted neither as entries nor as exits |
| Registros.TimestampsWithoutSpace | front/control-acceso-frontend/src/components/Registros.js:131-134 | a timestamp without a space longer than the date is never counted as today |
| Registros.FoldedType | demo/src/main/java/com/example/demo/Controllers/RegistroController.java:113-116 | a type is never both Entrada and Salida ignoring case; entrada and salida each fold to one |
| Registros.CountsIgnoringCaseBounded | front/control-acceso-frontend/src/components/Registros.js:129-130 | corrected counts never exceed the records |
| Registros.CountsIgnoringCaseOnBackendTypes | front/control-acceso-frontend/src/components/Registros.js:129-130 | corrected counts count each backend entrada and salida exactly once |
| Registros.IsoTimestampDay | front/control-acceso-frontend/src/components/Registros.js:131-134 | splitting an ISO timestamp at 'T' counts it as today iff its day is today |
| Registros.TodayCountFinding | front/control-acceso-frontend/src/components/Registros.js:131-134 | records stamped today in ISO form: the space split counts none, the 'T' split counts all |
| Registros.CsvRows | front/control-acceso-frontend/src/components/Registros.js:137-145 | the header row, then one row per filtered record in order |
| Registros.Csv | front/control-acceso-frontend/src/components/Registros.js:136-146 | the header and one line per filtered record, fields joined with ',' and lines with a newline, unquoted |
| Registros.RowFieldsPlain | front/control-acceso-frontend/src/components/Registros.js:138-145 | header fields and fields of plain records hold no ',' or newline |
| Registros.CsvRecoversFields | front/control-acceso-frontend/src/components/Registros.js:136-146 | for plain records the CSV has records+1 lines, the header first, and splitting each line at ',' gives back that record's fields |
| Registros.CommaInNameSplitsField | front/control-acceso-frontend/src/components/Registros.js:139-146 | with no escaping, a name containing "," (here "A,B") yields a six-field line |
| Lectores.OpenModal | front/control-acceso-frontend/src/components/Lectores.js:17-21 | opens the modal on the given reader (or none), with its fields in the form or the blank form |
| Lectores.CloseModal | front/control-acceso-frontend/src/components/Lectores.js:23-27 | closes the modal, clears the target and resets the form to ubicacion "" and estado "Activo" |
| Lectores.SetUbicacion | front/control-acceso-frontend/src/components/Lectores.js:262 | sets the location only, keeping the form coherent |
| Lectores.SetEstado | front/control-acceso-frontend/src/components/Lectores.js:278 | sets the status only, keeping the form coherent |
| Lectores.SubmitRequest | front/control-acceso-frontend/src/components/Lectores.js:37-45 | an update of the edited reader's id iff editing, otherwise a create; the body is the form without ultimaActividad |
| Lectores.ReplaceById | front/control-acceso-frontend/src/components/Lectores.js:39-43 | every entry with the id becomes the new value; every other is kept, in order |
| Lectores.Submit | front/control-acceso-frontend/src/components/Lectores.js:29-50 | an empty (or null) location or a rejected call changes nothing; otherwise the edited reader is merged with the form and a new ultimaActividad, or the returned reader is appended, and the modal closes |
| Lectores.EditChangesOnlyTarget | front/control-acceso-frontend/src/components/Lectores.js:39-43 | an edit changes only the target's entries, keeping length and order |
| Lectores.CreateAppends | front/control-acceso-frontend/src/components/Lectores.js:45-46 | a create appends exactly the returned reader at the end |
| Lectores.Delete | front/control-acceso-frontend/src/components/Lectores.js:52-57 | unconfirmed or failed deletes change nothing; the result is a subsequence |
| Lectores.DeleteRemovesExactly | front/control-acceso-frontend/src/components/Lectores.js:55 | an entry survives iff its id differs |
| Lectores.Toggle | front/control-acceso-frontend/src/components/Lectores.js:61 | the result is Activo or Inactivo, Inactivo iff the input was exactly Activo (null gives Activo) |
| Lectores.ToggleTwice | front/control-acceso-frontend/src/components/Lectores.js:61 | toggling twice restores Activo/Inactivo, and turns anything else, null included, into Inactivo |
| Lectores.Find | front/control-acceso-frontend/src/components/Lectores.js:60 | absent iff no entry has the id; otherwise an entry with that id |
| Lectores.ToggleEstado | front/control-acceso-frontend/src/components/Lectores.js:59-69 | only entries with the id change, and only in estado (toggled) and ultimaActividad; a missing id or failed call changes nothing |
| Lectores.ToggleRequest | front/control-acceso-frontend/src/components/Lectores.js:63 | the sent body is the found reader with toggled estado |
| Lectores.ToggleEstadoTwice | front/control-acceso-frontend/src/components/Lectores.js:59-69 | with unique ids, toggling a reader twice restores its Activo/Inactivo status |
| Lectores.FindUnique | front/control-acceso-frontend/src/components/Lectores.js:60 | with unique ids, `find` returns the entry with that id |
| Lectores.FilteredMembers | front/control-acceso-frontend/src/components/Lectores.js:71-79 | when the filter does not throw, the shown readers are a subsequence holding a reader iff it matches the search and the status filter |
| Lectores.MatchesSearch | front/control-acceso-frontend/src/components/Lectores.js:72-73 | an empty term, or the lower-cased term inside the lower-cased location |
| Lectores.MatchesStatus | front/control-acceso-frontend/src/components/Lectores.js:75-76 | "todos", or the lower-cased state equals the lower-cased choice |
| Lectores.Filtered | front/control-acceso-frontend/src/components/Lectores.js:71-79 | throws iff some reader has a null location while a term is typed or a null state while a status is chosen; otherwise the readers matching both, in order |
| Lectores.NullFieldBreaksFilter | front/control-acceso-frontend/src/components/Lectores.js:71-79 | one reader with a null state (or location) makes every status choice (every search) throw |
| Lectores.FilteredNullSafe | front/control-acceso-frontend/src/components/Lectores.js:71-79 | corrected filter: a subsequence holding exactly the readers matching both, a null field matching nothing |
| Lectores.NullSafeAgrees | front/control-acceso-frontend/src/components/Lectores.js:71-79 | the null-safe filter shows what the page's filter shows whenever that one does not throw |
| Lectores.StatusFilterIgnoresCase | front/control-acceso-frontend/src/components/Lectores.js:75-82 | a reader with estado "ACTIVO" passes the "activo" filter yet is not counted active |
| Lectores.DefaultFiltersShowAll | front/control-acceso-frontend/src/components/Lectores.js:71-79 | with the initial search and "todos", nothing throws and every reader is shown |
| Lectores.CountsBounded | front/control-acceso-frontend/src/components/Lectores.js:81-82 | active plus inactive never exceeds the total, with equality when every estado is exactly Activo or Inactivo |
| Usuarios.Spread | front/control-acceso-frontend/src/components/Usuarios.js:40 | the merged user takes nombre and documento from the form and the other fields from the form's snapshot, else from the user |
| Usuarios.Load | front/control-acceso-frontend/src/components/Usuarios.js:11-21 | a successful fetch replaces the list; a failure changes nothing |
| Usuarios.OpenModal | front/control-acceso-frontend/src/components/Usuarios.js:23-27 | opens on the given user (or none), with its fields or the blank form |
| Usuarios.CloseModal | front/control-acceso-frontend/src/components/Usuarios.js:29-33 | closes, clears the target and resets the form to nombre "" and documento "" |
| Usuarios.SetNombre | front/control-acceso-frontend/src/components/Usuarios.js:138 | sets the name only, keeping the form coherent |
| Usuarios.SetDocumento | front/control-acceso-frontend/src/components/Usuarios.js:150 | sets the document only, keeping the form coherent |
| Usuarios.MergeById | front/control-acceso-frontend/src/components/Usuarios.js:40 | users with the id are merged with the form; every other is kept, in order |
| Usuarios.Submit | front/control-acceso-frontend/src/components/Usuarios.js:35-49 | an empty field or a failed call changes nothing (modal stays open); otherwise the edited user is merged or the returned user appended, and the modal closes |
| Usuarios.SubmitBody | front/control-acceso-frontend/src/components/Usuarios.js:38-44 | an edit sends the snapshot's id, tag and estado with the new name and document; a create sends no tag and no estado |
| Usuarios.EditChangesOnlyTarget | front/control-acceso-frontend/src/components/Usuarios.js:39-40 | an edit changes only the target's entries, keeping length and order |
| Usuarios.CreateAppendsOne | front/control-acceso-frontend/src/components/Usuarios.js:42-43 | a create grows the list by exactly the returned user, at the end |
| Usuarios.FailedSaveKeepsModal | front/control-acceso-frontend/src/components/Usuarios.js:46-48 | a thrown save leaves modal, form and list unchanged |
| Usuarios.Delete | front/control-acceso-frontend/src/components/Usuarios.js:51-60 | unconfirmed or failed deletes change nothing; the result is a subsequence |
| Usuarios.DeleteRemovesExactly | front/control-acceso-frontend/src/components/Usuarios.js:55 | a user survives iff its id differs |
| Usuarios.OpenBlankIsClosedForm | front/control-acceso-frontend/src/components/Usuarios.js:23-33 | opening with no user and closing reset the form alike |
| Firmware.LowerHexDigit | firmware/AccessControlESP32/src/main.cpp:167 | Arduino's HEX digit is 0-9 or a-f |
| Firmware.UpperHexDigit | firmware/AccessControlESP32/src/main.cpp:170 | an upper-case hex digit |
| Firmware.HexValue | firmware/AccessControlESP32/src/main.cpp:170 | a digit's value, which renders back to the digit |
| Firmware.HexValueOfDigit | firmware/AccessControlESP32/src/main.cpp:170 | rendering then reading a nibble gives it back |
| Firmware.ArduinoHex | firmware/AccessControlESP32/src/main.cpp:167 | `String(b, HEX)` has one digit below 0x10 and two from there on |
| Firmware.HexPair | firmware/AccessControlESP32/src/main.cpp:166-170 | a byte's two upper-case digits |
| Firmware.EncodeUid | firmware/AccessControlESP32/src/main.cpp:165-170 | two characters per byte: byte i gives the high nibble at 2i and the low nibble at 2i+1 |
| Firmware.ChunkUpper | firmware/AccessControlESP32/src/main.cpp:166-170 | a padded chunk, upper-cased, is the byte's digit pair |
| Firmware.EncodeUidAppend | firmware/AccessControlESP32/src/main.cpp:165-168 | one more byte appends its digit pair |
| Firmware.RawTagUpper | firmware/AccessControlESP32/src/main.cpp:165-170 | upper-casing the concatenated chunks gives the encoding |
| Firmware.ReadTag | firmware/AccessControlESP32/src/main.cpp:163-170 | the loop and `toUpperCase` build exactly the encoding, 2 characters per byte |
| Firmware.TagAlphabet | firmware/AccessControlESP32/src/main.cpp:166-170 | every tag character is in [0-9A-F], and bytes below 0x10 start with '0' |
| Firmware.DecodeTag | firmware/AccessControlESP32/src/main.cpp:165-170 | a decoded tag has half as many bytes as characters |
| Firmware.DecodeEncode | firmware/AccessControlESP32/src/main.cpp:165-170 | decoding a tag gives back the UID |
| Firmware.EncodeInjective | firmware/AccessControlESP32/src/main.cpp:165-170 | different UIDs give different tags |
| Firmware.EnviarTagRfid | firmware/AccessControlESP32/src/main.cpp:84-129 | without WiFi nothing is sent and the LCD says so; otherwise the body is the tag and LECTOR_ID, and the LCD shows success iff 200, denial with the code iff another positive code, a connection error iff the code is at most 0 |
| Firmware.Elapsed | firmware/AccessControlESP32/src/main.cpp:188 | unsigned subtraction modulo 2^32 |
| Firmware.LoopClock | firmware/AccessControlESP32/src/main.cpp:183-190 | the clock refreshes iff more than 1000 ms have passed since the last update (0 after a card read), and then records the new time |
| Firmware.ElapsedAcrossWrap | firmware/AccessControlESP32/src/main.cpp:188 | across a millis() wrap the elapsed time is still the real difference, and the refresh test is the real one |
| Firmware.WrapExample | firmware/AccessControlESP32/src/main.cpp:188-189 | 500 ms before the wrap to 600 ms after it is 1100 ms, which refreshes |
| Firmware.CardReadForcesRefresh | firmware/AccessControlESP32/src/main.cpp:183-188 | after a card read the clock refreshes once millis() exceeds 1000 |
| EndToEnd.BearerRoundTrip | front/control-acceso-frontend/src/api.js:20-22 | the filter extracts exactly the token the interceptor stored in the header |
| EndToEnd.NoTokenNoAuthentication | front/control-acceso-frontend/src/api.js:20 | without a token no header is added and the filter changes nothing |
| EndToEnd.IssuedTokenAuthenticates | demo/src/main/java/com/example/demo/config/JwtRequestFilter.java:49-57 | a request carrying a token issued for a user authenticates as that user until the token's whole-second expiration |
| EndToEnd.CreatedFromPageIsActive | demo/src/main/java/com/example/demo/Controllers/UsuarioController.java:32-39 | a user created from the page, whose body has no id, is stored as a new user, active, without a tag, and may register movements |
| EndToEnd.EditFromPageKeepsTagAndEstado | demo/src/main/java/com/example/demo/Controllers/UsuarioController.java:58-61 | an edit from the page changes only name and document in the backend, keeping tag and estado |
| EndToEnd.ScanOutcome | firmware/AccessControlESP32/src/main.cpp:92-123 | a scan posts the tag and LECTOR_ID; "Acceso Correcto" iff a record was saved; a 404 denial iff no user carries the tag, which is then offered by `/ultimo-desconocido` |
| EndToEnd.ViewOf | front/control-acceso-frontend/src/components/Registros.js:74-78 | backend records reach the page with their ids and types unchanged |
| EndToEnd.StepKeepsLowercaseTypes | demo/src/main/java/com/example/demo/Controllers/RegistroController.java:113-116 | a handled request saves only entrada or salida records |
| EndToEnd.RunKeepsLowercaseTypes | demo/src/main/java/com/example/demo/Controllers/RegistroController.java:113-122 | every record saved by the controller is typed entrada or salida |
| EndToEnd.DashboardCountsStayZero | front/control-acceso-frontend/src/components/Registros.js:129-130 | the page counts zero entries and zero exits among all backend records |
| EndToEnd.DashboardCountsCorrected | front/control-acceso-frontend/src/components/Registros.js:129-130 | with case-insensitive counts the backend records split exactly into entries and exits |
| Text.ToLower | front/control-acceso-frontend/src/components/Registros.js:102 | character-wise lower-casing, same length |
| Text.ToUpper | firmware/AccessControlESP32/src/main.cpp:170 | character-wise upper-casing, same length |
| Text.IntToString | front/control-acceso-frontend/src/components/Registros.js:106 | `toString` of an integer: decimal digits whose value is the integer's magnitude, no leading zero, after a '-' when negative |
| Text.IntToStringInjective | front/control-acceso-frontend/src/components/Registros.js:105-109 | different ids render differently |
| Text.NatToString | front/control-acceso-frontend/src/components/Registros.js:106 | decimal digits whose value is n, with a leading '0' only for 0 |
| Text.LongLiteralStarts | demo/src/main/java/com/example/demo/Controllers/LectorController.java:37-38 | a segment starting with a letter never converts to `Long`; `+1`, `#1F` and `-0x1f` do; `0x`, `+0x1` and `-` do not |

## Left out

- Rendering, styling, dark mode, modals as UI and `window.confirm`. A confirmation is a boolean input.
- `App.js`, `Dashboard.js`, `Sidebar.js` and `Login.js`: mock data, static cards and navigation.
- The `isLoading` flags of the records page and the `showFilters` toggle: presentation only.
- Network and asynchrony.
  - Every API call's outcome is a parameter: the returned entity or a failure.
  - The `Promise.all` load is one atomic fetch.
  - Concurrent requests sharing `ultimoTagDesconocido` are not modelled: the controller is sequential.
- Clocks.
  - `LocalDateTime.now()`, `System.currentTimeMillis()`, `new Date()` and the firmware's `millis()` are integer parameters.
  - `toISOString`/`toLocaleString` and the timezone behaviour of `new Date(fechaHora)` are a given `dateKey` function.
  - NTP and the LCD clock text are not part of this model.
- JWT signing and parsing with HS512. A token is its claims, and parsing is a given function returning the claims or one of the three failure kinds.
- Spring Security's user loading and `AuthenticationManager`. `AuthController.java` is not part of this model beyond its `/auth/login` mapping.
- JSON (de)serialisation, HTTP status plumbing, headers other than `Authorization`, and CORS and security configuration.
- JPA persistence, cascade deletes and the `findByFecha`/`findByUsuarioId…`/`findByLectorId…` query endpoints. Their routing is modelled; their query results are not.
- Firmware hardware: WiFi, SPI/MFRC522, the LCD, `delay`, and the parsing of the response JSON (the user's name on the LCD).
- Routing.Resolve: Spring's choice among mappings is reduced to a first-match rule: the first mapping of the verb that matches and converts, else 400 if a mapping of the verb matched, else 405 if only mappings of other verbs matched, else 404. Spring instead picks the most specific matching pattern before converting; for the client's calls both give the outcome `Api.Expected` states (`/usuarios/activos` reaches the same handler for a different reason), but other requests may differ.
- Routing.IsIsoDate: only four-digit years are read (Java also reads signed years of more than four digits), and the offset's hours, minutes and seconds are not range-checked.
- Text.IsLongLiteral: whitespace inside the segment, which `NumberUtils.parseNumber` strips, the 64-bit range, and non-ASCII digits, which `Long.valueOf` accepts, are not modelled.
- Text.ToLower: case folding is ASCII only; Java's `equalsIgnoreCase` and JavaScript's `toLowerCase` also fold non-ASCII letters.
- Text.IntToString: ids are unbounded integers; Java `Long` overflow is not modelled.
- Persistence.FindByRfidTag: more than one user with the same tag is answered by an error standing for Spring Data's non-unique-result exception (500).
- UsuarioController.CreateUsuario and LectorController.CreateLector: a body carrying an id that no row has is persisted under the next id, as Hibernate 5's `merge` does; later Hibernate versions throw there instead, which is not modelled.
- JwtUtil.ValidateToken: the clock reads of one validation (the two parses and `new Date()`) are a single `now`; a token expiring between them, which answers false, is not modelled.
- Api.CallResolution: only dates that are plain path segments are covered. A date with `%` escapes, `;` parameters, `?`, `#` or a dot segment is decoded, stripped or normalised by the server before matching; `Api.Expected` reads it raw, and that is not modelled.
- JwtRequestFilter.DoFilterInternal: an escaping exception is a flag with no chain call; what Spring then answers is not modelled.
- Registros.Filtered: total, while the page's filter can throw. A reader saved without a location (LectorController.java:32-35 saves the body as given) or a user without a name becomes a row whose `lector` or `usuario` is null (Registros.js:76-77), and `toLowerCase` on it (Registros.js:102-103) throws a TypeError once a search term is typed (for a null location, a term the user name does not contain). `new Date(registro.fechaHora).toISOString()` (Registros.js:114) throws a RangeError on an unparsable timestamp. Display names are strings and the date key is a given function here, so neither throw is modelled.
- Registros.MatchesSearch: a null user name or reader location, on which the search's `toLowerCase` throws, cannot be expressed.
- EndToEnd.ScanOutcome: assumes the scan reaches the controller. SecurityConfig.java:18-20 requires authentication for `/registros/rfid`, and the firmware sends no `Authorization` header (main.cpp:89-90), so the shipped backend refuses the scan before the controller; that refusal is not modelled.
- EndToEnd.IssuedTokenAuthenticates: assumes `JwtRequestFilter` runs before authorisation. SecurityConfig.java:26 never adds it to the security filter chain, and as a plain servlet filter it runs only after that chain has refused an unauthenticated request, so in the shipped configuration a bearer token authenticates nothing.
- RegistroController.CreateRegistroByRfid: `lectorId` is an integer; a missing `lectorId`, for which `findById(null)` throws, is not modelled.
- RegistroController.CreateRegistro: `usuarioId` and `lectorId` are integers; a body missing either, for which `findById(null)` throws (500, nothing saved), is not modelled.
- Lectores.Filtered: a throw is the absent result; what React shows after a render throws is not modelled.
- LectorController and Lectores: readers carry the `estado` the controller and the page read and write, although the shipped entity declares none (Lector.java:13).
- EndToEnd.ViewOf: a record's `usuarioId`/`lectorId` are taken as the ids of its embedded user and reader. The `Registro` entity is not part of this model.
- Firmware.LoopClock: the two `millis()` reads in one pass are separate parameters; the model does not relate them.
- Usuarios.Submit and Lectores.Submit: the form's `required` inputs are modelled as blocking an empty submit. Other browser validation is not.

## Findings

| source | as written | input that shows it | evidently intended | confidence | as-written member | corrected member |
|---|---|---|---|---|---|---|
| front/control-acceso-frontend/src/components/Registros.js:129-130 | entries and exits are counted by exact comparison with `Entrada`/`Salida` | any record saved by the backend, whose type is `entrada` or `salida` (RegistroController.java:113-116): both counts stay 0 | count movement types ignoring case, so backend records are counted | medium, not executed | EndToEnd.DashboardCountsStayZero | EndToEnd.DashboardCountsCorrected |
| front/control-acceso-frontend/src/components/Registros.js:131-134 | today's records are those whose `fechaHora` up to the first space equals today's date | a record stamped `2024-05-01T08:00:00` on 2024-05-01 is not counted | take the date up to the `T` of the ISO timestamp | low (depends on how the backend serialises `LocalDateTime`), not executed | Registros.TodayCountFinding | Registros.IsoTimestampDay |
| front/control-acceso-frontend/src/components/Registros.js:124-127 | the filter inputs' `onChange` (lines 231, 313, 329, 345, 361, 373) set the filter but keep `currentPage`; the pagination bar is rendered only for more than one page (line 485) | on page 3 at 10 per page, a search leaving 4 matching records shows "No se encontraron registros" and no bar; only "Limpiar filtros" or the page-size selector return to page 1 | return to page 1 when a filter changes | medium, not executed | Registros.FilterKeepsStalePage | Registros.FilterResetShowsMatches |
| front/control-acceso-frontend/src/components/Registros.js:111-112 | the type filter offers `Entrada` and `Salida` (lines 351-352) and compares exactly | "Solo entradas" over backend records typed `entrada` (RegistroController.java:113-116) shows no record | compare the type ignoring case | medium, not executed | Registros.TipoFilterHidesBackendTypes | Registros.TipoFilterIgnoringCase |
| front/control-acceso-frontend/src/components/Lectores.js:71-79 | the filter calls `toLowerCase` on `lector.estado` while a status is chosen and on `lector.ubicacion` while a term is typed | the reader the backend seeds has no `estado` (DemoApplication.java:37-39): choosing "Solo activos" throws while the page renders | let a null field not match | medium, not executed | Lectores.NullFieldBreaksFilter | Lectores.NullSafeAgrees |

=== FILE: api.dfy ===
/** The frontend's HTTP client: base URL selection, the `Authorization` interceptor and the
    path each exported call requests, resolved against the backend's mappings. */
module Api {
  import opened Wrappers
  import opened Text
  import opened Routing

  const PRODUCTION_URL := "https://proyectoredes.onrender.com"
  const DEVELOPMENT_URL := "http://localhost:8080"

  /** The base URL chosen from `process.env.NODE_ENV` (absent when the variable is unset). */
  function BaseUrl(nodeEnv: Option<string>): (r: string)
    ensures r == PRODUCTION_URL <==> nodeEnv == Some("production")
    ensures r == DEVELOPMENT_URL <==> nodeEnv != Some("production")
  {
    if nodeEnv == Some("production") then PRODUCTION_URL else DEVELOPMENT_URL
  }

  /** JavaScript truthiness of `localStorage.getItem(...)`: null and "" are falsy. */
  predicate Truthy(token: Option<string>)
  {
    token.Some? && token.value != ""
  }

  /** The request interceptor: sets `Authorization` when a token is stored. */
  function Intercept(headers: map<string, string>, token: Option<string>): (r: map<string, string>)
    ensures Truthy(token) ==> "Authorization" in r && r["Authorization"] == "Bearer " + token.value
    ensures !Truthy(token) ==> r == headers
    ensures forall k :: k in headers && k != "Authorization" ==> k in r && r[k] == headers[k]
    ensures forall k :: k in r && k != "Authorization" ==> k in headers
  {
    if Truthy(token) then headers["Authorization" := "Bearer " + token.value] else headers
  }

  /** The exported calls of the client, with the values interpolated into their paths. */
  datatype Call =
    | Login
    | ObtenerUsuarios | CrearUsuario | ActualizarUsuario(id: int) | EliminarUsuario(id: int) | ObtenerUsuariosActivos
    | ObtenerLectores | CrearLector | ActualizarLector(id: int) | EliminarLector(id: int)
    | ObtenerLectoresActivos | ObtenerLectoresConRegistros
    | ObtenerRegistros | CrearRegistro | ObtenerRegistrosPorUsuario(id: int)
    | ObtenerRegistrosPorFecha(fecha: string) | ObtenerRegistrosPorLector(id: int)
    | ObtenerUltimoTagDesconocido

  function Verb(c: Call): Method
  {
    match c
    case Login | CrearUsuario | CrearLector | CrearRegistro => POST
    case ActualizarUsuario(_) | ActualizarLector(_) => PUT
    case EliminarUsuario(_) | EliminarLector(_) => DELETE
    case _ => GET
  }

  /** The path segments of the call; a template literal renders a number in decimal. */
  function PathSegments(c: Call): seq<string>
  {
    match c
    case Login => ["auth", "login"]
    case ObtenerUsuarios | CrearUsuario => ["usuarios"]
    case ActualizarUsuario(id) => ["usuarios", IntToString(id)]
    case EliminarUsuario(id) => ["usuarios", IntToString(id)]
    case ObtenerUsuariosActivos => ["usuarios", "activos"]
    case ObtenerLectores | CrearLector => ["lectores"]
    case ActualizarLector(id) => ["lectores", IntToString(id)]
    case EliminarLector(id) => ["lectores", IntToString(id)]
    case ObtenerLectoresActivos => ["lectores", "activos"]
    case ObtenerLectoresConRegistros => ["lectores", "con-registros"]
    case ObtenerRegistros | CrearRegistro => ["registros"]
    case ObtenerRegistrosPorUsuario(id) => ["registros", "usuario", IntToString(id)]
    case ObtenerRegistrosPorFecha(f) => ["registros", "fecha", f]
    case ObtenerRegistrosPorLector(id) => ["registros", "lector", IntToString(id)]
    case ObtenerUltimoTagDesconocido => ["registros", "ultimo-desconocido"]
  }

  /** The URL path the call requests. */
  function RequestPath(c: Call): string
  {
    Path(PathSegments(c))
  }

  lemma DecimalHasNoSlash(n: int)
    ensures '/' !in IntToString(n)
  {
    IntToStringIsLong(n);
  }

  /** The dispatcher sees exactly the segments the client put into the path, provided an
      interpolated date contains no '/'. */
  lemma RequestPathSegments(c: Call)
    requires c.ObtenerRegistrosPorFecha? ==> '/' !in c.fecha
    ensures Segments(RequestPath(c)) == PathSegments(c)
  {
    if c.ActualizarUsuario? || c.EliminarUsuario? || c.ActualizarLector? || c.EliminarLector?
      || c.ObtenerRegistrosPorUsuario? || c.ObtenerRegistrosPorLector? {
      DecimalHasNoSlash(c.id);
    }
    SegmentsAvoidSlash(c);
    SegmentsOfPath(PathSegments(c));
  }

  lemma SegmentsAvoidSlash(c: Call)
    requires c.ObtenerRegistrosPorFecha? ==> '/' !in c.fecha
    ensures forall i :: 0 <= i < |PathSegments(c)| ==> '/' !in PathSegments(c)[i]
  {
    if c.ActualizarUsuario? || c.EliminarUsuario? || c.ActualizarLector? || c.EliminarLector?
      || c.ObtenerRegistrosPorUsuario? || c.ObtenerRegistrosPorLector? {
      DecimalHasNoSlash(c.id);
      assert PathSegments(c)[|PathSegments(c)| - 1] == IntToString(c.id);
    } else {
      FixedSegmentsAvoidSlash(c);
    }
  }

  /** The segments of a call without an id are literals, or the date. */
  lemma FixedSegmentsAvoidSlash(c: Call)
    requires c.ObtenerRegistrosPorFecha? ==> '/' !in c.fecha
    requires !(c.ActualizarUsuario? || c.EliminarUsuario? || c.ActualizarLector? || c.EliminarLector?
      || c.ObtenerRegistrosPorUsuario? || c.ObtenerRegistrosPorLector?)
    ensures forall i :: 0 <= i < |PathSegments(c)| ==> '/' !in PathSegments(c)[i]
  {
  }

  /** The controller method the call is meant to reach. */
  function Endpoint(c: Call): string
  {
    match c
    case Login => "createAuthenticationToken"
    case ObtenerUsuarios => "getAllUsuarios"
    case CrearUsuario => "createUsuario"
    case ActualizarUsuario(_) => "updateUsuario"
    case EliminarUsuario(_) => "deleteUsuario"
    case ObtenerUsuariosActivos => "getActiveUsuarios"
    case ObtenerLectores => "getAllLectores"
    case CrearLector => "createLector"
    case ActualizarLector(_) => "updateLector"
    case EliminarLector(_) => "deleteLector"
    case ObtenerLectoresActivos => "getLectoresActivos"
    case ObtenerLectoresConRegistros => "getLectoresConRegistros"
    case ObtenerRegistros => "getAllRegistros"
    case CrearRegistro => "createRegistro"
    case ObtenerRegistrosPorUsuario(_) => "getRegistrosByUsuario"
    case ObtenerRegistrosPorFecha(_) => "getRegistrosByFecha"
    case ObtenerRegistrosPorLector(_) => "getRegistrosByLector"
    case ObtenerUltimoTagDesconocido => "getUltimoTagDesconocido"
  }

  /** What the backend does with the call: the two reader queries have no mapping of their
      own, fall on `/lectores/{id}` and fail the Long conversion; a date `ISO_DATE` does not
      read fails the date conversion; every other call reaches its endpoint. */
  function Expected(c: Call): Resolution
  {
    if c.ObtenerLectoresActivos? || c.ObtenerLectoresConRegistros? then BadRequest
    else if c.ObtenerRegistrosPorFecha? && c.fecha == "" then NoHandler
    else if c.ObtenerRegistrosPorFecha? && !IsIsoDate(c.fecha) then BadRequest
    else Handled(Endpoint(c))
  }

  lemma ControllerPrefixes()
    ensures Under(AuthMappings, "auth")
    ensures Under(UsuarioMappings, "usuarios")
    ensures Under(LectorMappings, "lectores")
    ensures Under(RegistroMappings, "registros")
  {
  }

  /** Resolving the whole table is resolving the controller the first segment names. */
  lemma ByController(verb: Method, segs: seq<string>)
    requires |segs| > 0
    ensures segs[0] == "auth" ==> Resolve(Mappings, verb, segs) == Resolve(AuthMappings, verb, segs)
    ensures segs[0] == "usuarios" ==> Resolve(Mappings, verb, segs) == Resolve(UsuarioMappings, verb, segs)
    ensures segs[0] == "lectores" ==> Resolve(Mappings, verb, segs) == Resolve(LectorMappings, verb, segs)
    ensures segs[0] == "registros" ==> Resolve(Mappings, verb, segs) == Resolve(RegistroMappings, verb, segs)
  {
    ControllerPrefixes();
    ResolveAppend(AuthMappings + UsuarioMappings + LectorMappings, RegistroMappings, verb, segs);
    ResolveAppend(AuthMappings + UsuarioMappings, LectorMappings, verb, segs);
    ResolveAppend(AuthMappings, UsuarioMappings, verb, segs);
    if segs[0] != "auth" { OutsidePrefix(AuthMappings, "auth", verb, segs); }
    if segs[0] != "usuarios" { OutsidePrefix(UsuarioMappings, "usuarios", verb, segs); }
    if segs[0] != "lectores" { OutsidePrefix(LectorMappings, "lectores", verb, segs); }
    if segs[0] != "registros" { OutsidePrefix(RegistroMappings, "registros", verb, segs); }
  }

  predicate IsUsuarioCall(c: Call)
  {
    c.ObtenerUsuarios? || c.CrearUsuario? || c.ActualizarUsuario? || c.EliminarUsuario? || c.ObtenerUsuariosActivos?
  }

  predicate IsLectorCall(c: Call)
  {
    c.ObtenerLectores? || c.CrearLector? || c.ActualizarLector? || c.EliminarLector?
    || c.ObtenerLectoresActivos? || c.ObtenerLectoresConRegistros?
  }

  predicate IsRegistroCall(c: Call)
  {
    !c.Login? && !IsUsuarioCall(c) && !IsLectorCall(c)
  }

  // One lemma per request: each walks its controller's mappings in order, one step per
  // mapping, on the literal segments; the `...Calls` lemmas connect them to `PathSegments`.

  lemma ObtenerUsuariosCall()
    ensures Resolve(UsuarioMappings, GET, ["usuarios"]) == Handled("getAllUsuarios")
  {
    var m, segs := UsuarioMappings, ["usuarios"];
    WalkEnds(m, GET, segs);
    HitAt(m, 0, GET, segs);
  }

  lemma CrearUsuarioCall()
    ensures Resolve(UsuarioMappings, POST, ["usuarios"]) == Handled("createUsuario")
  {
    var m, segs := UsuarioMappings, ["usuarios"];
    WalkEnds(m, POST, segs);
    SkipAt(m, 0, POST, segs);
    HitAt(m, 1, POST, segs);
  }

  /** `activos` fails the Long conversion of `/usuarios/{id}`. */
  lemma ActivosIsNoUsuarioId()
    ensures !Serves(UsuarioMappings[2], GET, ["usuarios", "activos"])
  {
    LongLiteralStarts("activos");
    assert !SegConverts(UsuarioMappings[2].pattern[1], "activos");
  }

  lemma UsuariosActivosCall()
    ensures Resolve(UsuarioMappings, GET, ["usuarios", "activos"]) == Handled("getActiveUsuarios")
  {
    var m, segs := UsuarioMappings, ["usuarios", "activos"];
    WalkEnds(m, GET, segs);
    ActivosIsNoUsuarioId();
    SkipAt(m, 0, GET, segs); SkipAt(m, 1, GET, segs);
    HitAt(m, 3, GET, segs);
    PassAt(m, 2, GET, segs);
  }

  /** A two-segment PUT or DELETE passes the four usuario mappings for GET and for the
      collection. */
  lemma UsuarioWritePrefix(v: Method, segs: seq<string>)
    requires (v == PUT || v == DELETE) && |segs| == 2
    ensures Resolve(UsuarioMappings, v, segs) == Resolve(UsuarioMappings[4..], v, segs)
  {
    var m := UsuarioMappings;
    WalkEnds(m, v, segs);
    SkipAt(m, 0, v, segs); SkipAt(m, 1, v, segs); SkipAt(m, 2, v, segs); SkipAt(m, 3, v, segs);
  }

  lemma ActualizarUsuarioCall(s: string)
    requires IsLongLiteral(s)
    ensures Resolve(UsuarioMappings, PUT, ["usuarios", s]) == Handled("updateUsuario")
  {
    UsuarioWritePrefix(PUT, ["usuarios", s]);
    HitAt(UsuarioMappings, 4, PUT, ["usuarios", s]);
  }

  lemma EliminarUsuarioCall(s: string)
    requires IsLongLiteral(s)
    ensures Resolve(UsuarioMappings, DELETE, ["usuarios", s]) == Handled("deleteUsuario")
  {
    UsuarioWritePrefix(DELETE, ["usuarios", s]);
    SkipAt(UsuarioMappings, 4, DELETE, ["usuarios", s]);
    HitAt(UsuarioMappings, 5, DELETE, ["usuarios", s]);
  }

  lemma ObtenerLectoresCall()
    ensures Resolve(LectorMappings, GET, ["lectores"]) == Handled("getAllLectores")
  {
    var m, segs := LectorMappings, ["lectores"];
    WalkEnds(m, GET, segs);
    HitAt(m, 0, GET, segs);
  }

  lemma CrearLectorCall()
    ensures Resolve(LectorMappings, POST, ["lectores"]) == Handled("createLector")
  {
    var m, segs := LectorMappings, ["lectores"];
    WalkEnds(m, POST, segs);
    SkipAt(m, 0, POST, segs);
    HitAt(m, 1, POST, segs);
  }

  lemma LectorQueryCall(s: string)
    requires s != "" && !IsLongLiteral(s)
    ensures Resolve(LectorMappings, GET, ["lectores", s]) == BadRequest
  {
    var m, segs := LectorMappings, ["lectores", s];
    WalkEnds(m, GET, segs);
    assert !SegConverts(m[2].pattern[1], s);
    OtherVerbAt(m, 4, GET, segs); SkipAt(m, 3, GET, segs);
    RejectAt(m, 2, GET, segs);
    SkipAt(m, 1, GET, segs); SkipAt(m, 0, GET, segs);
  }

  /** A two-segment PUT or DELETE passes the three lector mappings for GET and for the
      collection. */
  lemma LectorWritePrefix(v: Method, segs: seq<string>)
    requires (v == PUT || v == DELETE) && |segs| == 2
    ensures Resolve(LectorMappings, v, segs) == Resolve(LectorMappings[3..], v, segs)
  {
    var m := LectorMappings;
    WalkEnds(m, v, segs);
    SkipAt(m, 0, v, segs); SkipAt(m, 1, v, segs); SkipAt(m, 2, v, segs);
  }

  lemma ActualizarLectorCall(s: string)
    requires IsLongLiteral(s)
    ensures Resolve(LectorMappings, PUT, ["lectores", s]) == Handled("updateLector")
  {
    LectorWritePrefix(PUT, ["lectores", s]);
    HitAt(LectorMappings, 3, PUT, ["lectores", s]);
  }

  lemma EliminarLectorCall(s: string)
    requires IsLongLiteral(s)
    ensures Resolve(LectorMappings, DELETE, ["lectores", s]) == Handled("deleteLector")
  {
    LectorWritePrefix(DELETE, ["lectores", s]);
    SkipAt(LectorMappings, 3, DELETE, ["lectores", s]);
    HitAt(LectorMappings, 4, DELETE, ["lectores", s]);
  }

  lemma ObtenerRegistrosCall()
    ensures Resolve(RegistroMappings, GET, ["registros"]) == Handled("getAllRegistros")
  {
    var m, segs := RegistroMappings, ["registros"];
    WalkEnds(m, GET, segs);
    HitAt(m, 0, GET, segs);
  }

  lemma UltimoTagCall()
    ensures Resolve(RegistroMappings, GET, ["registros", "ultimo-desconocido"]) == Handled("getUltimoTagDesconocido")
  {
    var m, segs := RegistroMappings, ["registros", "ultimo-desconocido"];
    WalkEnds(m, GET, segs);
    SkipAt(m, 0, GET, segs);
    HitAt(m, 1, GET, segs);
  }

  lemma CrearRegistroCall()
    ensures Resolve(RegistroMappings, POST, ["registros"]) == Handled("createRegistro")
  {
    var m, segs := RegistroMappings, ["registros"];
    WalkEnds(m, POST, segs);
    SkipAt(m, 0, POST, segs); SkipAt(m, 1, POST, segs);
    HitAt(m, 2, POST, segs);
  }

  /** A three-segment GET passes the first four registro mappings, which differ from it in
      verb or length. */
  lemma RegistroGetPrefix(segs: seq<string>)
    requires |segs| == 3
    ensures Resolve(RegistroMappings, GET, segs) == Resolve(RegistroMappings[4..], GET, segs)
  {
    var m := RegistroMappings;
    WalkEnds(m, GET, segs);
    SkipAt(m, 0, GET, segs); SkipAt(m, 1, GET, segs); SkipAt(m, 2, GET, segs); SkipAt(m, 3, GET, segs);
  }

  lemma RegistrosPorUsuarioCall(s: string)
    requires IsLongLiteral(s)
    ensures Resolve(RegistroMappings, GET, ["registros", "usuario", s]) == Handled("getRegistrosByUsuario")
  {
    var m, segs := RegistroMappings, ["registros", "usuario", s];
    RegistroGetPrefix(segs);
    assert !SegMatches(m[4].pattern[1], segs[1]);
    SkipAt(m, 4, GET, segs); HitAt(m, 5, GET, segs);
  }

  lemma RegistrosPorLectorCall(s: string)
    requires IsLongLiteral(s)
    ensures Resolve(RegistroMappings, GET, ["registros", "lector", s]) == Handled("getRegistrosByLector")
  {
    var m, segs := RegistroMappings, ["registros", "lector", s];
    RegistroGetPrefix(segs);
    assert !SegMatches(m[4].pattern[1], segs[1]) && !SegMatches(m[5].pattern[1], segs[1]);
    SkipAt(m, 4, GET, segs); SkipAt(m, 5, GET, segs); HitAt(m, 6, GET, segs);
  }

  lemma RegistroFechaTail(segs: seq<string>)
    requires |segs| == 3 && segs[1] == "fecha"
    ensures Resolve(RegistroMappings[5..], GET, segs) == NoHandler
  {
    var m := RegistroMappings;
    WalkEnds(m, GET, segs);
    assert !SegMatches(m[5].pattern[1], segs[1]) && !SegMatches(m[6].pattern[1], segs[1]);
    SkipAt(m, 6, GET, segs); SkipAt(m, 5, GET, segs);
  }

  lemma RegistroFechaEmpty()
    ensures Resolve(RegistroMappings, GET, ["registros", "fecha", ""]) == NoHandler
  {
    var m, segs := RegistroMappings, ["registros", "fecha", ""];
    RegistroGetPrefix(segs);
    RegistroFechaTail(segs);
    assert !SegMatches(m[4].pattern[2], segs[2]);
    SkipAt(m, 4, GET, segs);
  }

  lemma RegistroFechaMalformed(f: string)
    requires f != "" && !IsIsoDate(f)
    ensures Resolve(RegistroMappings, GET, ["registros", "fecha", f]) == BadRequest
  {
    var m, segs := RegistroMappings, ["registros", "fecha", f];
    RegistroGetPrefix(segs);
    RegistroFechaTail(segs);
    assert !SegConverts(m[4].pattern[2], segs[2]);
    RejectAt(m, 4, GET, segs);
  }

  lemma RegistroFechaIso(f: string)
    requires IsIsoDate(f)
    ensures Resolve(RegistroMappings, GET, ["registros", "fecha", f]) == Handled("getRegistrosByFecha")
  {
    var segs := ["registros", "fecha", f];
    RegistroGetPrefix(segs);
    HitAt(RegistroMappings, 4, GET, segs);
  }

  lemma RegistroFecha(f: string)
    ensures Resolve(RegistroMappings, GET, PathSegments(ObtenerRegistrosPorFecha(f))) == Expected(ObtenerRegistrosPorFecha(f))
  {
    assert PathSegments(ObtenerRegistrosPorFecha(f)) == ["registros", "fecha", f];
    if IsIsoDate(f) {
      RegistroFechaIso(f);
    } else if f == "" {
      RegistroFechaEmpty();
    } else {
      RegistroFechaMalformed(f);
    }
  }

  lemma UsuarioCalls(c: Call)
    requires IsUsuarioCall(c)
    ensures Resolve(UsuarioMappings, Verb(c), PathSegments(c)) == Expected(c)
  {
    if c.ObtenerUsuarios? {
      ObtenerUsuariosCall();
    } else if c.CrearUsuario? {
      CrearUsuarioCall();
    } else if c.ObtenerUsuariosActivos? {
      UsuariosActivosCall();
    } else if c.ActualizarUsuario? {
      IntToStringIsLong(c.id);
      ActualizarUsuarioCall(IntToString(c.id));
    } else {
      IntToStringIsLong(c.id);
      EliminarUsuarioCall(IntToString(c.id));
    }
  }

  lemma LectorCalls(c: Call)
    requires IsLectorCall(c)
    ensures Resolve(LectorMappings, Verb(c), PathSegments(c)) == Expected(c)
  {
    if c.ObtenerLectores? {
      ObtenerLectoresCall();
    } else if c.CrearLector? {
      CrearLectorCall();
    } else if c.ObtenerLectoresActivos? {
      LongLiteralStarts("activos");
      LectorQueryCall("activos");
    } else if c.ObtenerLectoresConRegistros? {
      LongLiteralStarts("con-registros");
      LectorQueryCall("con-registros");
    } else if c.ActualizarLector? {
      IntToStringIsLong(c.id);
      ActualizarLectorCall(IntToString(c.id));
    } else {
      IntToStringIsLong(c.id);
      EliminarLectorCall(IntToString(c.id));
    }
  }

  lemma RegistroCalls(c: Call)
    requires IsRegistroCall(c)
    ensures Resolve(RegistroMappings, Verb(c), PathSegments(c)) == Expected(c)
  {
    if c.ObtenerRegistrosPorFecha? {
      RegistroFecha(c.fecha);
    } else if c.ObtenerRegistros? {
      ObtenerRegistrosCall();
    } else if c.ObtenerUltimoTagDesconocido? {
      UltimoTagCall();
    } else if c.CrearRegistro? {
      CrearRegistroCall();
    } else if c.ObtenerRegistrosPorUsuario? {
      IntToStringIsLong(c.id);
      RegistrosPorUsuarioCall(IntToString(c.id));
    } else {
      IntToStringIsLong(c.id);
      RegistrosPorLectorCall(IntToString(c.id));
    }
  }

  lemma LoginCall()
    ensures Resolve(Mappings, POST, ["auth", "login"]) == Handled("createAuthenticationToken")
  {
    ByController(POST, ["auth", "login"]);
    HitAt(AuthMappings, 0, POST, ["auth", "login"]);
    WalkEnds(AuthMappings, POST, ["auth", "login"]);
  }

  /** A string the server's path matching sees unchanged as one segment: nothing it splits
      at (`/`), decodes (`%`), strips (`;` parameters) or ends the path at (`?`, `#`), and
      not a dot segment it normalises away. */
  predicate PlainSegment(f: string)
  {
    && (forall i :: 0 <= i < |f| ==> f[i] !in "/%;?#")
    && f != "." && f != ".."
  }

  /** A path the backend maps only under other verbs is refused with 405, not 404: DELETE
      on the user collection. */
  lemma DeleteUsuariosIs405()
    ensures Resolve(Mappings, DELETE, ["usuarios"]) == MethodNotAllowed
  {
    var m, segs := UsuarioMappings, ["usuarios"];
    ByController(DELETE, segs);
    WalkEnds(m, DELETE, segs);
    SkipAt(m, 5, DELETE, segs); SkipAt(m, 4, DELETE, segs); SkipAt(m, 3, DELETE, segs); SkipAt(m, 2, DELETE, segs);
    OtherVerbAt(m, 1, DELETE, segs);
    SkipAt(m, 0, DELETE, segs);
  }

  /** POST on one user is refused with 405. */
  lemma PostUsuarioIs405()
    ensures Resolve(Mappings, POST, ["usuarios", "1"]) == MethodNotAllowed
  {
    var m, segs := UsuarioMappings, ["usuarios", "1"];
    ByController(POST, segs);
    WalkEnds(m, POST, segs);
    OtherVerbAt(m, 5, POST, segs);
    SkipAt(m, 4, POST, segs); SkipAt(m, 3, POST, segs); SkipAt(m, 2, POST, segs);
    SkipAt(m, 1, POST, segs); SkipAt(m, 0, POST, segs);
  }

  /** PUT on the record collection is refused with 405. */
  lemma PutRegistrosIs405()
    ensures Resolve(Mappings, PUT, ["registros"]) == MethodNotAllowed
  {
    var m, segs := RegistroMappings, ["registros"];
    ByController(PUT, segs);
    WalkEnds(m, PUT, segs);
    SkipAt(m, 6, PUT, segs); SkipAt(m, 5, PUT, segs); SkipAt(m, 4, PUT, segs); SkipAt(m, 3, PUT, segs);
    OtherVerbAt(m, 2, PUT, segs);
    SkipAt(m, 1, PUT, segs); SkipAt(m, 0, PUT, segs);
  }

  /** Every call of the client resolves as `Expected` says, for a date the path carries as a
      plain segment. */
  lemma CallResolution(c: Call)
    requires c.ObtenerRegistrosPorFecha? ==> PlainSegment(c.fecha)
    ensures Resolve(Mappings, Verb(c), Segments(RequestPath(c))) == Expected(c)
  {
    RequestPathSegments(c);
    var segs := PathSegments(c);
    if c.Login? {
      LoginCall();
    } else if IsUsuarioCall(c) {
      assert segs[0] == "usuarios";
      ByController(Verb(c), segs);
      UsuarioCalls(c);
    } else if IsLectorCall(c) {
      assert segs[0] == "lectores";
      ByController(Verb(c), segs);
      LectorCalls(c);
    } else {
      assert segs[0] == "registros";
      ByController(Verb(c), segs);
      RegistroCalls(c);
    }
  }
}

=== FILE: end_to_end.dfy ===
/** Properties that span the frontend, the backend and the firmware: the bearer header the
    client writes is the token the filter reads, users created from the user page start
    active, a card scan's display message follows the controller's answer, and the
    dashboard's movement counts never see the backend's records. */
module EndToEnd {
  import opened Wrappers
  import Text
  import Seqs
  import Persistence
  import UsuarioController
  import RegistroController
  import JwtUtil
  import JwtRequestFilter
  import Api
  import Usuarios
  import Registros
  import Firmware

  // ---- the bearer header --------------------------------------------------------------

  /** The filter extracts exactly the token the interceptor put into the header. */
  lemma BearerRoundTrip(headers: map<string, string>, token: string)
    requires Api.Truthy(Some(token))
    ensures var sent := Api.Intercept(headers, Some(token));
      "Authorization" in sent && JwtRequestFilter.ExtractToken(Some(sent["Authorization"])) == Some(token)
  {
    var header := "Bearer " + token;
    assert header[..7] == "Bearer ";
    var r := JwtRequestFilter.ExtractToken(Some(header));
    assert header == "Bearer " + r.value;
    assert r.value == header[7..];
  }

  /** Without a stored token no header is added, and the filter leaves the request as it was. */
  lemma NoTokenNoAuthentication(headers: map<string, string>, token: Option<string>,
                                parse: string -> JwtRequestFilter.ParseOutcome,
                                loadUser: string -> Option<JwtRequestFilter.UserDetails>, now: int)
    requires !Api.Truthy(token) && "Authorization" !in headers
    ensures "Authorization" !in Api.Intercept(headers, token)
    ensures JwtRequestFilter.DoFilterInternal(None, parse, None, loadUser, now) == JwtRequestFilter.FilterResult(None, 1, false)
  {
  }

  /** A request carrying a token issued at login for `username` is authenticated as that
      user while the token lasts. */
  lemma IssuedTokenAuthenticates(username: string, token: string, issuedClock: nat, expiryClock: nat, now: int,
                                 parse: string -> JwtRequestFilter.ParseOutcome,
                                 loadUser: string -> Option<JwtRequestFilter.UserDetails>)
    requires token != ""
    requires parse(token) == JwtRequestFilter.Parsed(JwtUtil.GenerateToken(username, issuedClock, expiryClock))
    requires loadUser(username) == Some(JwtRequestFilter.UserDetails(username))
    requires now <= JwtUtil.WholeSeconds(expiryClock + JwtUtil.JWT_TOKEN_VALIDITY * 1000)
    ensures var header := Api.Intercept(map[], Some(token))["Authorization"];
      JwtRequestFilter.DoFilterInternal(Some(header), parse, None, loadUser, now)
        == JwtRequestFilter.FilterResult(Some(JwtRequestFilter.Authentication(JwtRequestFilter.UserDetails(username))), 1, false)
  {
    BearerRoundTrip(map[], token);
    JwtUtil.GeneratedTokenRoundTrip(username, username, issuedClock, expiryClock, now);
    var header := Api.Intercept(map[], Some(token))["Authorization"];
    assert JwtRequestFilter.Authenticates(Some(header), parse, None, loadUser, now, JwtRequestFilter.UserDetails(username));
  }

  // ---- the user page and the user controller -----------------------------------------

  /** The JSON the page sends, read by the backend as an entity. */
  function ToEntity(u: Usuarios.UsuarioItem): Persistence.Usuario
  {
    Persistence.Usuario(u.id, u.nombre, u.documento, u.rfidTag, u.estado)
  }

  /** The page's create form has no `id`, no `estado` and no tag, so the backend stores a new
      user under the next id, active and without a card, and the movement endpoints accept
      them. */
  lemma CreatedFromPageIsActive(page: Usuarios.UsuariosPage, t: Persistence.Table<Persistence.Usuario>)
    requires Usuarios.Coherent(page) && page.editing.None?
    ensures var saved := UsuarioController.CreateUsuario(t, None, ToEntity(Usuarios.SubmitBody(page))).1;
      && saved.id == t.nextId && saved.estado == Some("Activo") && saved.rfidTag == None
      && saved.nombre == page.form.nombre && saved.documento == page.form.documento
      && RegistroController.IsActivo(saved.estado)
  {
  }

  /** Editing a user on the page sends the whole copy, so the backend's four-field update
      keeps the user's tag and `estado` and changes only the name and document. */
  lemma EditFromPageKeepsTagAndEstado(page: Usuarios.UsuariosPage, t: Persistence.Table<Persistence.Usuario>)
    requires Usuarios.Coherent(page) && page.editing.Some?
    requires page.editing.value.id in t.rows && t.rows[page.editing.value.id] == ToEntity(page.editing.value)
    ensures var r := UsuarioController.UpdateUsuario(t, page.editing.value.id, ToEntity(Usuarios.SubmitBody(page)));
      var stored := t.rows[page.editing.value.id];
      r.Ok? && r.value.1 == stored.(nombre := page.form.nombre, documento := page.form.documento)
  {
  }

  // ---- a card scan --------------------------------------------------------------------

  /** The status the backend answers a scan with. */
  function ResponseCode(r: RegistroController.Reply): int
  {
    if r.result.Ok? then 200 else RegistroController.Status(r.result.error)
  }

  /** A card is read, its tag posted to `/registros/rfid`, and the display shows the
      outcome: "Acceso Correcto" exactly when a record was saved, and for a card no user
      carries a 404 denial, with the tag left for `/ultimo-desconocido`. */
  lemma ScanOutcome(c: RegistroController.Controller, usuarios: Persistence.Table<Persistence.Usuario>,
                    lectores: Persistence.Table<Persistence.Lector>, uid: seq<Firmware.byte>, now: int)
    ensures var tag := Firmware.EncodeUid(uid);
      var req := RegistroController.RfidRequest(Some(tag), Firmware.LECTOR_ID);
      var reply := RegistroController.CreateRegistroByRfid(c, usuarios, lectores, req, now);
      var out := Firmware.EnviarTagRfid(true, tag, ResponseCode(reply));
      && out.0 == Some(Firmware.RfidBody(tag, req.lectorId))
      && (out.1 == Firmware.AccesoCorrecto <==> reply.result.Ok?)
      && (out.1 == Firmware.AccesoDenegado(404) <==> Persistence.TaggedIds(usuarios, Some(tag)) == {})
      && (Persistence.TaggedIds(usuarios, Some(tag)) == {} ==>
            RegistroController.GetUltimoTagDesconocido(reply.controller) == RegistroController.UltimoTag(tag))
  {
  }

  // ---- backend records on the dashboard -----------------------------------------------

  /** A backend record as the records page receives it; `fmt` renders the timestamp. */
  function RawOf(r: Persistence.Registro, fmt: int -> string): Registros.RawRegistro
  {
    Registros.RawRegistro(r.id, r.usuario.id, r.lector.id,
      Some(Registros.UsuarioRef(r.usuario.nombre)), Some(Registros.LectorRef(r.lector.ubicacion)),
      r.tipoMovimiento, fmt(r.fechaHora))
  }

  function ViewOf(rs: seq<Persistence.Registro>, fmt: int -> string): (vs: seq<Registros.VistaRegistro>)
    ensures |vs| == |rs|
    ensures forall i :: 0 <= i < |rs| ==> vs[i].tipoMovimiento == rs[i].tipoMovimiento && vs[i].id == rs[i].id
  {
    var raw := seq(|rs|, i requires 0 <= i < |rs| => RawOf(rs[i], fmt));
    Registros.NormalizeAll(raw)
  }

  predicate LowercaseTypes(rs: seq<Persistence.Registro>)
  {
    forall i :: 0 <= i < |rs| ==> rs[i].tipoMovimiento in {"entrada", "salida"}
  }

  lemma StepKeepsLowercaseTypes(c: RegistroController.Controller, usuarios: Persistence.Table<Persistence.Usuario>,
                                lectores: Persistence.Table<Persistence.Lector>, e: RegistroController.Event)
    requires LowercaseTypes(c.registros)
    ensures LowercaseTypes(RegistroController.Step(c, usuarios, lectores, e).registros)
  {
    var c' := RegistroController.Step(c, usuarios, lectores, e);
    if c'.registros != c.registros {
      assert |c'.registros| == |c.registros| + 1 && c'.registros[..|c.registros|] == c.registros;
    }
  }

  /** Every record the controller saves is typed `entrada` or `salida`. */
  lemma {:induction false} RunKeepsLowercaseTypes(c: RegistroController.Controller, usuarios: Persistence.Table<Persistence.Usuario>,
                                                  lectores: Persistence.Table<Persistence.Lector>, es: seq<RegistroController.Event>)
    requires LowercaseTypes(c.registros)
    ensures LowercaseTypes(RegistroController.Run(c, usuarios, lectores, es).registros)
    decreases |es|
  {
    if |es| > 0 {
      RunKeepsLowercaseTypes(c, usuarios, lectores, es[..|es| - 1]);
      StepKeepsLowercaseTypes(RegistroController.Run(c, usuarios, lectores, es[..|es| - 1]), usuarios, lectores, es[|es| - 1]);
    }
  }

  /** Whatever requests the controller handled from an empty table, the records page counts
      no entries and no exits, since it compares with `Entrada` and `Salida` exactly. */
  lemma DashboardCountsStayZero(nextId: int, usuarios: Persistence.Table<Persistence.Usuario>,
                                lectores: Persistence.Table<Persistence.Lector>, es: seq<RegistroController.Event>, fmt: int -> string)
    ensures var rs := RegistroController.Run(RegistroController.Start([], nextId), usuarios, lectores, es).registros;
      Registros.TotalEntradas(ViewOf(rs, fmt)) == 0 && Registros.TotalSalidas(ViewOf(rs, fmt)) == 0
  {
    var rs := RegistroController.Run(RegistroController.Start([], nextId), usuarios, lectores, es).registros;
    RunKeepsLowercaseTypes(RegistroController.Start([], nextId), usuarios, lectores, es);
    Registros.BackendTypesNotCounted(ViewOf(rs, fmt));
  }
  /** With the case-insensitive counts the same records split exactly into entries and exits. */
  lemma DashboardCountsCorrected(nextId: int, usuarios: Persistence.Table<Persistence.Usuario>,
                                 lectores: Persistence.Table<Persistence.Lector>, es: seq<RegistroController.Event>, fmt: int -> string)
    ensures var rs := RegistroController.Run(RegistroController.Start([], nextId), usuarios, lectores, es).registros;
      && Registros.TotalEntradasIgnoringCase(ViewOf(rs, fmt)) + Registros.TotalSalidasIgnoringCase(ViewOf(rs, fmt)) == |rs|
      && Registros.TotalEntradasIgnoringCase(ViewOf(rs, fmt)) == Registros.CountTipo(ViewOf(rs, fmt), "entrada")
  {
    var rs := RegistroController.Run(RegistroController.Start([], nextId), usuarios, lectores, es).registros;
    RunKeepsLowercaseTypes(RegistroController.Start([], nextId), usuarios, lectores, es);
    Registros.CountsIgnoringCaseOnBackendTypes(ViewOf(rs, fmt));
  }
}

=== FILE: firmware.dfy ===
/** The ESP32 reader: the UID-to-tag encoding of `loop()`, the request `enviarTagRfid`
    sends and the message it shows for each result, and the once-a-second clock refresh. */
module Firmware {
  import opened Wrappers
  import opened Text

  type byte = x: int | 0 <= x < 256

  const LECTOR_ID: int := 1
  const SERVER_URL: string := "http://192.168.128.10:8080/registros/rfid"

  // ---- hex digits ---------------------------------------------------------------------

  /** Digit `d` as Arduino's `String(b, HEX)` writes it: `0-9` then `a-f`. */
  function LowerHexDigit(d: int): (c: char)
    requires 0 <= d < 16
    ensures ('0' <= c <= '9') || ('a' <= c <= 'f')
  {
    if d < 10 then ('0' as int + d) as char else ('a' as int + d - 10) as char
  }

  /** Digit `d` of the upper-case alphabet `0-9A-F`. */
  function UpperHexDigit(d: int): (c: char)
    requires 0 <= d < 16
    ensures IsUpperHex(c)
  {
    if d < 10 then ('0' as int + d) as char else ('A' as int + d - 10) as char
  }

  predicate IsUpperHex(c: char)
  {
    ('0' <= c <= '9') || ('A' <= c <= 'F')
  }

  function HexValue(c: char): (d: int)
    requires IsUpperHex(c)
    ensures 0 <= d < 16 && UpperHexDigit(d) == c
  {
    if c <= '9' then c as int - '0' as int else c as int - 'A' as int + 10
  }

  lemma HexValueOfDigit(d: int)
    requires 0 <= d < 16
    ensures HexValue(UpperHexDigit(d)) == d
  {
  }

  // ---- the tag string -----------------------------------------------------------------

  /** `String(b, HEX)`: lower case, no leading zero. */
  function ArduinoHex(b: byte): (s: string)
    ensures |s| == if b < 0x10 then 1 else 2
  {
    if b < 0x10 then [LowerHexDigit(b)] else [LowerHexDigit(b / 16), LowerHexDigit(b % 16)]
  }

  /** What one turn of the loop appends for byte `b`: a `"0"` below `0x10`, then the hex. */
  function Chunk(b: byte): string
  {
    (if b < 0x10 then "0" else "") + ArduinoHex(b)
  }

  /** The string the loop has built after the bytes of `uid`, before `toUpperCase`. */
  function RawTag(uid: seq<byte>): string
  {
    if |uid| == 0 then "" else RawTag(uid[..|uid| - 1]) + Chunk(uid[|uid| - 1])
  }

  /** Two upper-case hex digits per byte, high nibble first. */
  function HexPair(b: byte): (s: string)
    ensures |s| == 2 && IsUpperHex(s[0]) && IsUpperHex(s[1])
  {
    [UpperHexDigit(b / 16), UpperHexDigit(b % 16)]
  }

  /** The tag a UID is expected to produce: byte `i` at characters `2i` and `2i+1`. */
  function EncodeUid(uid: seq<byte>): (s: string)
    ensures |s| == 2 * |uid|
    ensures forall i :: 0 <= i < |uid| ==> s[2 * i] == UpperHexDigit(uid[i] / 16) && s[2 * i + 1] == UpperHexDigit(uid[i] % 16)
  {
    if |uid| == 0 then ""
    else
      var rest := EncodeUid(uid[1..]);
      assert forall i :: 1 <= i < |uid| ==> uid[i] == uid[1..][i - 1];
      HexPair(uid[0]) + rest
  }

  lemma ChunkUpper(b: byte)
    ensures ToUpper(Chunk(b)) == HexPair(b)
  {
    if b < 0x10 {
      assert b / 16 == 0 && b % 16 == b;
      assert Chunk(b) == ['0', LowerHexDigit(b)];
    } else {
      assert Chunk(b) == [LowerHexDigit(b / 16), LowerHexDigit(b % 16)];
    }
  }

  lemma {:induction false} EncodeUidAppend(uid: seq<byte>, b: byte)
    ensures EncodeUid(uid + [b]) == EncodeUid(uid) + HexPair(b)
    decreases |uid|
  {
    if |uid| == 0 {
      assert ([b])[1..] == [];
    } else {
      assert (uid + [b])[1..] == uid[1..] + [b];
      EncodeUidAppend(uid[1..], b);
    }
  }

  /** Upper-casing the loop's string gives the expected encoding. */
  lemma {:induction false} RawTagUpper(uid: seq<byte>)
    ensures ToUpper(RawTag(uid)) == EncodeUid(uid)
    decreases |uid|
  {
    if |uid| > 0 {
      var init, last := uid[..|uid| - 1], uid[|uid| - 1];
      RawTagUpper(init);
      ToUpperAppend(RawTag(init), Chunk(last));
      ChunkUpper(last);
      EncodeUidAppend(init, last);
      assert init + [last] == uid;
    }
  }

  /** The tag-building loop of `loop()` followed by `rfidTag.toUpperCase()`. */
  method ReadTag(uid: seq<byte>) returns (tag: string)
    ensures tag == EncodeUid(uid)
    ensures |tag| == 2 * |uid|
  {
    var rfidTag := "";
    var i := 0;
    while i < |uid|
      invariant 0 <= i <= |uid|
      invariant rfidTag == RawTag(uid[..i])
    {
      rfidTag := rfidTag + (if uid[i] < 0x10 then "0" else "");
      rfidTag := rfidTag + ArduinoHex(uid[i]);
      assert uid[..i + 1][..i] == uid[..i];
      i := i + 1;
    }
    assert uid[..|uid|] == uid;
    RawTagUpper(uid);
    tag := ToUpper(rfidTag);
  }

  /** Every character of a tag is in `[0-9A-F]`; a byte below `0x10` starts with `'0'`. */
  lemma TagAlphabet(uid: seq<byte>)
    ensures forall k :: 0 <= k < |EncodeUid(uid)| ==> IsUpperHex(EncodeUid(uid)[k])
    ensures forall i :: 0 <= i < |uid| && uid[i] < 0x10 ==> EncodeUid(uid)[2 * i] == '0'
  {
    var s := EncodeUid(uid);
    forall k | 0 <= k < |s| ensures IsUpperHex(s[k]) {
      var i := k / 2;
      assert 0 <= i < |uid| && (k == 2 * i || k == 2 * i + 1);
      if k == 2 * i {
        assert s[k] == UpperHexDigit(uid[i] / 16);
      } else {
        assert s[k] == UpperHexDigit(uid[i] % 16);
      }
    }
  }

  /** Reads a tag back two characters at a time. */
  function DecodeTag(s: string): (r: Option<seq<byte>>)
    ensures r.Some? ==> 2 * |r.value| == |s|
    decreases |s|
  {
    if |s| == 0 then Some([])
    else if |s| == 1 || !IsUpperHex(s[0]) || !IsUpperHex(s[1]) then None
    else
      var rest := DecodeTag(s[2..]);
      if rest.None? then None else Some([HexValue(s[0]) * 16 + HexValue(s[1])] + rest.value)
  }

  lemma {:induction false} DecodeEncode(uid: seq<byte>)
    ensures DecodeTag(EncodeUid(uid)) == Some(uid)
    decreases |uid|
  {
    if |uid| > 0 {
      var s := EncodeUid(uid);
      assert s == HexPair(uid[0]) + EncodeUid(uid[1..]);
      assert s[2..] == EncodeUid(uid[1..]);
      DecodeEncode(uid[1..]);
      HexValueOfDigit(uid[0] / 16);
      HexValueOfDigit(uid[0] % 16);
      assert [uid[0]] + uid[1..] == uid;
    }
  }

  /** Different UIDs give different tags. */
  lemma EncodeInjective(a: seq<byte>, b: seq<byte>)
    requires EncodeUid(a) == EncodeUid(b)
    ensures a == b
  {
    DecodeEncode(a);
    DecodeEncode(b);
  }

  // ---- sending the tag ----------------------------------------------------------------

  /** The JSON body `{"rfidTag": ..., "lectorId": LECTOR_ID}`. */
  datatype RfidBody = RfidBody(rfidTag: string, lectorId: int)

  /** What the display shows after a scan. */
  datatype Lcd = AccesoCorrecto | AccesoDenegado(code: int) | ErrorDeConexion | WifiDesconectado

  function FirstLine(o: Lcd): string
  {
    match o
    case AccesoCorrecto => "Acceso Correcto"
    case AccesoDenegado(_) => "Acceso Denegado"
    case ErrorDeConexion => "Error de conexion"
    case WifiDesconectado => "WiFi Desconectado"
  }

  /** `enviarTagRfid`: `code` is what `http.POST` returns (negative for a transport error). */
  function EnviarTagRfid(wifiConnected: bool, tag: string, code: int): (r: (Option<RfidBody>, Lcd))
    ensures !wifiConnected <==> r.0.None?
    ensures !wifiConnected ==> r.1 == WifiDesconectado
    ensures wifiConnected ==> r.0 == Some(RfidBody(tag, LECTOR_ID))
    ensures wifiConnected ==> (r.1 == AccesoCorrecto <==> code == 200)
    ensures wifiConnected ==> (r.1.AccesoDenegado? <==> code > 0 && code != 200)
    ensures wifiConnected ==> (r.1 == ErrorDeConexion <==> code <= 0)
    ensures r.1.AccesoDenegado? ==> r.1.code == code
  {
    if !wifiConnected then (None, WifiDesconectado)
    else
      var body := RfidBody(tag, LECTOR_ID);
      if code == 200 then (Some(body), AccesoCorrecto)
      else if code > 0 then (Some(body), AccesoDenegado(code))
      else (Some(body), ErrorDeConexion)
  }

  // ---- the clock ----------------------------------------------------------------------

  const TIME_UPDATE_INTERVAL: int := 1000
  const WRAP: int := 0x1_0000_0000

  /** `unsigned long` on the ESP32. */
  type u32 = x: int | 0 <= x < 0x1_0000_0000

  /** `millis() - lastTimeUpdate` in unsigned 32-bit arithmetic. */
  function Elapsed(now: u32, last: u32): (e: u32)
    ensures e == (now - last) % WRAP
  {
    if now >= last then now - last else now - last + WRAP
  }

  /** `millis() - lastTimeUpdate > timeUpdateInterval`; the interval converts to unsigned. */
  predicate ShouldRefresh(now: u32, last: u32)
  {
    Elapsed(now, last) > TIME_UPDATE_INTERVAL
  }

  /** One pass of `loop()` as far as the clock is concerned: a card read sets
      `lastTimeUpdate` to 0, then the refresh test reads `millis()` (`check`) and, when it
      passes, stores a second reading (`stamp`). */
  function LoopClock(lastTimeUpdate: u32, cardRead: bool, check: u32, stamp: u32): (r: (u32, bool))
    ensures r.1 <==> ShouldRefresh(check, if cardRead then 0 else lastTimeUpdate)
    ensures r.1 ==> r.0 == stamp
    ensures !r.1 ==> r.0 == if cardRead then 0 else lastTimeUpdate
  {
    var last: u32 := if cardRead then 0 else lastTimeUpdate;
    if ShouldRefresh(check, last) then (stamp, true) else (last, false)
  }

  /** The reading of `millis()` at `t` milliseconds since boot. */
  function Millis(t: nat): u32
  {
    t % WRAP
  }

  /** Across a wrap of the counter the unsigned difference is still the real time elapsed,
      as long as less than 2^32 ms passed; so the refresh happens exactly when more than a
      second has gone by. */
  lemma ElapsedAcrossWrap(t0: nat, t1: nat)
    requires t0 <= t1 < t0 + WRAP
    ensures Elapsed(Millis(t1), Millis(t0)) == t1 - t0
    ensures ShouldRefresh(Millis(t1), Millis(t0)) <==> t1 - t0 > TIME_UPDATE_INTERVAL
  {
    var q0, q1 := t0 / WRAP, t1 / WRAP;
    assert t0 == q0 * WRAP + Millis(t0);
    assert t1 == q1 * WRAP + Millis(t1);
    assert q1 == q0 || q1 == q0 + 1;
  }

  /** A concrete wrap: 500 ms before the counter wraps and 600 ms after it, 1100 ms passed. */
  lemma WrapExample()
    ensures Elapsed(600, WRAP - 500) == 1100
    ensures LoopClock(WRAP - 500, false, 600, 601) == (601, true)
  {
  }

  /** After a card read the clock is redrawn on the same pass once more than a second has
      passed since boot, and not redrawn within a second of the last refresh otherwise. */
  lemma CardReadForcesRefresh(lastTimeUpdate: u32, check: u32, stamp: u32)
    ensures check > TIME_UPDATE_INTERVAL ==> LoopClock(lastTimeUpdate, true, check, stamp) == (stamp, true)
    ensures Elapsed(check, lastTimeUpdate) <= TIME_UPDATE_INTERVAL ==>
      LoopClock(lastTimeUpdate, false, check, stamp) == (lastTimeUpdate, false)
  {
  }
}

=== FILE: jwt_request_filter.dfy ===
/** `JwtRequestFilter.doFilterInternal`: read a bearer token from the `Authorization` header
    and decide whether to put an authentication into the security context. Token parsing,
    the user lookup and the clock are parameters. */
module JwtRequestFilter {
  import opened Wrappers
  import opened Text
  import opened JwtUtil

  const BEARER_PREFIX: string := "Bearer "

  /** The token of a header that starts with exactly "Bearer ": the header minus 7 chars. */
  function ExtractToken(header: Option<string>): (r: Option<string>)
    ensures r.Some? <==> header.Some? && StartsWith(header.value, "Bearer ")
    ensures r.Some? ==> header.value == "Bearer " + r.value
  {
    if header.Some? && StartsWith(header.value, BEARER_PREFIX) then
      assert header.value == header.value[..7] + header.value[7..];
      Some(header.value[7..])
    else None
  }

  /** What `getUsernameFromToken` does with a token string: the claims, or one of the
      exceptions the parser throws. Only the first two exceptions are caught by the filter. */
  datatype ParseOutcome = Parsed(claims: Claims) | IllegalArgument | ExpiredJwt | OtherJwtError

  datatype UserDetails = UserDetails(username: string)

  datatype Authentication = Authentication(principal: UserDetails)

  /** The authentication left in the context, how many times `chain.doFilter` ran, and
      whether an exception escaped the filter. */
  datatype FilterResult = FilterResult(authentication: Option<Authentication>, chainCalls: nat, raised: bool)

  /** The username the filter holds after the header step, or `Err` when the parser threw
      an exception the filter does not catch. */
  function ReadUsername(header: Option<string>, parse: string -> ParseOutcome): (r: Result<Option<string>, ParseOutcome>)
    ensures ExtractToken(header).None? ==> r == Ok(None)
    ensures r.Err? <==> ExtractToken(header).Some? && parse(ExtractToken(header).value) == OtherJwtError
    ensures r.Ok? && r.value.Some? ==>
      ExtractToken(header).Some? && parse(ExtractToken(header).value).Parsed?
      && parse(ExtractToken(header).value).claims.subject == r.value
  {
    match ExtractToken(header)
    case None => Ok(None)
    case Some(token) =>
      match parse(token)
      case Parsed(claims) => Ok(GetUsernameFromToken(claims))
      case IllegalArgument => Ok(None)
      case ExpiredJwt => Ok(None)
      case OtherJwtError => Err(OtherJwtError)
  }

  /** All conditions under which the filter authenticates the request as `ud`. */
  ghost predicate Authenticates(header: Option<string>, parse: string -> ParseOutcome, context: Option<Authentication>,
                                loadUser: string -> Option<UserDetails>, now: int, ud: UserDetails)
  {
    && context == None
    && ExtractToken(header).Some?
    && parse(ExtractToken(header).value).Parsed?
    && var claims := parse(ExtractToken(header).value).claims;
       && claims.subject.Some?
       && loadUser(claims.subject.value) == Some(ud)
       && ValidateToken(claims, ud.username, now) == Ok(true)
  }

  function DoFilterInternal(header: Option<string>, parse: string -> ParseOutcome, context: Option<Authentication>,
                            loadUser: string -> Option<UserDetails>, now: int): (r: FilterResult)
    ensures r.chainCalls == (if r.raised then 0 else 1)
    ensures context.Some? ==> r.authentication == context
    ensures r.authentication != context ==> exists ud :: r.authentication == Some(Authentication(ud)) && Authenticates(header, parse, context, loadUser, now, ud)
    ensures forall ud :: Authenticates(header, parse, context, loadUser, now, ud) ==> r == FilterResult(Some(Authentication(ud)), 1, false)
    ensures ExtractToken(header).None? ==> r == FilterResult(context, 1, false)
    ensures r.raised <==>
      ExtractToken(header).Some? &&
      var p := parse(ExtractToken(header).value);
      (|| p == OtherJwtError
       || (&& p.Parsed? && p.claims.subject.Some? && context == None
           && (|| loadUser(p.claims.subject.value) == None
               || ValidateToken(p.claims, loadUser(p.claims.subject.value).value.username, now).Err?)))
  {
    match ReadUsername(header, parse)
    case Err(_) => FilterResult(context, 0, true)
    case Ok(username) =>
      if username.Some? && context == None then
        match loadUser(username.value)
        case None => FilterResult(context, 0, true)
        case Some(ud) =>
          var token := ExtractToken(header).value;
          var claims := parse(token).claims;
          match ValidateToken(claims, ud.username, now)
          case Err(_) => FilterResult(context, 0, true)
          case Ok(valid) =>
            if valid then FilterResult(Some(Authentication(ud)), 1, false)
            else FilterResult(context, 1, false)
      else FilterResult(context, 1, false)
  }

  /** Swallowed parse failures leave the request unauthenticated and still reach the chain. */
  lemma SwallowedFailuresDoNotAuthenticate(header: Option<string>, parse: string -> ParseOutcome,
                                           loadUser: string -> Option<UserDetails>, now: int)
    requires ExtractToken(header).Some?
    requires parse(ExtractToken(header).value) in {IllegalArgument, ExpiredJwt}
    ensures DoFilterInternal(header, parse, None, loadUser, now) == FilterResult(None, 1, false)
  {
  }
}

=== FILE: jwt_util.dfy ===
/** Token issue and validation of `JwtUtil`, with HS512 signing and parsing abstracted away:
    a token is represented by its claims. Times are milliseconds since the epoch. */
module JwtUtil {
  import opened Wrappers

  /** `JWT_TOKEN_VALIDITY`: five hours, in seconds. */
  const JWT_TOKEN_VALIDITY: int := 5 * 60 * 60

  /** The claims a token carries: the custom claims map, `sub`, `iat` and `exp`. */
  datatype Claims = Claims(custom: map<string, string>, subject: Option<string>, issuedAt: int, expiration: int)

  /** A clock reading as jjwt keeps it in `iat` and `exp`: whole seconds (`getTime() / 1000`),
      read back as milliseconds. */
  function WholeSeconds(ms: nat): (r: nat)
    ensures r % 1000 == 0
    ensures ms - 1000 < r <= ms
  {
    ms / 1000 * 1000
  }

  /** `doGenerateToken`. The issue time and the expiry base come from two separate reads of
      `System.currentTimeMillis()`, `issuedClock` and `expiryClock`; the claims keep both in
      whole seconds. */
  function DoGenerateToken(custom: map<string, string>, subject: string, issuedClock: nat, expiryClock: nat): (c: Claims)
    ensures c.custom == custom && c.subject == Some(subject)
    ensures c.issuedAt % 1000 == 0 && issuedClock - 1000 < c.issuedAt <= issuedClock
    ensures c.expiration % 1000 == 0 && expiryClock + 18_000_000 - 1000 < c.expiration <= expiryClock + 18_000_000
  {
    Claims(custom, Some(subject), WholeSeconds(issuedClock), WholeSeconds(expiryClock + JWT_TOKEN_VALIDITY * 1000))
  }

  /** `generateToken(userDetails)`: no custom claims, the username as subject. */
  function GenerateToken(username: string, issuedClock: nat, expiryClock: nat): (c: Claims)
    ensures c.custom == map[] && c.subject == Some(username)
    ensures issuedClock <= expiryClock ==> c.expiration >= c.issuedAt + 18_000_000
  {
    DoGenerateToken(map[], username, issuedClock, expiryClock)
  }

  /** `getUsernameFromToken`: the subject, null when the token has none. */
  function GetUsernameFromToken(c: Claims): Option<string>
  {
    c.subject
  }

  /** `isTokenExpired`: `expiration.before(now)`, so a token is still good at its exact
      expiration instant. */
  predicate IsTokenExpired(c: Claims, now: int)
  {
    c.expiration < now
  }

  /** Why `validateToken` throws instead of answering. */
  datatype ValidationError =
    | TokenExpired   // `ExpiredJwtException` from the parse inside `getUsernameFromToken`
    | NullUsername   // `NullPointerException` of `username.equals(...)` on a token without subject

  /** `validateToken`. Its first step re-parses the token, and jjwt's parser itself throws
      `ExpiredJwtException` once `now` is past `exp`; so an expired token throws rather than
      answering false. Past the parse, a token without subject throws on `equals`, and
      `isTokenExpired` (read at the same `now`) is false. */
  function ValidateToken(c: Claims, username: string, now: int): (r: Result<bool, ValidationError>)
    ensures r == Err(TokenExpired) <==> IsTokenExpired(c, now)
    ensures r == Err(NullUsername) <==> !IsTokenExpired(c, now) && c.subject == None
    ensures r == Ok(true) <==> c.subject == Some(username) && now <= c.expiration
  {
    if IsTokenExpired(c, now) then Err(TokenExpired)
    else
      match GetUsernameFromToken(c)
      case None => Err(NullUsername)
      case Some(subject) => Ok(subject == username && !IsTokenExpired(c, now))
  }

  /** Round trip: the username read back from a generated token is the one it was issued
      for. The token validates for exactly that user until `expiryClock` plus five hours,
      truncated to whole seconds; after that, validation throws. */
  lemma GeneratedTokenRoundTrip(username: string, other: string, issuedClock: nat, expiryClock: nat, now: int)
    ensures GetUsernameFromToken(GenerateToken(username, issuedClock, expiryClock)) == Some(username)
    ensures ValidateToken(GenerateToken(username, issuedClock, expiryClock), username, now)
      == if now <= WholeSeconds(expiryClock + JWT_TOKEN_VALIDITY * 1000) then Ok(true) else Err(TokenExpired)
    ensures now <= expiryClock + JWT_TOKEN_VALIDITY * 1000 - 1000 ==>
      ValidateToken(GenerateToken(username, issuedClock, expiryClock), username, now) == Ok(true)
    ensures other != username ==> ValidateToken(GenerateToken(username, issuedClock, expiryClock), other, now) != Ok(true)
  {
  }

  /** The seconds truncation costs a token up to 999 ms of its five hours: issued at clock
      1999, its `exp` reads 18 001 000, and 998 ms before clock 1999 plus five hours it has
      already expired. */
  lemma ExpiryTruncated()
    ensures GenerateToken("u", 1999, 1999).expiration == 18_001_000
    ensures ValidateToken(GenerateToken("u", 1999, 1999), "u", 1999 + 18_000_000 - 998) == Err(TokenExpired)
  {
  }
}

=== FILE: lector_controller.dfy ===
/** `/lectores`: create, lookup, the two-field update and delete over the reader table. */
module LectorController {
  import opened Wrappers
  import opened Persistence

  /** The `NoSuchElementException` of `findById(id).orElseThrow()`. */
  datatype LectorError = NoSuchElement(id: int)

  predicate Wf(t: Table<Lector>)
  {
    KeysBelowNext(t) && forall k :: k in t.rows ==> t.rows[k].id == k
  }

  /** `POST /lectores`: the body is passed to `save` as given, with no default for `estado`.
      `bodyId` is the body's `id`, `None` when the JSON has none; a body carrying the id of
      a stored reader is merged over it, any other is persisted under the next id. */
  function CreateLector(t: Table<Lector>, bodyId: Option<int>, body: Lector): (r: (Table<Lector>, Lector))
    ensures bodyId.Some? && bodyId.value in t.rows ==> r.1 == body.(id := bodyId.value) && r.0 == Put(t, bodyId.value, r.1)
    ensures !(bodyId.Some? && bodyId.value in t.rows) ==> r.1 == body.(id := t.nextId) && r.0 == Insert(t, r.1)
    ensures r.1.estado == body.estado
  {
    if bodyId.Some? && bodyId.value in t.rows then
      var saved := body.(id := bodyId.value);
      (Put(t, bodyId.value, saved), saved)
    else
      var saved := body.(id := t.nextId);
      (Insert(t, saved), saved)
  }

  /** `GET /lectores/{id}`. */
  function GetLectorById(t: Table<Lector>, id: int): (r: Result<Lector, LectorError>)
    ensures r.Ok? <==> id in t.rows
    ensures r.Ok? ==> r.value == t.rows[id]
    ensures r.Err? ==> r.error == NoSuchElement(id)
  {
    match FindById(t, id)
    case Some(l) => Ok(l)
    case None => Err(NoSuchElement(id))
  }

  /** `PUT /lectores/{id}`: ubicacion and estado come from the body; nothing else changes. */
  function UpdateLector(t: Table<Lector>, id: int, body: Lector): (r: Result<(Table<Lector>, Lector), LectorError>)
    ensures id !in t.rows ==> r == Err(NoSuchElement(id))
    ensures id in t.rows ==> r.Ok? && r.value.0 == Put(t, id, r.value.1)
    ensures r.Ok? ==> r.value.1.id == t.rows[id].id
    ensures r.Ok? ==> r.value.1.ubicacion == body.ubicacion && r.value.1.estado == body.estado
  {
    match FindById(t, id)
    case None => Err(NoSuchElement(id))
    case Some(l) =>
      var saved := l.(ubicacion := body.ubicacion, estado := body.estado);
      Ok((Put(t, id, saved), saved))
  }

  /** `DELETE /lectores/{id}`. */
  function DeleteLector(t: Table<Lector>, id: int): (r: Table<Lector>)
    ensures id !in r.rows
    ensures forall k :: k in t.rows && k != id ==> k in r.rows && r.rows[k] == t.rows[k]
    ensures forall k :: k in r.rows ==> k in t.rows
  {
    DeleteById(t, id)
  }

  /** Unlike a user, a reader created without an estado keeps a null estado. */
  lemma CreateKeepsNullEstado(t: Table<Lector>, bodyId: Option<int>, body: Lector)
    requires Wf(t) && body.estado == None
    ensures var (t', l) := CreateLector(t, bodyId, body);
      Wf(t') && GetLectorById(t', l.id) == Ok(l) && l.estado == None
  {
  }

  /** Update then read returns the body's ubicacion and estado under the old id, and every
      other reader reads as before. */
  lemma UpdateThenGet(t: Table<Lector>, id: int, body: Lector)
    requires Wf(t) && id in t.rows
    ensures var (t', l) := UpdateLector(t, id, body).value;
      && Wf(t')
      && GetLectorById(t', id) == Ok(Lector(id, body.ubicacion, body.estado))
      && forall k :: k != id ==> GetLectorById(t', k) == GetLectorById(t, k)
  {
  }

  /** A POST whose body carries the id of a stored reader overwrites that reader instead of
      adding one. */
  lemma CreateWithStoredIdOverwrites(t: Table<Lector>, k: int, body: Lector)
    requires Wf(t) && k in t.rows
    ensures var (t', l) := CreateLector(t, Some(k), body);
      && t'.rows.Keys == t.rows.Keys && t'.nextId == t.nextId
      && GetLectorById(t', k) == Ok(Lector(k, body.ubicacion, body.estado))
  {
  }

  /** Deleting one reader leaves every other reader readable as before. */
  lemma DeleteThenGet(t: Table<Lector>, id: int)
    ensures GetLectorById(DeleteLector(t, id), id) == Err(NoSuchElement(id))
    ensures forall k :: k != id ==> GetLectorById(DeleteLector(t, id), k) == GetLectorById(t, k)
  {
  }
}

=== FILE: lectores.dfy ===
/** The reader page of the frontend: its cached list of readers and the edits it applies to
    that cache after each call to the backend, the filter and the status counts. */
module Lectores {
  import opened Wrappers
  import opened Text
  import opened Seqs

  /** A reader as the page holds it: `ubicacion` and `estado` are nullable columns of the
      backend; `ultimaActividad` exists only on the client. */
  datatype LectorItem = LectorItem(id: int, ubicacion: Option<string>, estado: Option<string>, ultimaActividad: Option<string>)

  /** The `formData` object: a copy of the reader being edited, or the blank new reader. */
  datatype FormData = FormData(id: Option<int>, ubicacion: Option<string>, estado: Option<string>, ultimaActividad: Option<string>)

  const BlankForm := FormData(None, Some(""), Some("Activo"), None)

  function FormOf(l: LectorItem): FormData
  {
    FormData(Some(l.id), l.ubicacion, l.estado, l.ultimaActividad)
  }

  datatype LectoresPage = LectoresPage(
    lectores: seq<LectorItem>, showModal: bool, editing: Option<LectorItem>, form: FormData,
    searchTerm: string, statusFilter: string)

  const Inicial := LectoresPage([], false, None, BlankForm, "", "todos")

  /** The form holds a copy of the reader being edited, as `openModal` leaves it. */
  predicate Coherent(s: LectoresPage)
  {
    s.editing.Some? ==> s.form.id == Some(s.editing.value.id)
  }

  /** `openModal(lector)`: edit a copy of `lector`, or a blank reader when there is none. */
  function OpenModal(s: LectoresPage, lector: Option<LectorItem>): (r: LectoresPage)
    ensures r.showModal && r.editing == lector && Coherent(r)
    ensures lector.None? ==> r.form == BlankForm
    ensures lector.Some? ==> r.form.ubicacion == lector.value.ubicacion && r.form.estado == lector.value.estado
    ensures r.lectores == s.lectores
  {
    s.(showModal := true, editing := lector, form := if lector.Some? then FormOf(lector.value) else BlankForm)
  }

  /** `closeModal`. */
  function CloseModal(s: LectoresPage): (r: LectoresPage)
    ensures !r.showModal && r.editing.None? && r.form == FormData(None, Some(""), Some("Activo"), None) && Coherent(r)
    ensures r.lectores == s.lectores
  {
    s.(showModal := false, editing := None, form := BlankForm)
  }

  /** The two inputs of the form. */
  function SetUbicacion(s: LectoresPage, v: string): (r: LectoresPage)
    ensures r.form.ubicacion == Some(v) && r.form.estado == s.form.estado && r.form.id == s.form.id
    ensures Coherent(s) ==> Coherent(r)
  {
    s.(form := s.form.(ubicacion := Some(v)))
  }

  function SetEstado(s: LectoresPage, v: string): (r: LectoresPage)
    ensures r.form.estado == Some(v) && r.form.ubicacion == s.form.ubicacion && r.form.id == s.form.id
    ensures Coherent(s) ==> Coherent(r)
  {
    s.(form := s.form.(estado := Some(v)))
  }

  /** The location input is empty: a null location renders as an empty input too. */
  predicate Blank(ubicacion: Option<string>)
  {
    ubicacion.None? || ubicacion == Some("")
  }

  /** The request `handleSubmit` sends: the form as it stands, without the new timestamp. */
  datatype Envio = Actualizar(id: int, body: FormData) | Crear(body: FormData)

  function SubmitRequest(s: LectoresPage): (e: Envio)
    ensures e.body == s.form
    ensures s.editing.Some? <==> e.Actualizar?
    ensures s.editing.Some? ==> e.id == s.editing.value.id
  {
    if s.editing.Some? then Actualizar(s.editing.value.id, s.form) else Crear(s.form)
  }

  /** `{...editingLector, ...formData, ultimaActividad: now}`. */
  function Merge(e: LectorItem, f: FormData, now: string): LectorItem
  {
    LectorItem(f.id.GetOr(e.id), f.ubicacion, f.estado, Some(now))
  }

  function ReplaceById(ls: seq<LectorItem>, id: int, updated: LectorItem): (r: seq<LectorItem>)
    ensures |r| == |ls|
    ensures forall i :: 0 <= i < |ls| ==> r[i] == if ls[i].id == id then updated else ls[i]
  {
    seq(|ls|, i requires 0 <= i < |ls| => if ls[i].id == id then updated else ls[i])
  }

  /** `handleSubmit` with the reply of the backend (`None` when the call rejects). The
      `required` location input blocks an empty submission; a rejected call throws before
      the list or the modal change; otherwise an edit replaces the matching entries and a
      create appends the reader the server returned, and the modal closes. */
  function Submit(s: LectoresPage, now: string, reply: Option<LectorItem>): (r: LectoresPage)
    ensures Blank(s.form.ubicacion) || reply.None? ==> r == s
    ensures !Blank(s.form.ubicacion) && reply.Some? ==> r == CloseModal(r) && r.searchTerm == s.searchTerm
    ensures !Blank(s.form.ubicacion) && reply.Some? && s.editing.Some? ==>
      r.lectores == ReplaceById(s.lectores, s.editing.value.id, Merge(s.editing.value, s.form, now))
    ensures !Blank(s.form.ubicacion) && reply.Some? && s.editing.None? ==> r.lectores == s.lectores + [reply.value]
  {
    if Blank(s.form.ubicacion) || reply.None? then s
    else if s.editing.Some? then
      CloseModal(s.(lectores := ReplaceById(s.lectores, s.editing.value.id, Merge(s.editing.value, s.form, now))))
    else CloseModal(s.(lectores := s.lectores + [reply.value]))
  }

  /** An accepted edit changes only the entries with the edited id: each becomes the edited
      reader with the form's location and state and the new timestamp, and the timestamp is
      not part of what was sent. */
  lemma EditChangesOnlyTarget(s: LectoresPage, now: string, reply: LectorItem)
    requires Coherent(s) && s.editing.Some? && !Blank(s.form.ubicacion)
    ensures var r := Submit(s, now, Some(reply));
      var e := s.editing.value;
      && |r.lectores| == |s.lectores|
      && (forall i :: 0 <= i < |s.lectores| && s.lectores[i].id != e.id ==> r.lectores[i] == s.lectores[i])
      && (forall i :: 0 <= i < |s.lectores| && s.lectores[i].id == e.id ==>
            r.lectores[i] == e.(ubicacion := s.form.ubicacion, estado := s.form.estado, ultimaActividad := Some(now)))
      && SubmitRequest(s).body.ultimaActividad == s.form.ultimaActividad
  {
  }

  /** A create grows the list by exactly the server's reader, at the end. */
  lemma CreateAppends(s: LectoresPage, now: string, reply: LectorItem)
    requires s.editing.None? && !Blank(s.form.ubicacion)
    ensures |Submit(s, now, Some(reply)).lectores| == |s.lectores| + 1
    ensures Submit(s, now, Some(reply)).lectores[|s.lectores|] == reply
    ensures Submit(s, now, Some(reply)).lectores[..|s.lectores|] == s.lectores
  {
  }

  // ---- delete -------------------------------------------------------------------------

  /** `deleteLector`: only after the confirmation and a successful call. */
  function Delete(ls: seq<LectorItem>, id: int, confirmed: bool, apiOk: bool): (r: seq<LectorItem>)
    ensures !confirmed || !apiOk ==> r == ls
    ensures IsSubsequence(r, ls)
  {
    if confirmed && apiOk then Keep(ls, (l: LectorItem) => l.id != id) else (SubsequenceOfItself(ls); ls)
  }

  /** A confirmed delete removes exactly the readers with that id. */
  lemma DeleteRemovesExactly(ls: seq<LectorItem>, id: int, x: LectorItem)
    ensures x in Delete(ls, id, true, true) <==> x in ls && x.id != id
  {
    var r := Delete(ls, id, true, true);
    if x in r { var i :| 0 <= i < |r| && r[i] == x; }
    if x in ls && x.id != id { var i :| 0 <= i < |ls| && ls[i] == x; }
  }

  // ---- toggle -------------------------------------------------------------------------

  /** `lector.estado === 'Activo' ? 'Inactivo' : 'Activo'`; a null state becomes `Activo`. */
  function Toggle(estado: Option<string>): (t: string)
    ensures t == "Activo" || t == "Inactivo"
    ensures t == "Inactivo" <==> estado == Some("Activo")
  {
    if estado == Some("Activo") then "Inactivo" else "Activo"
  }

  /** Toggling twice restores `Activo` and `Inactivo`; any other value, null included, ends
      as `Inactivo`. */
  lemma ToggleTwice(estado: Option<string>)
    ensures estado == Some("Activo") || estado == Some("Inactivo") ==> Some(Toggle(Some(Toggle(estado)))) == estado
    ensures estado != Some("Activo") && estado != Some("Inactivo") ==> Toggle(Some(Toggle(estado))) == "Inactivo"
  {
  }

  /** `lectores.find(l => l.id === id)`. */
  function Find(ls: seq<LectorItem>, id: int): (r: Option<LectorItem>)
    ensures r.None? <==> forall i :: 0 <= i < |ls| ==> ls[i].id != id
    ensures r.Some? ==> exists k :: 0 <= k < |ls| && ls[k] == r.value && r.value.id == id
                                     && forall j :: 0 <= j < k ==> ls[j].id != id
    decreases |ls|
  {
    if |ls| == 0 then None
    else if ls[0].id == id then Some(ls[0])
    else
      var r := Find(ls[1..], id);
      assert forall i :: 1 <= i < |ls| ==> ls[i] == ls[1..][i - 1];
      if r.Some? then
        var k :| 0 <= k < |ls[1..]| && ls[1..][k] == r.value && r.value.id == id
                 && forall j :: 0 <= j < k ==> ls[1..][j].id != id;
        assert ls[k + 1] == r.value;
        r
      else r
  }

  /** `toggleEstado(id)`: a missing id throws on `lector.estado`, and a rejected call throws
      before the list changes; otherwise every entry with that id gets the toggled state of
      the first one and the new timestamp. */
  function ToggleEstado(ls: seq<LectorItem>, id: int, now: string, apiOk: bool): (r: seq<LectorItem>)
    ensures Find(ls, id).None? || !apiOk ==> r == ls
    ensures |r| == |ls|
    ensures forall i :: 0 <= i < |ls| && ls[i].id != id ==> r[i] == ls[i]
    ensures Find(ls, id).Some? && apiOk ==> forall i :: 0 <= i < |ls| && ls[i].id == id ==>
      r[i] == ls[i].(estado := Some(Toggle(Find(ls, id).value.estado)), ultimaActividad := Some(now))
  {
    var found := Find(ls, id);
    if found.None? || !apiOk then ls
    else
      var nuevo := Toggle(found.value.estado);
      seq(|ls|, i requires 0 <= i < |ls| => if ls[i].id == id then ls[i].(estado := Some(nuevo), ultimaActividad := Some(now)) else ls[i])
  }

  /** The body of the update `toggleEstado` sends: the reader with the toggled state. */
  function ToggleRequest(ls: seq<LectorItem>, id: int): (body: Option<LectorItem>)
    ensures body.Some? <==> Find(ls, id).Some?
    ensures body.Some? ==> body.value.estado == Some(Toggle(Find(ls, id).value.estado)) && body.value.id == id
  {
    var found := Find(ls, id);
    if found.Some? then Some(found.value.(estado := Some(Toggle(found.value.estado)))) else None
  }

  /** With distinct ids, toggling the same reader twice restores an `Activo`/`Inactivo` state. */
  lemma ToggleEstadoTwice(ls: seq<LectorItem>, id: int, t1: string, t2: string, k: int)
    requires 0 <= k < |ls| && ls[k].id == id
    requires forall i, j :: 0 <= i < j < |ls| ==> ls[i].id != ls[j].id
    requires ls[k].estado == Some("Activo") || ls[k].estado == Some("Inactivo")
    ensures ToggleEstado(ToggleEstado(ls, id, t1, true), id, t2, true)[k].estado == ls[k].estado
  {
    var once := ToggleEstado(ls, id, t1, true);
    FindUnique(ls, id, k);
    assert once[k].estado == Some(Toggle(ls[k].estado));
    forall i, j | 0 <= i < j < |once| ensures once[i].id != once[j].id {
      assert once[i].id == ls[i].id && once[j].id == ls[j].id;
    }
    FindUnique(once, id, k);
  }

  lemma FindUnique(ls: seq<LectorItem>, id: int, k: int)
    requires 0 <= k < |ls| && ls[k].id == id
    requires forall i, j :: 0 <= i < j < |ls| ==> ls[i].id != ls[j].id
    ensures Find(ls, id) == Some(ls[k])
  {
    var r := Find(ls, id);
    var m :| 0 <= m < |ls| && ls[m] == r.value && r.value.id == id && forall j :: 0 <= j < m ==> ls[j].id != id;
    assert m == k;
  }

  // ---- filter and counts --------------------------------------------------------------

  predicate MatchesSearch(l: LectorItem, term: string)
  {
    term == "" || (l.ubicacion.Some? && Contains(ToLower(l.ubicacion.value), ToLower(term)))
  }

  predicate MatchesStatus(l: LectorItem, status: string)
  {
    status == "todos" || (l.estado.Some? && ToLower(l.estado.value) == ToLower(status))
  }

  predicate Shown(l: LectorItem, term: string, status: string)
  {
    MatchesSearch(l, term) && MatchesStatus(l, status)
  }

  /** The filter calls `toLowerCase` on the location while a search term is typed and on the
      state while a status is selected: on a null field that call throws. */
  predicate FilterThrows(l: LectorItem, term: string, status: string)
  {
    (term != "" && l.ubicacion.None?) || (status != "todos" && l.estado.None?)
  }

  /** `filteredLectores`, evaluated element by element as `filter` does; `None` when the
      callback throws, which aborts the render of the page. */
  function Filtered(ls: seq<LectorItem>, term: string, status: string): (r: Option<seq<LectorItem>>)
    ensures r.None? <==> exists i :: 0 <= i < |ls| && FilterThrows(ls[i], term, status)
    ensures r.Some? ==> r.value == Keep(ls, (l: LectorItem) => Shown(l, term, status))
    decreases |ls|
  {
    if |ls| == 0 then Some([])
    else if FilterThrows(ls[0], term, status) then None
    else
      var rest := Filtered(ls[1..], term, status);
      assert forall i :: 1 <= i < |ls| ==> ls[i] == ls[1..][i - 1];
      if rest.None? then None
      else Some(if Shown(ls[0], term, status) then [ls[0]] + rest.value else rest.value)
  }

  /** When the filter does not throw, the shown readers are, in order, exactly those matching
      the search and the status. */
  lemma FilteredMembers(ls: seq<LectorItem>, term: string, status: string, x: LectorItem)
    requires Filtered(ls, term, status).Some?
    ensures IsSubsequence(Filtered(ls, term, status).value, ls)
    ensures x in Filtered(ls, term, status).value <==> x in ls && Shown(x, term, status)
  {
    var r := Filtered(ls, term, status).value;
    if x in r { var i :| 0 <= i < |r| && r[i] == x; }
    if x in ls && Shown(x, term, status) { var i :| 0 <= i < |ls| && ls[i] == x; }
  }

  /** A reader with a null state, like the one the backend seeds, makes every status choice
      but `todos` throw, and one with a null location makes every search throw. */
  lemma NullFieldBreaksFilter(ls: seq<LectorItem>, k: int, term: string, status: string)
    requires 0 <= k < |ls|
    requires (ls[k].estado.None? && status != "todos") || (ls[k].ubicacion.None? && term != "")
    ensures Filtered(ls, term, status).None?
  {
    assert FilterThrows(ls[k], term, status);
  }

  /** The drop-down's `activo` selects `Activo` and `ACTIVO` alike, unlike the exact counts. */
  lemma StatusFilterIgnoresCase(l: LectorItem)
    requires l.estado == Some("ACTIVO")
    ensures MatchesStatus(l, "activo")
    ensures l.estado != Some("Activo")
  {
  }

  /** With the default filters nothing throws and every reader is shown. */
  lemma DefaultFiltersShowAll(ls: seq<LectorItem>)
    ensures Filtered(ls, "", "todos") == Some(ls)
  {
    KeepAll(ls, (l: LectorItem) => Shown(l, "", "todos"));
  }

  /** The filter as evidently intended: a null field simply does not match. */
  function FilteredNullSafe(ls: seq<LectorItem>, term: string, status: string): (r: seq<LectorItem>)
    ensures IsSubsequence(r, ls)
    ensures forall i :: 0 <= i < |r| ==> Shown(r[i], term, status)
    ensures forall i :: 0 <= i < |ls| && Shown(ls[i], term, status) ==> ls[i] in r
  {
    Keep(ls, (l: LectorItem) => Shown(l, term, status))
  }

  /** The null-safe filter shows what the page's filter shows whenever that one does not
      throw, and it never leaves a matching reader out. */
  lemma NullSafeAgrees(ls: seq<LectorItem>, term: string, status: string)
    ensures Filtered(ls, term, status).Some? ==> Filtered(ls, term, status).value == FilteredNullSafe(ls, term, status)
    ensures FilteredNullSafe(ls, "", "todos") == ls
  {
    DefaultFiltersShowAll(ls);
  }

  function Activos(ls: seq<LectorItem>): nat { Count(ls, (l: LectorItem) => l.estado == Some("Activo")) }
  function Inactivos(ls: seq<LectorItem>): nat { Count(ls, (l: LectorItem) => l.estado == Some("Inactivo")) }

  /** The two cards add up to at most the total, and to the total exactly when every state
      is written `Activo` or `Inactivo`. */
  lemma CountsBounded(ls: seq<LectorItem>)
    ensures Activos(ls) + Inactivos(ls) <= |ls|
    ensures (forall i :: 0 <= i < |ls| ==> ls[i].estado == Some("Activo") || ls[i].estado == Some("Inactivo")) ==>
      Activos(ls) + Inactivos(ls) == |ls|
  {
    CountDisjoint(ls, (l: LectorItem) => l.estado == Some("Activo"), (l: LectorItem) => l.estado == Some("Inactivo"));
  }
}

=== FILE: persistence.dfy ===
/** The backend's JPA entities and the Spring Data repository queries the controllers use,
    as immutable values: a table is a map from id to row plus the next IDENTITY value. */
module Persistence {
  import opened Wrappers

  /** A `Usuario` row. `rfidTag` and `estado` are nullable columns. */
  datatype Usuario = Usuario(id: int, nombre: string, documento: string, rfidTag: Option<string>, estado: Option<string>)

  /** A `Lector` row, with the `estado` column the controller reads and writes. */
  datatype Lector = Lector(id: int, ubicacion: string, estado: Option<string>)

  /** A `Registro` row: the resolved user and reader, the movement type and the server time. */
  datatype Registro = Registro(id: int, usuario: Usuario, lector: Lector, tipoMovimiento: string, fechaHora: int)

  /** A table with a database-generated (IDENTITY) key. */
  datatype Table<T> = Table(rows: map<int, T>, nextId: int)

  /** Every id in use was handed out before `nextId`, so the next insert cannot collide. */
  predicate KeysBelowNext<T>(t: Table<T>)
  {
    forall k :: k in t.rows ==> k < t.nextId
  }

  /** `findById(id)`. */
  function FindById<T>(t: Table<T>, id: int): (r: Option<T>)
    ensures r.Some? <==> id in t.rows
    ensures r.Some? ==> r.value == t.rows[id]
  {
    if id in t.rows then Some(t.rows[id]) else None
  }

  /** `save` of a new row: the row is stored under the next generated id. */
  function Insert<T>(t: Table<T>, row: T): (r: Table<T>)
    ensures r.nextId == t.nextId + 1
    ensures r.rows.Keys == t.rows.Keys + {t.nextId}
    ensures r.rows[t.nextId] == row
    ensures KeysBelowNext(t) ==> KeysBelowNext(r) && forall k :: k in t.rows ==> r.rows[k] == t.rows[k]
  {
    Table(t.rows[t.nextId := row], t.nextId + 1)
  }

  /** `save` of an existing row. */
  function Put<T>(t: Table<T>, id: int, row: T): (r: Table<T>)
    requires id in t.rows
    ensures r.nextId == t.nextId && r.rows.Keys == t.rows.Keys
    ensures r.rows[id] == row
    ensures forall k :: k in t.rows && k != id ==> r.rows[k] == t.rows[k]
  {
    Table(t.rows[id := row], t.nextId)
  }

  /** `deleteById(id)`: removes the row if it exists, and does nothing otherwise. */
  function DeleteById<T>(t: Table<T>, id: int): (r: Table<T>)
    ensures r.nextId == t.nextId
    ensures r.rows.Keys == t.rows.Keys - {id}
    ensures forall k :: k in r.rows ==> r.rows[k] == t.rows[k]
  {
    Table(t.rows - {id}, t.nextId)
  }

  // ---- UsuarioRepository ------------------------------------------------------------

  /** The ids of the users whose `rfidTag` column equals `tag`: the derived query compares
      with `=`, and with `IS NULL` when the tag is null. */
  function TaggedIds(usuarios: Table<Usuario>, tag: Option<string>): (ids: set<int>)
    ensures forall id :: id in ids <==> id in usuarios.rows && usuarios.rows[id].rfidTag == tag
  {
    set id | id in usuarios.rows && usuarios.rows[id].rfidTag == tag
  }

  lemma SingletonHasElement<T>(s: set<T>)
    requires |s| == 1
    ensures exists x :: s == {x}
  {
    var x :| x in s;
    assert |s - {x}| == 0;
    assert s == {x};
  }

  function TheElement<T>(s: set<T>): (x: T)
    requires |s| == 1
    ensures s == {x}
  {
    SingletonHasElement(s);
    var x :| s == {x}; x
  }

  /** The outcome of `findByRfidTag`, whose `Optional` result admits at most one row. */
  datatype TagLookup = NoUser | OneUser(usuario: Usuario) | ManyUsers

  function FindByRfidTag(usuarios: Table<Usuario>, tag: Option<string>): (r: TagLookup)
    ensures r == NoUser <==> TaggedIds(usuarios, tag) == {}
    ensures r.OneUser? <==> |TaggedIds(usuarios, tag)| == 1
    ensures r.OneUser? ==> exists id :: id in usuarios.rows && usuarios.rows[id] == r.usuario && r.usuario.rfidTag == tag
  {
    var ids := TaggedIds(usuarios, tag);
    if ids == {} then NoUser
    else if |ids| == 1 then
      var id := TheElement(ids);
      assert id in ids;
      OneUser(usuarios.rows[id])
    else ManyUsers
  }

  /** `findByEstado(estado)`: the rows whose `estado` column equals `estado` exactly. */
  function FindByEstado<T>(t: Table<T>, estadoOf: T -> Option<string>, estado: string): (r: map<int, T>)
    ensures forall id :: id in r <==> id in t.rows && estadoOf(t.rows[id]) == Some(estado)
    ensures forall id :: id in r ==> r[id] == t.rows[id]
  {
    map id | id in t.rows && estadoOf(t.rows[id]) == Some(estado) :: t.rows[id]
  }

  // ---- RegistroRepository -----------------------------------------------------------

  /** `findTopByUsuarioOrderByIdDesc(usuario)`: the user's record with the highest id. */
  function LatestFor(registros: seq<Registro>, usuarioId: int): (r: Option<Registro>)
    ensures r.Some? <==> exists i :: 0 <= i < |registros| && registros[i].usuario.id == usuarioId
    ensures r.Some? ==> r.value in registros && r.value.usuario.id == usuarioId
    ensures r.Some? ==> forall i :: 0 <= i < |registros| && registros[i].usuario.id == usuarioId ==> registros[i].id <= r.value.id
    decreases |registros|
  {
    if |registros| == 0 then None
    else
      var prefix := registros[..|registros| - 1];
      var last := registros[|registros| - 1];
      var earlier := LatestFor(prefix, usuarioId);
      assert forall i :: 0 <= i < |prefix| ==> prefix[i] == registros[i];
      assert earlier.Some? ==> earlier.value in registros;
      if last.usuario.id != usuarioId then earlier
      else if earlier.Some? && earlier.value.id > last.id then earlier
      else Some(last)
  }
}

=== FILE: registro_controller.dfy ===
/** `/registros`: the movement state machine. The controller's state is the record table
    (kept as a sequence in insertion order, with the next IDENTITY value) and the single field
    `ultimoTagDesconocido`; the user and reader tables are read-only inputs. */
module RegistroController {
  import opened Wrappers
  import opened Text
  import opened Persistence

  /** The body of `POST /registros`; its `tipoMovimiento` is never read. */
  datatype RegistroRequest = RegistroRequest(usuarioId: int, lectorId: int, tipoMovimiento: Option<string>)

  /** The body of `POST /registros/rfid`; a body without `rfidTag` binds it to null. */
  datatype RfidRequest = RfidRequest(rfidTag: Option<string>, lectorId: int)

  /** Why a POST fails, with the HTTP status Spring answers for it. */
  datatype Failure =
    | UsuarioNoEncontrado(usuarioId: int)   // RuntimeException: 500
    | UsuarioInactivo                       // ResponseStatusException FORBIDDEN: 403
    | LectorNoEncontrado(lectorId: int)     // RuntimeException: 500
    | TagNoRegistrado                       // ResponseStatusException NOT_FOUND: 404
    | TagAmbiguo                            // findByRfidTag matched several rows: 500

  function Status(f: Failure): int
  {
    match f
    case UsuarioInactivo => 403
    case TagNoRegistrado => 404
    case _ => 500
  }

  datatype Controller = Controller(registros: seq<Registro>, nextId: int, ultimoTagDesconocido: Option<string>)

  /** A freshly constructed controller over an existing record table. */
  function Start(registros: seq<Registro>, nextId: int): Controller
  {
    Controller(registros, nextId, None)
  }

  /** The controller after a request and the request's outcome. */
  datatype Reply = Reply(controller: Controller, result: Result<Registro, Failure>)

  /** `"Activo".equalsIgnoreCase(estado)`, false for a null estado. */
  predicate IsActivo(estado: Option<string>)
  {
    estado.Some? && EqualsIgnoreCase("Activo", estado.value)
  }

  /** The movement type the next record of the user gets. */
  function NextMovement(registros: seq<Registro>, usuarioId: int): (t: string)
    ensures t == "salida" || t == "entrada"
    ensures t == "salida" <==>
      LatestFor(registros, usuarioId).Some? && EqualsIgnoreCase("entrada", LatestFor(registros, usuarioId).value.tipoMovimiento)
  {
    var latest := LatestFor(registros, usuarioId);
    if latest.Some? && EqualsIgnoreCase("entrada", latest.value.tipoMovimiento) then "salida" else "entrada"
  }

  /** `procesarMovimiento`: saves a record for the resolved user and reader. */
  function ProcesarMovimiento(c: Controller, u: Usuario, l: Lector, now: int): (r: Reply)
    ensures r.result.Ok?
    ensures r.result.value.usuario == u && r.result.value.lector == l
    ensures r.result.value.id == c.nextId && r.result.value.fechaHora == now
    ensures r.result.value.tipoMovimiento == NextMovement(c.registros, u.id)
    ensures r.controller == Controller(c.registros + [r.result.value], c.nextId + 1, c.ultimoTagDesconocido)
  {
    var nuevo := Registro(c.nextId, u, l, NextMovement(c.registros, u.id), now);
    Reply(Controller(c.registros + [nuevo], c.nextId + 1, c.ultimoTagDesconocido), Ok(nuevo))
  }

  /** `POST /registros`: the user must exist and be active, checked before the reader is
      looked up; a failure saves nothing. */
  function CreateRegistro(c: Controller, usuarios: Table<Usuario>, lectores: Table<Lector>, req: RegistroRequest, now: int): (r: Reply)
    ensures r.result.Ok? <==>
      req.usuarioId in usuarios.rows && IsActivo(usuarios.rows[req.usuarioId].estado) && req.lectorId in lectores.rows
    ensures r.result.Err? ==> r.controller == c
    ensures req.usuarioId !in usuarios.rows ==> r.result == Err(UsuarioNoEncontrado(req.usuarioId))
    ensures req.usuarioId in usuarios.rows && !IsActivo(usuarios.rows[req.usuarioId].estado) ==> r.result == Err(UsuarioInactivo)
    ensures r.result.Err? && r.result.error.LectorNoEncontrado? ==>
      req.usuarioId in usuarios.rows && IsActivo(usuarios.rows[req.usuarioId].estado) && req.lectorId !in lectores.rows
    ensures r.result.Ok? ==> r == ProcesarMovimiento(c, usuarios.rows[req.usuarioId], lectores.rows[req.lectorId], now)
  {
    match FindById(usuarios, req.usuarioId)
    case None => Reply(c, Err(UsuarioNoEncontrado(req.usuarioId)))
    case Some(u) =>
      if !IsActivo(u.estado) then Reply(c, Err(UsuarioInactivo))
      else
        match FindById(lectores, req.lectorId)
        case None => Reply(c, Err(LectorNoEncontrado(req.lectorId)))
        case Some(l) => ProcesarMovimiento(c, u, l, now)
  }

  /** `POST /registros/rfid`: an unregistered tag is remembered in `ultimoTagDesconocido` and
      answered 404; a registered tag never touches that field. A null tag is looked up as
      `IS NULL`, so it finds the users without a tag, and when there is none it is stored,
      clearing the field. A single holder is then checked as in `POST /registros`. */
  function CreateRegistroByRfid(c: Controller, usuarios: Table<Usuario>, lectores: Table<Lector>, req: RfidRequest, now: int): (r: Reply)
    ensures TaggedIds(usuarios, req.rfidTag) == {} ==>
      r == Reply(c.(ultimoTagDesconocido := req.rfidTag), Err(TagNoRegistrado))
    ensures TaggedIds(usuarios, req.rfidTag) != {} ==> r.controller.ultimoTagDesconocido == c.ultimoTagDesconocido
    ensures |TaggedIds(usuarios, req.rfidTag)| > 1 ==> r == Reply(c, Err(TagAmbiguo))
    ensures r.result.Err? && TaggedIds(usuarios, req.rfidTag) != {} ==> r.controller == c
    ensures forall id :: id in TaggedIds(usuarios, req.rfidTag) && TaggedIds(usuarios, req.rfidTag) == {id} ==>
      && (!IsActivo(usuarios.rows[id].estado) ==> r == Reply(c, Err(UsuarioInactivo)))
      && (IsActivo(usuarios.rows[id].estado) && req.lectorId !in lectores.rows ==>
            r == Reply(c, Err(LectorNoEncontrado(req.lectorId))))
    ensures r.result.Ok? <==>
      exists id :: id in TaggedIds(usuarios, req.rfidTag) && TaggedIds(usuarios, req.rfidTag) == {id}
        && IsActivo(usuarios.rows[id].estado) && req.lectorId in lectores.rows
    ensures r.result.Ok? ==>
      && r.result.value.usuario.rfidTag == req.rfidTag
      && r.result.value.usuario in usuarios.rows.Values
      && r == ProcesarMovimiento(c, r.result.value.usuario, lectores.rows[req.lectorId], now)
  {
    match FindByRfidTag(usuarios, req.rfidTag)
    case NoUser => Reply(c.(ultimoTagDesconocido := req.rfidTag), Err(TagNoRegistrado))
    case ManyUsers => Reply(c, Err(TagAmbiguo))
    case OneUser(u) =>
      if !IsActivo(u.estado) then Reply(c, Err(UsuarioInactivo))
      else
        match FindById(lectores, req.lectorId)
        case None => Reply(c, Err(LectorNoEncontrado(req.lectorId)))
        case Some(l) => ProcesarMovimiento(c, u, l, now)
  }

  /** The answer of `GET /registros/ultimo-desconocido`. */
  datatype UltimoResponse = UltimoTag(rfidTag: string) | SinTagsRecientes

  function UltimoStatus(r: UltimoResponse): int
  {
    if r.UltimoTag? then 200 else 404
  }

  /** `GET /registros/ultimo-desconocido`: 404 until a tag has been stored, then that tag. */
  function GetUltimoTagDesconocido(c: Controller): (r: UltimoResponse)
    ensures r == SinTagsRecientes <==> c.ultimoTagDesconocido == None
    ensures forall t :: r == UltimoTag(t) <==> c.ultimoTagDesconocido == Some(t)
  {
    match c.ultimoTagDesconocido
    case None => SinTagsRecientes
    case Some(t) => UltimoTag(t)
  }

  // ---- runs of requests ---------------------------------------------------------------

  /** One request to the controller. */
  datatype Event = Post(body: RegistroRequest, at: int) | PostRfid(scan: RfidRequest, at: int) | GetUltimo

  function Step(c: Controller, usuarios: Table<Usuario>, lectores: Table<Lector>, e: Event): (c': Controller)
    ensures e.GetUltimo? ==> c' == c
  {
    match e
    case Post(body, at) => CreateRegistro(c, usuarios, lectores, body, at).controller
    case PostRfid(scan, at) => CreateRegistroByRfid(c, usuarios, lectores, scan, at).controller
    case GetUltimo => c
  }

  /** The controller after handling `es` in order. */
  function Run(c: Controller, usuarios: Table<Usuario>, lectores: Table<Lector>, es: seq<Event>): Controller
    decreases |es|
  {
    if |es| == 0 then c else Step(Run(c, usuarios, lectores, es[..|es| - 1]), usuarios, lectores, es[|es| - 1])
  }

  /** A scan whose tag (or, for a null tag, whose absence of tag) matches no user. */
  predicate UnknownScan(usuarios: Table<Usuario>, e: Event)
  {
    e.PostRfid? && TaggedIds(usuarios, e.scan.rfidTag) == {}
  }

  /** Reference definition: the tag of the last unknown scan in `es`, null when that scan
      carried none, or `initial` when there is no unknown scan. */
  function LastUnknownTag(usuarios: Table<Usuario>, es: seq<Event>, initial: Option<string>): Option<string>
    decreases |es|
  {
    if |es| == 0 then initial
    else
      var e := es[|es| - 1];
      if UnknownScan(usuarios, e) then e.scan.rfidTag
      else LastUnknownTag(usuarios, es[..|es| - 1], initial)
  }

  /** `ultimoTagDesconocido` always holds the tag of the most recent unknown scan; reads and
      scans of registered tags (active or not) never change or clear it. */
  lemma {:induction false} RunRemembersLastUnknownTag(c: Controller, usuarios: Table<Usuario>, lectores: Table<Lector>, es: seq<Event>)
    ensures Run(c, usuarios, lectores, es).ultimoTagDesconocido == LastUnknownTag(usuarios, es, c.ultimoTagDesconocido)
    decreases |es|
  {
    if |es| > 0 {
      RunRemembersLastUnknownTag(c, usuarios, lectores, es[..|es| - 1]);
    }
  }

  /** After a fresh start, `/ultimo-desconocido` answers 404 exactly when every unknown scan
      carrying a tag was followed by an unknown scan without one, and otherwise answers the
      tag of the last unknown scan. */
  lemma UltimoAfterRun(registros: seq<Registro>, nextId: int, usuarios: Table<Usuario>, lectores: Table<Lector>, es: seq<Event>)
    ensures var r := GetUltimoTagDesconocido(Run(Start(registros, nextId), usuarios, lectores, es));
      && (r == SinTagsRecientes <==> TagsCleared(usuarios, es))
      && (r.UltimoTag? ==> LastUnknownTag(usuarios, es, None) == Some(r.rfidTag))
  {
    RunRemembersLastUnknownTag(Start(registros, nextId), usuarios, lectores, es);
    LastUnknownTagNoneIff(usuarios, es);
  }

  /** Every unknown scan that carried a tag is followed by an unknown scan without one. */
  predicate TagsCleared(usuarios: Table<Usuario>, es: seq<Event>)
  {
    forall i :: 0 <= i < |es| && UnknownScan(usuarios, es[i]) && es[i].scan.rfidTag.Some? ==>
      exists j :: i < j < |es| && UnknownScan(usuarios, es[j]) && es[j].scan.rfidTag.None?
  }

  lemma {:induction false} LastUnknownTagNoneIff(usuarios: Table<Usuario>, es: seq<Event>)
    ensures LastUnknownTag(usuarios, es, None) == None <==> TagsCleared(usuarios, es)
    decreases |es|
  {
    if |es| > 0 {
      var pre, e := es[..|es| - 1], es[|es| - 1];
      LastUnknownTagNoneIff(usuarios, pre);
      assert forall i :: 0 <= i < |pre| ==> pre[i] == es[i];
      if UnknownScan(usuarios, e) && e.scan.rfidTag.None? {
        forall i | 0 <= i < |es| && UnknownScan(usuarios, es[i]) && es[i].scan.rfidTag.Some?
          ensures exists j :: i < j < |es| && UnknownScan(usuarios, es[j]) && es[j].scan.rfidTag.None?
        {
          assert i < |es| - 1;
        }
      } else if UnknownScan(usuarios, e) {
        assert !TagsCleared(usuarios, es) by {
          assert UnknownScan(usuarios, es[|es| - 1]) && es[|es| - 1].scan.rfidTag.Some?;
        }
      } else {
        if TagsCleared(usuarios, pre) {
          forall i | 0 <= i < |es| && UnknownScan(usuarios, es[i]) && es[i].scan.rfidTag.Some?
            ensures exists j :: i < j < |es| && UnknownScan(usuarios, es[j]) && es[j].scan.rfidTag.None?
          {
            var j :| i < j < |pre| && UnknownScan(usuarios, pre[j]) && pre[j].scan.rfidTag.None?;
            assert es[j] == pre[j];
          }
        }
        if TagsCleared(usuarios, es) {
          forall i | 0 <= i < |pre| && UnknownScan(usuarios, pre[i]) && pre[i].scan.rfidTag.Some?
            ensures exists j :: i < j < |pre| && UnknownScan(usuarios, pre[j]) && pre[j].scan.rfidTag.None?
          {
            assert es[i] == pre[i];
            var j :| i < j < |es| && UnknownScan(usuarios, es[j]) && es[j].scan.rfidTag.None?;
            assert j < |pre|;
            assert es[j] == pre[j];
          }
        }
      }
    }
  }

  /** A scan without a tag finds the one user without a tag and records a movement for them
      when they are active and the reader exists; with no untagged user it clears the
      remembered tag, so `/ultimo-desconocido` answers 404 again. */
  lemma NullTagScan(c: Controller, usuarios: Table<Usuario>, lectores: Table<Lector>, lectorId: int, now: int)
    ensures var r := CreateRegistroByRfid(c, usuarios, lectores, RfidRequest(None, lectorId), now);
      && (TaggedIds(usuarios, None) == {} ==>
            r.result == Err(TagNoRegistrado) && GetUltimoTagDesconocido(r.controller) == SinTagsRecientes)
      && (forall id ::
            id in TaggedIds(usuarios, None) && TaggedIds(usuarios, None) == {id}
            && IsActivo(usuarios.rows[id].estado) && lectorId in lectores.rows
            ==> r.result.Ok? && r.result.value.usuario == usuarios.rows[id] && r.result.value.usuario.rfidTag == None)
      && (|TaggedIds(usuarios, None)| > 1 ==> r.result == Err(TagAmbiguo) && Status(r.result.error) == 500)
  {
    var req := RfidRequest(None, lectorId);
    var r := CreateRegistroByRfid(c, usuarios, lectores, req, now);
    forall id | id in TaggedIds(usuarios, None) && TaggedIds(usuarios, None) == {id} &&
        IsActivo(usuarios.rows[id].estado) && lectorId in lectores.rows
      ensures r.result.Ok? && r.result.value.usuario == usuarios.rows[id]
    {
      var u := r.result.value.usuario;
      var k :| k in usuarios.rows && usuarios.rows[k] == u;
      assert k in TaggedIds(usuarios, None);
    }
  }

  // ---- alternation of entrada and salida ----------------------------------------------

  /** Record ids grow along the table and stay below the next IDENTITY value. */
  predicate Valid(c: Controller)
  {
    && (forall i, j :: 0 <= i < j < |c.registros| ==> c.registros[i].id < c.registros[j].id)
    && (forall i :: 0 <= i < |c.registros| ==> c.registros[i].id < c.nextId)
  }

  /** The movement types of one user's records, oldest first. */
  function History(registros: seq<Registro>, usuarioId: int): seq<string>
    decreases |registros|
  {
    if |registros| == 0 then []
    else
      var last := registros[|registros| - 1];
      History(registros[..|registros| - 1], usuarioId) + (if last.usuario.id == usuarioId then [last.tipoMovimiento] else [])
  }

  /** The other movement type. */
  function Opposite(t: string): string
  {
    if t == "entrada" then "salida" else "entrada"
  }

  /** The k-th movement (from 0) of a user whose movements alternate from "entrada". */
  function Expected(k: nat): (t: string)
    ensures t == "entrada" || t == "salida"
  {
    if k == 0 then "entrada" else Opposite(Expected(k - 1))
  }

  predicate Alternates(h: seq<string>)
  {
    forall i :: 0 <= i < |h| ==> h[i] == Expected(i)
  }

  ghost predicate AllAlternate(registros: seq<Registro>)
  {
    forall usuarioId :: Alternates(History(registros, usuarioId))
  }

  /** With growing ids, the record of highest id is the user's most recent one. */
  lemma {:induction false} LatestIsLastOfHistory(registros: seq<Registro>, usuarioId: int)
    requires forall i, j :: 0 <= i < j < |registros| ==> registros[i].id < registros[j].id
    ensures var h := History(registros, usuarioId);
      && (LatestFor(registros, usuarioId).Some? <==> |h| > 0)
      && (|h| > 0 ==> LatestFor(registros, usuarioId).value.tipoMovimiento == h[|h| - 1])
    decreases |registros|
  {
    if |registros| > 0 {
      var pre := registros[..|registros| - 1];
      var last := registros[|registros| - 1];
      LatestIsLastOfHistory(pre, usuarioId);
      var earlier := LatestFor(pre, usuarioId);
      if last.usuario.id == usuarioId && earlier.Some? {
        var i :| 0 <= i < |pre| && pre[i] == earlier.value;
        assert registros[i] == pre[i];
      }
    }
  }

  /** A user whose history alternates gets "entrada" after an even number of records and
      "salida" after an odd number. */
  lemma NextMovementByParity(registros: seq<Registro>, usuarioId: int)
    requires forall i, j :: 0 <= i < j < |registros| ==> registros[i].id < registros[j].id
    requires Alternates(History(registros, usuarioId))
    ensures NextMovement(registros, usuarioId) == Expected(|History(registros, usuarioId)|)
  {
    LatestIsLastOfHistory(registros, usuarioId);
    var h := History(registros, usuarioId);
    var latest := LatestFor(registros, usuarioId);
    if |h| > 0 {
      var t := latest.value.tipoMovimiento;
      assert t == h[|h| - 1] == Expected(|h| - 1);
      if t == "entrada" {
        assert EqualsIgnoreCase("entrada", t);
      } else {
        assert ToLower("entrada")[0] == 'e' && ToLower(t)[0] == 's';
      }
    }
  }

  lemma HistoryAppend(registros: seq<Registro>, r: Registro, usuarioId: int)
    ensures History(registros + [r], usuarioId) ==
      History(registros, usuarioId) + (if r.usuario.id == usuarioId then [r.tipoMovimiento] else [])
  {
    assert (registros + [r])[..|registros|] == registros;
  }

  /** Saving one movement keeps the ids growing and every user's history alternating. */
  lemma ProcesarPreservesAlternation(c: Controller, u: Usuario, l: Lector, now: int)
    requires Valid(c) && AllAlternate(c.registros)
    ensures var c' := ProcesarMovimiento(c, u, l, now).controller;
      Valid(c') && AllAlternate(c'.registros)
  {
    var r := ProcesarMovimiento(c, u, l, now);
    var nuevo := r.result.value;
    NextMovementByParity(c.registros, u.id);
    forall usuarioId ensures Alternates(History(r.controller.registros, usuarioId)) {
      HistoryAppend(c.registros, nuevo, usuarioId);
    }
  }

  lemma StepPreservesAlternation(c: Controller, usuarios: Table<Usuario>, lectores: Table<Lector>, e: Event)
    requires Valid(c) && AllAlternate(c.registros)
    ensures var c' := Step(c, usuarios, lectores, e);
      Valid(c') && AllAlternate(c'.registros)
  {
    match e
    case Post(body, at) =>
      var r := CreateRegistro(c, usuarios, lectores, body, at);
      if r.result.Ok? {
        ProcesarPreservesAlternation(c, usuarios.rows[body.usuarioId], lectores.rows[body.lectorId], at);
      }
    case PostRfid(scan, at) =>
      var r := CreateRegistroByRfid(c, usuarios, lectores, scan, at);
      if r.result.Ok? {
        ProcesarPreservesAlternation(c, r.result.value.usuario, lectores.rows[scan.lectorId], at);
      }
    case GetUltimo =>
  }

  /** Movements created through the controller alternate: every user's records read
      entrada, salida, entrada, ... after any run that starts from alternating histories
      (in particular from an empty table). */
  lemma {:induction false} RunAlternates(c: Controller, usuarios: Table<Usuario>, lectores: Table<Lector>, es: seq<Event>)
    requires Valid(c) && AllAlternate(c.registros)
    ensures var c' := Run(c, usuarios, lectores, es);
      Valid(c') && AllAlternate(c'.registros)
    decreases |es|
  {
    if |es| > 0 {
      RunAlternates(c, usuarios, lectores, es[..|es| - 1]);
      StepPreservesAlternation(Run(c, usuarios, lectores, es[..|es| - 1]), usuarios, lectores, es[|es| - 1]);
    }
  }

  /** An empty record table is a valid, alternating start. */
  lemma EmptyTableAlternates(nextId: int)
    ensures Valid(Start([], nextId)) && AllAlternate([])
  {
  }

  /** Two consecutive successful movements of one user have opposite types, and the first
      movement ever of a user is "entrada". */
  lemma ConsecutiveMovementsAlternate(c: Controller, u: Usuario, l1: Lector, l2: Lector, t1: int, t2: int)
    requires Valid(c) && AllAlternate(c.registros)
    ensures var r1 := ProcesarMovimiento(c, u, l1, t1);
      var r2 := ProcesarMovimiento(r1.controller, u, l2, t2);
      && {r1.result.value.tipoMovimiento, r2.result.value.tipoMovimiento} == {"entrada", "salida"}
      && (History(c.registros, u.id) == [] ==> r1.result.value.tipoMovimiento == "entrada")
  {
    var r1 := ProcesarMovimiento(c, u, l1, t1);
    NextMovementByParity(c.registros, u.id);
    ProcesarPreservesAlternation(c, u, l1, t1);
    HistoryAppend(c.registros, r1.result.value, u.id);
    NextMovementByParity(r1.controller.registros, u.id);
  }

  /** The `tipoMovimiento` of the request body has no influence on anything. */
  lemma TipoMovimientoIgnored(c: Controller, usuarios: Table<Usuario>, lectores: Table<Lector>, req: RegistroRequest, t: Option<string>, now: int)
    ensures CreateRegistro(c, usuarios, lectores, req.(tipoMovimiento := t), now) == CreateRegistro(c, usuarios, lectores, req, now)
  {
  }

  /** An inactive user (estado null or anything but "Activo" up to case) is refused with 403
      whether or not the reader exists. */
  lemma InactiveUserForbidden(c: Controller, usuarios: Table<Usuario>, lectores: Table<Lector>, req: RegistroRequest, now: int)
    requires req.usuarioId in usuarios.rows && !IsActivo(usuarios.rows[req.usuarioId].estado)
    ensures var r := CreateRegistro(c, usuarios, lectores, req, now);
      r.controller == c && r.result.Err? && Status(r.result.error) == 403
  {
  }

  /** A scanned tag whose single holder is inactive is refused with 403 whether or not the
      reader exists, and nothing is saved or remembered. */
  lemma InactiveHolderForbidden(c: Controller, usuarios: Table<Usuario>, lectores: Table<Lector>, req: RfidRequest, id: int, now: int)
    requires TaggedIds(usuarios, req.rfidTag) == {id} && !IsActivo(usuarios.rows[id].estado)
    ensures var r := CreateRegistroByRfid(c, usuarios, lectores, req, now);
      r.controller == c && r.result.Err? && Status(r.result.error) == 403
  {
    assert id in TaggedIds(usuarios, req.rfidTag);
  }
}

=== FILE: registros.dfy ===
/** The access-record page of the frontend: normalisation of the fetched records, the six
    filters, pagination and page navigation, the summary counts and the CSV export. */
module Registros {
  import opened Wrappers
  import opened Text
  import opened Seqs

  // ---- records as fetched and as shown ------------------------------------------------

  /** The embedded relations of a fetched record; only these fields are read. */
  datatype UsuarioRef = UsuarioRef(nombre: string)
  datatype LectorRef = LectorRef(ubicacion: string)

  /** A record as the backend serialises it; a relation may be null. */
  datatype RawRegistro = RawRegistro(
    id: int, usuarioId: int, lectorId: int,
    usuario: Option<UsuarioRef>, lector: Option<LectorRef>,
    tipoMovimiento: string, fechaHora: string)

  /** A record after normalisation: the relations replaced by their display names. */
  datatype VistaRegistro = VistaRegistro(
    id: int, usuarioId: int, lectorId: int,
    usuario: string, lector: string,
    tipoMovimiento: string, fechaHora: string)

  predicate HasRelations(r: RawRegistro)
  {
    r.usuario.Some? && r.lector.Some?
  }

  /** `{...registro, usuario: registro.usuario.nombre, lector: registro.lector.ubicacion}`:
      the dereference of a null relation throws, so both must be present. */
  function Normalize(r: RawRegistro): (v: VistaRegistro)
    requires HasRelations(r)
    ensures v.usuario == r.usuario.value.nombre && v.lector == r.lector.value.ubicacion
    ensures v.id == r.id && v.usuarioId == r.usuarioId && v.lectorId == r.lectorId
    ensures v.tipoMovimiento == r.tipoMovimiento && v.fechaHora == r.fechaHora
  {
    VistaRegistro(r.id, r.usuarioId, r.lectorId, r.usuario.value.nombre, r.lector.value.ubicacion,
                  r.tipoMovimiento, r.fechaHora)
  }

  predicate AllHaveRelations(rs: seq<RawRegistro>)
  {
    forall i :: 0 <= i < |rs| ==> HasRelations(rs[i])
  }

  function NormalizeAll(rs: seq<RawRegistro>): (vs: seq<VistaRegistro>)
    requires AllHaveRelations(rs)
    ensures |vs| == |rs|
    ensures forall i :: 0 <= i < |rs| ==> vs[i] == Normalize(rs[i])
  {
    if |rs| == 0 then [] else [Normalize(rs[0])] + NormalizeAll(rs[1..])
  }

  // ---- page state ---------------------------------------------------------------------

  /** An entry of the user or reader drop-down. */
  datatype Opcion = Opcion(id: int, etiqueta: string)

  /** The three lists `Promise.all` delivers when every request succeeds. */
  datatype Fetched = Fetched(registros: seq<RawRegistro>, usuarios: seq<Opcion>, lectores: seq<Opcion>)

  /** The six filter inputs; "" means the filter is off. */
  datatype Filtros = Filtros(
    searchTerm: string, usuario: string, lector: string,
    tipoMovimiento: string, fechaInicio: string, fechaFin: string)

  const SinFiltros := Filtros("", "", "", "", "", "")

  datatype Vista = Vista(
    registros: seq<VistaRegistro>, usuarios: seq<Opcion>, lectores: seq<Opcion>,
    filtros: Filtros, currentPage: int, recordsPerPage: int)

  const Inicial := Vista([], [], [], SinFiltros, 1, 10)

  /** `recargarDatos` (and the first load): `fetched` is absent when a request failed. A
      failed request, or a record with a null relation, lands in the `catch` and the three
      lists keep their previous values. */
  function Reload(v: Vista, fetched: Option<Fetched>): (r: Vista)
    ensures fetched.Some? && AllHaveRelations(fetched.value.registros) ==>
      r.registros == NormalizeAll(fetched.value.registros)
      && r.usuarios == fetched.value.usuarios && r.lectores == fetched.value.lectores
    ensures fetched.None? || !AllHaveRelations(fetched.value.registros) ==> r == v
    ensures r.filtros == v.filtros && r.currentPage == v.currentPage && r.recordsPerPage == v.recordsPerPage
  {
    if fetched.Some? && AllHaveRelations(fetched.value.registros) then
      v.(registros := NormalizeAll(fetched.value.registros),
         usuarios := fetched.value.usuarios, lectores := fetched.value.lectores)
    else v
  }

  /** One record with a null relation is enough for the reload to keep the old list. */
  lemma NullRelationKeepsList(v: Vista, f: Fetched, i: int)
    requires 0 <= i < |f.registros| && !HasRelations(f.registros[i])
    ensures Reload(v, Some(f)).registros == v.registros
  {
  }

  /** `limpiarFiltros`. */
  function LimpiarFiltros(v: Vista): (r: Vista)
    ensures r.filtros == SinFiltros && r.currentPage == 1
    ensures r.registros == v.registros && r.recordsPerPage == v.recordsPerPage
  {
    v.(filtros := SinFiltros, currentPage := 1)
  }

  /** The records-per-page selector: sets the size and returns to the first page. */
  function ChangePerPage(v: Vista, perPage: int): (r: Vista)
    ensures r.recordsPerPage == perPage && r.currentPage == 1
    ensures r.registros == v.registros && r.filtros == v.filtros
  {
    v.(recordsPerPage := perPage, currentPage := 1)
  }

  /** The values the selector offers. */
  predicate OfferedPerPage(n: int)
  {
    n == 5 || n == 10 || n == 25 || n == 50
  }

  // ---- filters ------------------------------------------------------------------------

  predicate MatchesSearch(r: VistaRegistro, term: string)
  {
    term == "" || Contains(ToLower(r.usuario), ToLower(term)) || Contains(ToLower(r.lector), ToLower(term))
  }

  predicate MatchesUsuario(r: VistaRegistro, usuario: string)
  {
    usuario == "" || IntToString(r.usuarioId) == usuario
  }

  predicate MatchesLector(r: VistaRegistro, lector: string)
  {
    lector == "" || IntToString(r.lectorId) == lector
  }

  predicate MatchesTipo(r: VistaRegistro, tipo: string)
  {
    tipo == "" || r.tipoMovimiento == tipo
  }

  /** `dateKey` is `new Date(fechaHora).toISOString().split('T')[0]`, a given function here. */
  predicate MatchesInicio(r: VistaRegistro, inicio: string, dateKey: string -> string)
  {
    inicio == "" || LexLe(inicio, dateKey(r.fechaHora))
  }

  predicate MatchesFin(r: VistaRegistro, fin: string, dateKey: string -> string)
  {
    fin == "" || LexLe(dateKey(r.fechaHora), fin)
  }

  /** The conjunction `filteredRegistros` tests. */
  predicate Matches(r: VistaRegistro, f: Filtros, dateKey: string -> string)
  {
    && MatchesSearch(r, f.searchTerm) && MatchesUsuario(r, f.usuario) && MatchesLector(r, f.lector)
    && MatchesTipo(r, f.tipoMovimiento) && MatchesInicio(r, f.fechaInicio, dateKey) && MatchesFin(r, f.fechaFin, dateKey)
  }

  function Filtered(rs: seq<VistaRegistro>, f: Filtros, dateKey: string -> string): (r: seq<VistaRegistro>)
    ensures IsSubsequence(r, rs)
    ensures forall i :: 0 <= i < |r| ==> Matches(r[i], f, dateKey)
    ensures forall i :: 0 <= i < |rs| && Matches(rs[i], f, dateKey) ==> rs[i] in r
  {
    Keep(rs, r => Matches(r, f, dateKey))
  }

  /** The filtered list keeps the order of the records and holds exactly the matching ones. */
  lemma FilteredMembers(rs: seq<VistaRegistro>, f: Filtros, dateKey: string -> string, x: VistaRegistro)
    ensures IsSubsequence(Filtered(rs, f, dateKey), rs)
    ensures x in Filtered(rs, f, dateKey) <==> x in rs && Matches(x, f, dateKey)
  {
    var out := Filtered(rs, f, dateKey);
    if x in out {
      var i :| 0 <= i < |out| && out[i] == x;
    }
    if x in rs && Matches(x, f, dateKey) {
      var i :| 0 <= i < |rs| && rs[i] == x;
    }
  }

  /** The six filters applied one after another give the combined filter. */
  lemma FiltersCompose(rs: seq<VistaRegistro>, f: Filtros, dateKey: string -> string)
    ensures Filtered(rs, f, dateKey) ==
      Keep(Keep(Keep(Keep(Keep(Keep(rs,
        r => MatchesSearch(r, f.searchTerm)),
        r => MatchesUsuario(r, f.usuario)),
        r => MatchesLector(r, f.lector)),
        r => MatchesTipo(r, f.tipoMovimiento)),
        r => MatchesInicio(r, f.fechaInicio, dateKey)),
        r => MatchesFin(r, f.fechaFin, dateKey))
  {
    var p1 := (r: VistaRegistro) => MatchesSearch(r, f.searchTerm);
    var p2 := (r: VistaRegistro) => p1(r) && MatchesUsuario(r, f.usuario);
    var p3 := (r: VistaRegistro) => p2(r) && MatchesLector(r, f.lector);
    var p4 := (r: VistaRegistro) => p3(r) && MatchesTipo(r, f.tipoMovimiento);
    var p5 := (r: VistaRegistro) => p4(r) && MatchesInicio(r, f.fechaInicio, dateKey);
    var p6 := (r: VistaRegistro) => p5(r) && MatchesFin(r, f.fechaFin, dateKey);
    KeepKeep(rs, p1, r => MatchesUsuario(r, f.usuario), p2);
    KeepKeep(rs, p2, r => MatchesLector(r, f.lector), p3);
    KeepKeep(rs, p3, r => MatchesTipo(r, f.tipoMovimiento), p4);
    KeepKeep(rs, p4, r => MatchesInicio(r, f.fechaInicio, dateKey), p5);
    KeepKeep(rs, p5, r => MatchesFin(r, f.fechaFin, dateKey), p6);
    assert Keep(rs, p6) == Filtered(rs, f, dateKey) by {
      KeepSame(rs, p6, r => Matches(r, f, dateKey));
    }
  }

  lemma {:induction false} KeepSame<T>(xs: seq<T>, p: T -> bool, q: T -> bool)
    requires forall x :: p(x) == q(x)
    ensures Keep(xs, p) == Keep(xs, q)
    decreases |xs|
  {
    if |xs| > 0 { KeepSame(xs[1..], p, q); }
  }

  /** With every filter off, every record is shown. */
  lemma SinFiltrosShowsAll(rs: seq<VistaRegistro>, dateKey: string -> string)
    ensures Filtered(rs, SinFiltros, dateKey) == rs
  {
    KeepAll(rs, r => Matches(r, SinFiltros, dateKey));
  }

  /** After `limpiarFiltros` the list shown is the whole list, from page 1. */
  lemma LimpiarShowsAll(v: Vista, dateKey: string -> string)
    ensures Filtered(LimpiarFiltros(v).registros, LimpiarFiltros(v).filtros, dateKey) == v.registros
    ensures LimpiarFiltros(v).currentPage == 1
  {
    SinFiltrosShowsAll(v.registros, dateKey);
  }

  /** The search ignores the case of the term. */
  lemma SearchIgnoresCase(r: VistaRegistro, term: string)
    requires term != ""
    ensures MatchesSearch(r, term) <==> MatchesSearch(r, ToLower(term))
  {
    ToLowerIdempotent(term);
  }

  /** Choosing the same day as both bounds keeps exactly the records of that day. */
  lemma SingleDay(r: VistaRegistro, day: string, dateKey: string -> string)
    requires day != ""
    ensures MatchesInicio(r, day, dateKey) && MatchesFin(r, day, dateKey) <==> dateKey(r.fechaHora) == day
  {
    if LexLe(day, dateKey(r.fechaHora)) && LexLe(dateKey(r.fechaHora), day) {
      LexLeAntisymmetric(day, dateKey(r.fechaHora));
    }
    if dateKey(r.fechaHora) == day {
      LexLeReflexive(day);
    }
  }

  /** Selecting a user in the drop-down (its id rendered in decimal) keeps exactly that
      user's records; likewise for a reader. */
  lemma SelectedIdFilter(r: VistaRegistro, k: int)
    ensures MatchesUsuario(r, IntToString(k)) <==> r.usuarioId == k
    ensures MatchesLector(r, IntToString(k)) <==> r.lectorId == k
  {
    if IntToString(r.usuarioId) == IntToString(k) { IntToStringInjective(r.usuarioId, k); }
    if IntToString(r.lectorId) == IntToString(k) { IntToStringInjective(r.lectorId, k); }
  }

  /** The type filter offers `Entrada` and `Salida` and compares exactly: on the backend's
      lower-case types either choice hides every record. */
  lemma TipoFilterHidesBackendTypes(rs: seq<VistaRegistro>, tipo: string, dateKey: string -> string)
    requires tipo == "Entrada" || tipo == "Salida"
    requires forall i :: 0 <= i < |rs| ==> rs[i].tipoMovimiento in {"entrada", "salida"}
    ensures Filtered(rs, SinFiltros.(tipoMovimiento := tipo), dateKey) == []
  {
    var f := SinFiltros.(tipoMovimiento := tipo);
    forall i | 0 <= i < |rs| ensures !Matches(rs[i], f, dateKey) {
      assert tipo[0] != "entrada"[0] && tipo[0] != "salida"[0];
    }
    CountNone(rs, r => Matches(r, f, dateKey));
  }

  /** The type filter comparing ignoring case, as the backend does when it reads a type back. */
  predicate MatchesTipoIgnoringCase(r: VistaRegistro, tipo: string)
  {
    tipo == "" || EqualsIgnoreCase(r.tipoMovimiento, tipo)
  }

  /** Compared ignoring case, `Solo entradas` keeps exactly the backend's `entrada` records
      and `Solo salidas` exactly its `salida` records. */
  lemma TipoFilterIgnoringCase(r: VistaRegistro)
    requires r.tipoMovimiento in {"entrada", "salida"}
    ensures MatchesTipoIgnoringCase(r, "Entrada") <==> r.tipoMovimiento == "entrada"
    ensures MatchesTipoIgnoringCase(r, "Salida") <==> r.tipoMovimiento == "salida"
  {
    FoldedType(r.tipoMovimiento);
  }

  // ---- pagination ---------------------------------------------------------------------

  /** `Math.ceil(n / perPage)`. */
  function TotalPages(n: nat, perPage: nat): (t: nat)
    requires perPage > 0
    ensures t * perPage >= n
    ensures t == 0 || (t - 1) * perPage < n
    decreases n
  {
    if n == 0 then 0 else 1 + TotalPages(if n <= perPage then 0 else n - perPage, perPage)
  }

  function Min(a: int, b: int): int { if a <= b then a else b }
  function Max(a: int, b: int): int { if a >= b then a else b }

  /** `xs.slice(start, end)` for `0 <= start <= end`: both ends clamp to the length. */
  function Slice<T>(xs: seq<T>, start: nat, end: nat): (r: seq<T>)
    requires start <= end
    ensures |r| <= end - start
    ensures start >= |xs| ==> r == []
    ensures forall i :: 0 <= i < |r| ==> start + i < |xs| && r[i] == xs[start + i]
    ensures end <= |xs| ==> |r| == end - start
    ensures |r| == Max(0, Min(end, |xs|) - start)
  {
    xs[Min(start, |xs|)..Min(end, |xs|)]
  }

  /** A page past the last one starts at or beyond the end of the list. */
  lemma PastLastPage(n: nat, p: nat, perPage: nat)
    requires perPage > 0 && p > TotalPages(n, perPage)
    ensures (p - 1) * perPage >= n
  {
    MulLe(TotalPages(n, perPage), p - 1, perPage);
  }

  lemma {:induction false} MulLe(a: nat, b: nat, c: nat)
    requires a <= b
    ensures a * c <= b * c
    decreases b - a
  {
    if a < b {
      MulLe(a, b - 1, c);
      assert b * c == (b - 1) * c + c;
    }
  }

  /** `currentRecords`: the records of page `p`, from `(p-1)*perPage` up to `p*perPage`. */
  function Page<T>(xs: seq<T>, p: nat, perPage: nat): (r: seq<T>)
    requires p >= 1 && perPage > 0
    ensures |r| <= perPage
    ensures |r| == Min(perPage, Max(0, |xs| - (p - 1) * perPage))
    ensures forall i :: 0 <= i < |r| ==> r[i] in xs
    ensures forall i :: 0 <= i < |r| ==> (p - 1) * perPage + i < |xs| && r[i] == xs[(p - 1) * perPage + i]
  {
    var start := (p - 1) * perPage;
    Slice(xs, start, start + perPage)
  }

  /** A page past the last one is empty. */
  lemma PagePastEnd<T>(xs: seq<T>, p: nat, perPage: nat)
    requires perPage > 0 && p > TotalPages(|xs|, perPage)
    ensures Page(xs, p, perPage) == []
  {
    PastLastPage(|xs|, p, perPage);
  }

  function Flatten<T>(xss: seq<seq<T>>): seq<T>
  {
    if |xss| == 0 then [] else Flatten(xss[..|xss| - 1]) + xss[|xss| - 1]
  }

  /** Pages 1 to `k`. */
  function Pages<T>(xs: seq<T>, perPage: nat, k: nat): seq<seq<T>>
    requires perPage > 0
  {
    seq(k, j requires 0 <= j < k => Page(xs, j + 1, perPage))
  }

  /** Page `k` is the part of the list between the ends of pages `k - 1` and `k`. */
  lemma PageIsSlice<T>(xs: seq<T>, k: nat, perPage: nat)
    requires k > 0 && perPage > 0
    ensures Min((k - 1) * perPage, |xs|) <= Min(k * perPage, |xs|)
    ensures Page(xs, k, perPage) == xs[Min((k - 1) * perPage, |xs|)..Min(k * perPage, |xs|)]
  {
    assert (k - 1) * perPage + perPage == k * perPage;
  }

  lemma {:induction false} PagesPrefix<T>(xs: seq<T>, perPage: nat, k: nat)
    requires perPage > 0
    ensures Flatten(Pages(xs, perPage, k)) == xs[..Min(k * perPage, |xs|)]
    decreases k
  {
    if k > 0 {
      var ps := Pages(xs, perPage, k);
      assert ps[..k - 1] == Pages(xs, perPage, k - 1);
      assert Flatten(ps) == Flatten(ps[..k - 1]) + ps[k - 1];
      assert ps[k - 1] == Page(xs, k, perPage);
      PagesPrefix(xs, perPage, k - 1);
      PageIsSlice(xs, k, perPage);
      PageStartBounds(k, perPage);
      SlicesJoin(xs, Min((k - 1) * perPage, |xs|), Min(k * perPage, |xs|));
    }
  }

  lemma PageStartBounds(k: nat, perPage: nat)
    requires k > 0
    ensures 0 <= (k - 1) * perPage <= k * perPage
  {
    MulLe(k - 1, k, perPage);
  }

  lemma SlicesJoin<T>(xs: seq<T>, lo: nat, hi: nat)
    requires lo <= hi <= |xs|
    ensures xs[..lo] + xs[lo..hi] == xs[..hi]
  {
  }

  /** Pages 1 to `totalPages` laid end to end are the whole list. */
  lemma PagesCoverList<T>(xs: seq<T>, perPage: nat)
    requires perPage > 0
    ensures Flatten(Pages(xs, perPage, TotalPages(|xs|, perPage))) == xs
  {
    PagesPrefix(xs, perPage, TotalPages(|xs|, perPage));
  }

  // ---- navigation ---------------------------------------------------------------------

  /** The pagination bar is rendered only when there is more than one page. */
  predicate ShowsControls(totalPages: nat)
  {
    totalPages > 1
  }

  /** The buttons of the bar; `Numero(i)` is the i-th button of the window. */
  datatype Boton = Primera | Anterior | Siguiente | Ultima | Numero(i: nat)

  /** The page numbers the window renders: up to five consecutive numbers from
      `max(1, p-2)`, those above `totalPages` rendered as nothing. */
  function Ventana(p: int, totalPages: nat): (w: seq<int>)
    ensures |w| <= 5 && |w| <= totalPages
    ensures forall i :: 0 <= i < |w| ==> w[i] == Max(1, p - 2) + i && 1 <= w[i] <= totalPages
    ensures 1 <= p <= totalPages ==> p in w
    ensures forall q :: Max(1, p - 2) <= q <= totalPages && q < Max(1, p - 2) + Min(5, totalPages) ==> q in w
  {
    var start := Max(1, p - 2);
    var len := Min(5, totalPages);
    var shown := Max(0, Min(len, totalPages - start + 1));
    var w := seq(shown, i requires 0 <= i < shown => start + i);
    assert 1 <= p <= totalPages ==> w[p - start] == p;
    forall q | start <= q <= totalPages && q < start + len
      ensures q in w
    {
      assert w[q - start] == q;
    }
    w
  }

  /** On page 1 of 10 the window shows pages 1 to 5; on page 9 it shows 7 to 10. */
  lemma VentanaExamples()
    ensures Ventana(1, 10) == [1, 2, 3, 4, 5]
    ensures Ventana(9, 10) == [7, 8, 9, 10]
  {
    var w := Ventana(1, 10);
    assert 5 in w;
    var v := Ventana(9, 10);
    assert 10 in v;
  }

  /** The page a click leads to; a window button past the rendered ones does not exist. */
  function Click(p: int, totalPages: nat, b: Boton): (q: int)
  {
    match b
    case Primera => 1
    case Anterior => Max(p - 1, 1)
    case Siguiente => Min(p + 1, totalPages)
    case Ultima => totalPages
    case Numero(i) =>
      var w := Ventana(p, totalPages);
      if i < |w| then w[i] else p
  }

  /** Every button keeps a page in range in range; the arrows move by one when they can. */
  lemma ClickInRange(p: int, totalPages: nat, b: Boton)
    requires 1 <= p <= totalPages
    ensures 1 <= Click(p, totalPages, b) <= totalPages
    ensures b == Anterior ==> Click(p, totalPages, b) == if p == 1 then 1 else p - 1
    ensures b == Siguiente ==> Click(p, totalPages, b) == if p == totalPages then p else p + 1
  {
  }

  function ClickAll(p: int, totalPages: nat, bs: seq<Boton>): int
    decreases |bs|
  {
    if |bs| == 0 then p else ClickAll(Click(p, totalPages, bs[0]), totalPages, bs[1..])
  }

  /** Any run of clicks from a page in range ends on a page in range. */
  lemma {:induction false} ClicksStayInRange(p: int, totalPages: nat, bs: seq<Boton>)
    requires 1 <= p <= totalPages
    ensures 1 <= ClickAll(p, totalPages, bs) <= totalPages
    decreases |bs|
  {
    if |bs| > 0 {
      ClickInRange(p, totalPages, bs[0]);
      ClicksStayInRange(Click(p, totalPages, bs[0]), totalPages, bs[1..]);
    }
  }

  /** Filters do not reset the page: a stale page past the end shows no records; when the
      bar is rendered, `Siguiente` brings it back to the last page. */
  lemma StalePage<T>(xs: seq<T>, p: nat, perPage: nat)
    requires perPage > 0 && p > TotalPages(|xs|, perPage) >= 1
    ensures Page(xs, p, perPage) == []
    ensures ShowsControls(TotalPages(|xs|, perPage)) ==>
      Click(p, TotalPages(|xs|, perPage), Siguiente) == TotalPages(|xs|, perPage)
  {
    PagePastEnd(xs, p, perPage);
  }

  /** A filter input's `onChange`: the filter is set and the page number left as it was. */
  function SetFiltros(v: Vista, f: Filtros): (r: Vista)
    ensures r.filtros == f && r.currentPage == v.currentPage
    ensures r.registros == v.registros && r.recordsPerPage == v.recordsPerPage
  {
    v.(filtros := f)
  }

  /** `currentRecords` of a page state. */
  function CurrentRecords(v: Vista, dateKey: string -> string): (r: seq<VistaRegistro>)
    requires v.currentPage >= 1 && v.recordsPerPage > 0
    ensures |r| <= v.recordsPerPage
    ensures forall i :: 0 <= i < |r| ==> r[i] in Filtered(v.registros, v.filtros, dateKey)
  {
    Page(Filtered(v.registros, v.filtros, dateKey), v.currentPage, v.recordsPerPage)
  }

  /** One page of matches that fits on a single page, leaving a page past the first. */
  lemma SinglePage(n: nat, perPage: nat)
    requires 0 < n <= perPage
    ensures TotalPages(n, perPage) == 1
  {
    assert TotalPages(0, perPage) == 0;
  }

  /** From page 2 or later, a filter leaving between one and `perPage` matches shows none
      of them, and with a single page the bar is not rendered: only clearing the filters
      or changing the page size returns to page 1. */
  lemma FilterKeepsStalePage(v: Vista, f: Filtros, dateKey: string -> string)
    requires v.currentPage >= 2 && v.recordsPerPage > 0
    requires 0 < |Filtered(v.registros, f, dateKey)| <= v.recordsPerPage
    ensures CurrentRecords(SetFiltros(v, f), dateKey) == []
    ensures !ShowsControls(TotalPages(|Filtered(v.registros, f, dateKey)|, v.recordsPerPage))
  {
    var xs := Filtered(v.registros, f, dateKey);
    SinglePage(|xs|, v.recordsPerPage);
    PagePastEnd(xs, v.currentPage, v.recordsPerPage);
  }

  /** A filter change that also returns to page 1, as `limpiarFiltros` and the page-size
      selector do. */
  function SetFiltrosResettingPage(v: Vista, f: Filtros): (r: Vista)
    ensures r.filtros == f && r.currentPage == 1
    ensures r.registros == v.registros && r.recordsPerPage == v.recordsPerPage
  {
    v.(filtros := f, currentPage := 1)
  }

  /** After a filter change that resets the page, the first `perPage` matches are shown, so
      some record is shown whenever one matches. */
  lemma FilterResetShowsMatches(v: Vista, f: Filtros, dateKey: string -> string)
    requires v.recordsPerPage > 0
    ensures var xs := Filtered(v.registros, f, dateKey);
      CurrentRecords(SetFiltrosResettingPage(v, f), dateKey) == xs[..Min(|xs|, v.recordsPerPage)]
  {
    var xs := Filtered(v.registros, f, dateKey);
    assert (1 - 1) * v.recordsPerPage == 0;
  }

  // ---- summary counts -----------------------------------------------------------------

  function CountTipo(rs: seq<VistaRegistro>, tipo: string): nat
  {
    Count(rs, (r: VistaRegistro) => r.tipoMovimiento == tipo)
  }

  function TotalEntradas(rs: seq<VistaRegistro>): nat { CountTipo(rs, "Entrada") }
  function TotalSalidas(rs: seq<VistaRegistro>): nat { CountTipo(rs, "Salida") }

  /** The two counts never exceed the number of records, and add up to it only when every
      type is written exactly `Entrada` or `Salida`. */
  lemma CountsBounded(rs: seq<VistaRegistro>)
    ensures TotalEntradas(rs) + TotalSalidas(rs) <= |rs|
    ensures (forall i :: 0 <= i < |rs| ==> rs[i].tipoMovimiento in {"Entrada", "Salida"}) ==>
      TotalEntradas(rs) + TotalSalidas(rs) == |rs|
  {
    CountDisjoint(rs, (r: VistaRegistro) => r.tipoMovimiento == "Entrada", (r: VistaRegistro) => r.tipoMovimiento == "Salida");
  }

  /** The backend writes `entrada`/`salida` in lower case, which the exact comparison with
      `Entrada`/`Salida` never counts. */
  lemma BackendTypesNotCounted(rs: seq<VistaRegistro>)
    requires forall i :: 0 <= i < |rs| ==> rs[i].tipoMovimiento in {"entrada", "salida"}
    ensures TotalEntradas(rs) == 0 && TotalSalidas(rs) == 0
  {
    assert "entrada" != "Entrada" && "salida" != "Salida";
    assert "entrada"[0] != "Entrada"[0] && "salida"[0] != "Salida"[0];
    CountNone(rs, (r: VistaRegistro) => r.tipoMovimiento == "Entrada");
    CountNone(rs, (r: VistaRegistro) => r.tipoMovimiento == "Salida");
  }

  /** `registrosHoy`: records whose `fechaHora` up to the first space equals today's date. */
  function RegistrosHoy(rs: seq<VistaRegistro>, hoy: string): nat
  {
    Count(rs, (r: VistaRegistro) => Split(r.fechaHora, ' ')[0] == hoy)
  }

  /** A timestamp without a space (the ISO form `2024-05-01T08:00:00`) counts as today only
      when the whole timestamp equals the date, so longer timestamps are never counted. */
  lemma TimestampsWithoutSpace(rs: seq<VistaRegistro>, hoy: string)
    requires forall i :: 0 <= i < |rs| ==> ' ' !in rs[i].fechaHora && |rs[i].fechaHora| != |hoy|
    ensures RegistrosHoy(rs, hoy) == 0
  {
    forall i | 0 <= i < |rs| ensures Split(rs[i].fechaHora, ' ')[0] != hoy {
      SplitWithoutSeparator(rs[i].fechaHora, ' ');
    }
    CountNone(rs, (r: VistaRegistro) => Split(r.fechaHora, ' ')[0] == hoy);
  }

  // ---- the two counts as evidently intended ------------------------------------------

  /** Entry and exit counts that compare ignoring case, as the backend itself does when it
      reads a movement type back. */
  function TotalEntradasIgnoringCase(rs: seq<VistaRegistro>): nat
  {
    Count(rs, (r: VistaRegistro) => EqualsIgnoreCase(r.tipoMovimiento, "Entrada"))
  }

  function TotalSalidasIgnoringCase(rs: seq<VistaRegistro>): nat
  {
    Count(rs, (r: VistaRegistro) => EqualsIgnoreCase(r.tipoMovimiento, "Salida"))
  }

  /** Folding a movement type: it cannot equal both `Entrada` and `Salida` ignoring case,
      and the backend's `entrada` and `salida` each equal exactly one of them. */
  lemma FoldedType(t: string)
    ensures !(EqualsIgnoreCase(t, "Entrada") && EqualsIgnoreCase(t, "Salida"))
    ensures t == "entrada" ==> EqualsIgnoreCase(t, "Entrada") && !EqualsIgnoreCase(t, "Salida")
    ensures t == "salida" ==> EqualsIgnoreCase(t, "Salida") && !EqualsIgnoreCase(t, "Entrada")
  {
    assert ToLower("Entrada") == "entrada" && ToLower("Salida") == "salida";
    assert ToLower("entrada") == "entrada" && ToLower("salida") == "salida";
    assert "entrada"[0] != "salida"[0];
  }

  /** The case-insensitive counts never exceed the number of records. */
  lemma CountsIgnoringCaseBounded(rs: seq<VistaRegistro>)
    ensures TotalEntradasIgnoringCase(rs) + TotalSalidasIgnoringCase(rs) <= |rs|
  {
    var e := (r: VistaRegistro) => EqualsIgnoreCase(r.tipoMovimiento, "Entrada");
    var s := (r: VistaRegistro) => EqualsIgnoreCase(r.tipoMovimiento, "Salida");
    forall r: VistaRegistro ensures !(e(r) && s(r)) { FoldedType(r.tipoMovimiento); }
    CountDisjoint(rs, e, s);
  }

  /** On the backend's lower-case types the case-insensitive counts count each `entrada`
      and each `salida` exactly once, so together they count every record. */
  lemma CountsIgnoringCaseOnBackendTypes(rs: seq<VistaRegistro>)
    requires forall i :: 0 <= i < |rs| ==> rs[i].tipoMovimiento in {"entrada", "salida"}
    ensures TotalEntradasIgnoringCase(rs) == CountTipo(rs, "entrada")
    ensures TotalSalidasIgnoringCase(rs) == CountTipo(rs, "salida")
    ensures TotalEntradasIgnoringCase(rs) + TotalSalidasIgnoringCase(rs) == |rs|
  {
    var e := (r: VistaRegistro) => EqualsIgnoreCase(r.tipoMovimiento, "Entrada");
    var s := (r: VistaRegistro) => EqualsIgnoreCase(r.tipoMovimiento, "Salida");
    forall i | 0 <= i < |rs|
      ensures e(rs[i]) == (rs[i].tipoMovimiento == "entrada") && s(rs[i]) == (rs[i].tipoMovimiento == "salida")
    {
      FoldedType(rs[i].tipoMovimiento);
    }
    CountSame(rs, e, (r: VistaRegistro) => r.tipoMovimiento == "entrada");
    CountSame(rs, s, (r: VistaRegistro) => r.tipoMovimiento == "salida");
    CountDisjoint(rs, (r: VistaRegistro) => r.tipoMovimiento == "entrada", (r: VistaRegistro) => r.tipoMovimiento == "salida");
  }

  /** `registrosHoy` with the date taken up to the `T` of an ISO timestamp. */
  function RegistrosHoyIso(rs: seq<VistaRegistro>, hoy: string): nat
  {
    Count(rs, (r: VistaRegistro) => Split(r.fechaHora, 'T')[0] == hoy)
  }

  /** An ISO timestamp `day` + `T` + time counts as today exactly when its day is today. */
  lemma IsoTimestampDay(r: VistaRegistro, day: string, time: string, hoy: string)
    requires 'T' !in day && r.fechaHora == day + ['T'] + time
    ensures Split(r.fechaHora, 'T')[0] == hoy <==> day == hoy
  {
    SplitAtFirstSeparator(day, time, 'T');
  }

  /** Records stamped today in ISO form: the space-splitting count shows none of them, the
      `T`-splitting count shows all of them. */
  lemma TodayCountFinding(rs: seq<VistaRegistro>, hoy: string)
    requires 'T' !in hoy && ' ' !in hoy
    requires forall i :: 0 <= i < |rs| ==>
      && ' ' !in rs[i].fechaHora && |rs[i].fechaHora| > |hoy| && rs[i].fechaHora[..|hoy| + 1] == hoy + ['T']
    ensures RegistrosHoy(rs, hoy) == 0
    ensures RegistrosHoyIso(rs, hoy) == |rs|
  {
    TimestampsWithoutSpace(rs, hoy);
    var today := (r: VistaRegistro) => Split(r.fechaHora, 'T')[0] == hoy;
    var never := (r: VistaRegistro) => false;
    forall i | 0 <= i < |rs| ensures today(rs[i]) {
      var fh := rs[i].fechaHora;
      assert fh == hoy + ['T'] + fh[|hoy| + 1..] by {
        assert fh == fh[..|hoy| + 1] + fh[|hoy| + 1..];
      }
      IsoTimestampDay(rs[i], hoy, fh[|hoy| + 1..], hoy);
    }
    CountDisjoint(rs, today, never);
    CountNone(rs, never);
  }

  // ---- CSV export ---------------------------------------------------------------------

  const CsvHeader: seq<string> := ["ID", "Usuario", "Lector", "Tipo Movimiento", "Fecha y Hora"]

  function CsvRow(r: VistaRegistro): seq<string>
  {
    [IntToString(r.id), r.usuario, r.lector, r.tipoMovimiento, r.fechaHora]
  }

  /** The header row followed by one row per record. */
  function CsvRows(rs: seq<VistaRegistro>): (rows: seq<seq<string>>)
    ensures |rows| == |rs| + 1 && rows[0] == CsvHeader
    ensures forall i :: 0 <= i < |rs| ==> rows[i + 1] == CsvRow(rs[i])
  {
    [CsvHeader] + seq(|rs|, i requires 0 <= i < |rs| => CsvRow(rs[i]))
  }

  /** Each row joined with ',' and the rows joined with '\n', with no quoting. */
  function Csv(rs: seq<VistaRegistro>): string
  {
    var rows := CsvRows(rs);
    Join(seq(|rows|, i requires 0 <= i < |rows| => Join(rows[i], ',')), '\n')
  }

  /** No field holds a character the format gives a meaning to. */
  predicate PlainFields(r: VistaRegistro)
  {
    forall c :: c in [',', '\n'] ==> c !in r.usuario && c !in r.lector && c !in r.tipoMovimiento && c !in r.fechaHora
  }

  lemma RowFieldsPlain(row: seq<string>, c: char)
    requires row == CsvHeader || exists r :: row == CsvRow(r) && PlainFields(r)
    requires c == ',' || c == '\n'
    ensures forall i :: 0 <= i < |row| ==> c !in row[i]
  {
    if row != CsvHeader {
      var r :| row == CsvRow(r) && PlainFields(r);
      var id := IntToString(r.id);
      forall k | 0 <= k < |id| ensures id[k] != c {
        if k > 0 && r.id < 0 { assert id[k] == id[1..][k - 1]; }
      }
    }
  }

  /** When no field holds ',' or '\n', the export has one line per record after the header,
      and splitting a line at ',' gives back the record's fields. */
  lemma CsvRecoversFields(rs: seq<VistaRegistro>)
    requires forall i :: 0 <= i < |rs| ==> PlainFields(rs[i])
    ensures |Split(Csv(rs), '\n')| == |rs| + 1
    ensures Split(Csv(rs), '\n')[0] == Join(CsvHeader, ',')
    ensures forall i :: 0 <= i < |rs| ==> Split(Split(Csv(rs), '\n')[i + 1], ',') == CsvRow(rs[i])
  {
    var rows := CsvRows(rs);
    var lines := seq(|rows|, i requires 0 <= i < |rows| => Join(rows[i], ','));
    forall i | 0 <= i < |rows|
      ensures '\n' !in lines[i]
      ensures Split(lines[i], ',') == rows[i]
    {
      if i > 0 { assert rows[i] == CsvRow(rs[i - 1]) && PlainFields(rs[i - 1]); }
      RowFieldsPlain(rows[i], '\n');
      RowFieldsPlain(rows[i], ',');
      JoinAvoids(rows[i], ',', '\n');
      SplitJoin(rows[i], ',');
    }
    SplitJoin(lines, '\n');
  }

  lemma SplitFiveParts(a: string, b: string, c: string, d: string, e: string)
    requires ',' !in a && ',' !in b && ',' !in c && ',' !in d && ',' !in e
    ensures Split(a + [','] + (b + [','] + (c + [','] + (d + [','] + e))), ',') == [a, b, c, d, e]
  {
    SplitWithoutSeparator(e, ',');
    SplitAtFirstSeparator(d, e, ',');
    SplitAtFirstSeparator(c, d + [','] + e, ',');
    SplitAtFirstSeparator(b, c + [','] + (d + [','] + e), ',');
    SplitAtFirstSeparator(a, b + [','] + (c + [','] + (d + [','] + e)), ',');
  }

  /** A comma inside a name shifts the columns: the line splits into six fields. */
  lemma CommaInNameSplitsField()
    ensures var r := VistaRegistro(7, 1, 1, "A,B", "P", "E", "H");
      Split(Join(CsvRow(r), ','), ',') == ["7", "A", "B", "P", "E", "H"]
  {
    var r := VistaRegistro(7, 1, 1, "A,B", "P", "E", "H");
    assert IntToString(7) == "7";
    assert CsvRow(r) == ["7", "A,B", "P", "E", "H"];
    var tail := "A" + [','] + ("B" + [','] + ("P" + [','] + ("E" + [','] + "H")));
    assert Join(CsvRow(r), ',') == "7" + [','] + tail;
    SplitFiveParts("A", "B", "P", "E", "H");
    SplitAtFirstSeparator("7", tail, ',');
  }
}

=== FILE: routing.dfy ===
/** The request mappings of the backend controllers and how a request path is resolved
    against them: a literal segment must be equal, a `{id}` segment must parse as a Long and
    a `{fecha}` segment as an ISO date. */
module Routing {
  import opened Text

  datatype Method = GET | POST | PUT | DELETE

  datatype Seg = Lit(text: string) | LongVar | DateVar

  datatype Mapping = Mapping(verb: Method, pattern: seq<Seg>, handler: string)

  /** A request path: each segment is preceded by one '/'. */
  function Path(segs: seq<string>): string
  {
    if |segs| == 0 then "" else "/" + segs[0] + Path(segs[1..])
  }

  /** The segments of a path that starts with '/'. */
  function Segments(path: string): seq<string>
  {
    Split(path, '/')[1..]
  }

  lemma {:induction false} PathIsJoin(segs: seq<string>)
    requires |segs| > 0
    ensures "/" + Path(segs)[1..] == Path(segs)
    ensures Path(segs) == Join([""] + segs, '/')
    decreases |segs|
  {
    if |segs| > 1 {
      PathIsJoin(segs[1..]);
      assert ([""] + segs)[1..] == segs;
      assert ([""] + segs[1..])[1..] == segs[1..];
      assert Join(segs, '/') == segs[0] + "/" + Join(segs[1..], '/');
      JoinIsPathTail(segs);
    }
  }

  lemma {:induction false} JoinIsPathTail(segs: seq<string>)
    requires |segs| > 0
    ensures "/" + Join(segs, '/') == Path(segs)
    decreases |segs|
  {
    if |segs| > 1 {
      JoinIsPathTail(segs[1..]);
    }
  }

  /** Splitting a built path recovers its segments when none contains '/'. */
  lemma SegmentsOfPath(segs: seq<string>)
    requires |segs| > 0
    requires forall i :: 0 <= i < |segs| ==> '/' !in segs[i]
    ensures Segments(Path(segs)) == segs
  {
    PathIsJoin(segs);
    SplitJoin([""] + segs, '/');
    assert ([""] + segs)[1..] == segs;
  }

  predicate IsLeapYear(y: int)
  {
    y % 4 == 0 && (y % 100 != 0 || y % 400 == 0)
  }

  /** The length of month `m` (1 to 12) of year `y` in the proleptic Gregorian calendar. */
  function DaysInMonth(y: int, m: int): int
  {
    if m == 2 then (if IsLeapYear(y) then 29 else 28)
    else if m == 4 || m == 6 || m == 9 || m == 11 then 30
    else 31
  }

  function DigitAt(s: string, i: nat): int
    requires i < |s|
  {
    s[i] as int - '0' as int
  }

  /** `YYYY-MM-DD` naming a day of the calendar, as `ISO_LOCAL_DATE` reads it strictly. */
  predicate IsLocalDate(s: string)
  {
    && |s| == 10 && s[4] == '-' && s[7] == '-'
    && (forall i :: 0 <= i < 10 && i != 4 && i != 7 ==> IsDigit(s[i]))
    && var year := DigitAt(s, 0) * 1000 + DigitAt(s, 1) * 100 + DigitAt(s, 2) * 10 + DigitAt(s, 3);
       var month := DigitAt(s, 5) * 10 + DigitAt(s, 6);
       var day := DigitAt(s, 8) * 10 + DigitAt(s, 9);
       1 <= month <= 12 && 1 <= day <= DaysInMonth(year, month)
  }

  /** The optional offset after the date: nothing, `Z`, or a sign and `HH:MM`, optionally
      followed by `:SS`. */
  predicate IsOffsetId(o: string)
  {
    || o == "" || o == "Z"
    || (&& (|o| == 6 || |o| == 9) && (o[0] == '+' || o[0] == '-')
        && IsDigit(o[1]) && IsDigit(o[2]) && o[3] == ':' && IsDigit(o[4]) && IsDigit(o[5])
        && (|o| == 9 ==> o[6] == ':' && IsDigit(o[7]) && IsDigit(o[8])))
  }

  /** The form `DateTimeFormat.ISO.DATE` (`ISO_DATE`) reads: a calendar date, optionally
      followed by an offset, which the conversion to a date then drops. */
  predicate IsIsoDate(s: string)
  {
    |s| >= 10 && IsLocalDate(s[..10]) && IsOffsetId(s[10..])
  }

  /** A plain date and the same date with an offset reach the handler. */
  lemma IsoDateWithOffset()
    ensures IsIsoDate("2024-05-01") && IsIsoDate("2024-05-01Z") && IsIsoDate("2024-05-01+02:00")
  {
    var d := "2024-05-01";
    assert IsLocalDate(d);
    assert "2024-05-01Z"[..10] == d && "2024-05-01Z"[10..] == "Z";
    assert "2024-05-01+02:00"[..10] == d && "2024-05-01+02:00"[10..] == "+02:00";
    assert d[..10] == d && d[10..] == "";
  }

  /** February 29th is a date only in a leap year. */
  lemma IsoDateLeapDay()
    ensures IsIsoDate("2024-02-29") && !IsIsoDate("2023-02-29")
  {
    var a, b := "2024-02-29", "2023-02-29";
    assert a[..10] == a && a[10..] == "" && b[..10] == b;
  }

  /** A thirteenth month and an unpadded date are refused. */
  lemma IsoDateMalformed()
    ensures !IsIsoDate("2024-13-01") && !IsIsoDate("2024-5-1")
  {
    assert "2024-13-01"[..10] == "2024-13-01";
  }

  predicate SegMatches(seg: Seg, s: string)
  {
    match seg
    case Lit(t) => s == t
    case _ => s != ""
  }

  predicate SegConverts(seg: Seg, s: string)
  {
    match seg
    case Lit(_) => true
    case LongVar => IsLongLiteral(s)
    case DateVar => IsIsoDate(s)
  }

  /** The mapping's path pattern matches the segments, whatever the verb. */
  predicate PathMatches(m: Mapping, segs: seq<string>)
  {
    |m.pattern| == |segs| && forall i :: 0 <= i < |segs| ==> SegMatches(m.pattern[i], segs[i])
  }

  predicate PatternMatches(m: Mapping, verb: Method, segs: seq<string>)
  {
    m.verb == verb && PathMatches(m, segs)
  }

  predicate Converts(m: Mapping, segs: seq<string>)
    requires |m.pattern| == |segs|
  {
    forall i :: 0 <= i < |segs| ==> SegConverts(m.pattern[i], segs[i])
  }

  /** What the dispatcher does with a request. */
  datatype Resolution =
    | Handled(handler: string)   // a mapping matches and its path variables convert
    | BadRequest                 // a mapping matches but a path variable does not convert: 400
    | MethodNotAllowed           // only mappings of other verbs match the path: 405
    | NoHandler                  // no mapping matches the path: 404

  predicate Serves(m: Mapping, verb: Method, segs: seq<string>)
  {
    PatternMatches(m, verb, segs) && Converts(m, segs)
  }

  /** The first mapping that serves the request; `BadRequest` when mappings of the verb
      match the path but none converts; `MethodNotAllowed` when only mappings of other verbs
      match the path; `NoHandler` when none matches it. */
  function Resolve(mappings: seq<Mapping>, verb: Method, segs: seq<string>): Resolution
    decreases |mappings|
  {
    if |mappings| == 0 then NoHandler
    else if Serves(mappings[0], verb, segs) then Handled(mappings[0].handler)
    else
      var rest := Resolve(mappings[1..], verb, segs);
      if !rest.Handled? && PatternMatches(mappings[0], verb, segs) then BadRequest
      else if rest == NoHandler && PathMatches(mappings[0], segs) then MethodNotAllowed
      else rest
  }

  /** The resolution is `Handled` by the first serving mapping; `NoHandler` exactly when no
      path pattern matches; `MethodNotAllowed` exactly when path patterns match but none of
      the verb; and `BadRequest` otherwise. */
  lemma {:induction false} ResolveSpec(mappings: seq<Mapping>, verb: Method, segs: seq<string>)
    ensures var r := Resolve(mappings, verb, segs);
      && (r.Handled? <==> exists i :: 0 <= i < |mappings| && Serves(mappings[i], verb, segs))
      && (r.Handled? ==> exists i :: 0 <= i < |mappings| && Serves(mappings[i], verb, segs) && mappings[i].handler == r.handler
                                     && forall j :: 0 <= j < i ==> !Serves(mappings[j], verb, segs))
      && (r == NoHandler <==> forall i :: 0 <= i < |mappings| ==> !PathMatches(mappings[i], segs))
      && (r == MethodNotAllowed <==>
          && (forall i :: 0 <= i < |mappings| ==> !PatternMatches(mappings[i], verb, segs))
          && exists i :: 0 <= i < |mappings| && PathMatches(mappings[i], segs))
    decreases |mappings|
  {
    ResolveMisses(mappings, verb, segs);
    if |mappings| > 0 {
      ResolveSpec(mappings[1..], verb, segs);
      assert forall i :: 1 <= i < |mappings| ==> mappings[i] == mappings[1..][i - 1];
      var r := Resolve(mappings, verb, segs);
      if !Serves(mappings[0], verb, segs) && r.Handled? {
        var i :| 0 <= i < |mappings| - 1 && Serves(mappings[1..][i], verb, segs) && mappings[1..][i].handler == r.handler
                 && forall j :: 0 <= j < i ==> !Serves(mappings[1..][j], verb, segs);
        assert Serves(mappings[i + 1], verb, segs) && mappings[i + 1].handler == r.handler;
        assert forall j :: 0 <= j < i + 1 ==> !Serves(mappings[j], verb, segs) by {
          forall j | 0 <= j < i + 1 ensures !Serves(mappings[j], verb, segs) {
            if j > 0 { assert mappings[j] == mappings[1..][j - 1]; }
          }
        }
      }
    }
  }

  /** The failures of `Resolve`: some mapping of the verb matches the path exactly when the
      request is handled or refused with 400; otherwise 405 when a mapping of another verb
      matches the path and 404 when none does. */
  lemma {:induction false} ResolveMisses(mappings: seq<Mapping>, verb: Method, segs: seq<string>)
    ensures var r := Resolve(mappings, verb, segs);
      && ((r.Handled? || r == BadRequest) <==> exists i :: 0 <= i < |mappings| && PatternMatches(mappings[i], verb, segs))
      && (r == NoHandler <==> forall i :: 0 <= i < |mappings| ==> !PathMatches(mappings[i], segs))
      && (r == MethodNotAllowed <==>
          && (forall i :: 0 <= i < |mappings| ==> !PatternMatches(mappings[i], verb, segs))
          && exists i :: 0 <= i < |mappings| && PathMatches(mappings[i], segs))
    decreases |mappings|
  {
    if |mappings| > 0 {
      ResolveMisses(mappings[1..], verb, segs);
      assert forall i :: 1 <= i < |mappings| ==> mappings[i] == mappings[1..][i - 1];
    }
  }

  /** Resolving against a concatenation: the front list is tried first. */
  lemma {:induction false} ResolveAppend(a: seq<Mapping>, b: seq<Mapping>, verb: Method, segs: seq<string>)
    ensures Resolve(a + b, verb, segs) ==
      (var ra := Resolve(a, verb, segs);
       var rb := Resolve(b, verb, segs);
       if ra.Handled? then ra else if rb.Handled? then rb
       else if ra == BadRequest || rb == BadRequest then BadRequest
       else if ra == MethodNotAllowed || rb == MethodNotAllowed then MethodNotAllowed
       else NoHandler)
    decreases |a|
  {
    if |a| > 0 {
      assert (a + b)[0] == a[0];
      assert (a + b)[1..] == a[1..] + b;
      ResolveAppend(a[1..], b, verb, segs);
    } else {
      assert a + b == b;
    }
  }

  /** Every mapping of the list lives under the class-level prefix `/<prefix>`. */
  predicate Under(mappings: seq<Mapping>, prefix: string)
  {
    forall i :: 0 <= i < |mappings| ==> |mappings[i].pattern| > 0 && mappings[i].pattern[0] == Lit(prefix)
  }

  /** A request outside a controller's prefix is not matched by any of its mappings. */
  lemma OutsidePrefix(mappings: seq<Mapping>, prefix: string, verb: Method, segs: seq<string>)
    requires Under(mappings, prefix)
    requires |segs| == 0 || segs[0] != prefix
    ensures Resolve(mappings, verb, segs) == NoHandler
  {
    ResolveSpec(mappings, verb, segs);
    forall i | 0 <= i < |mappings| ensures !PathMatches(mappings[i], segs) {
      if |segs| > 0 {
        assert !SegMatches(mappings[i].pattern[0], segs[0]);
      }
    }
  }

  // One step of `Resolve` at position `k` of a mapping list, for walking a concrete list.

  lemma SkipAt(ms: seq<Mapping>, k: nat, verb: Method, segs: seq<string>)
    requires k < |ms| && !PatternMatches(ms[k], verb, segs)
    requires !PathMatches(ms[k], segs) || Resolve(ms[k + 1..], verb, segs) != NoHandler
    ensures Resolve(ms[k..], verb, segs) == Resolve(ms[k + 1..], verb, segs)
  {
    assert ms[k..][0] == ms[k] && ms[k..][1..] == ms[k + 1..];
  }

  lemma HitAt(ms: seq<Mapping>, k: nat, verb: Method, segs: seq<string>)
    requires k < |ms| && Serves(ms[k], verb, segs)
    ensures Resolve(ms[k..], verb, segs) == Handled(ms[k].handler)
  {
    assert ms[k..][0] == ms[k];
  }

  lemma PassAt(ms: seq<Mapping>, k: nat, verb: Method, segs: seq<string>)
    requires k < |ms| && !Serves(ms[k], verb, segs) && Resolve(ms[k + 1..], verb, segs).Handled?
    ensures Resolve(ms[k..], verb, segs) == Resolve(ms[k + 1..], verb, segs)
  {
    assert ms[k..][0] == ms[k] && ms[k..][1..] == ms[k + 1..];
  }

  lemma RejectAt(ms: seq<Mapping>, k: nat, verb: Method, segs: seq<string>)
    requires k < |ms| && PatternMatches(ms[k], verb, segs) && !Serves(ms[k], verb, segs)
    requires !Resolve(ms[k + 1..], verb, segs).Handled?
    ensures Resolve(ms[k..], verb, segs) == BadRequest
  {
    assert ms[k..][0] == ms[k] && ms[k..][1..] == ms[k + 1..];
  }

  lemma OtherVerbAt(ms: seq<Mapping>, k: nat, verb: Method, segs: seq<string>)
    requires k < |ms| && PathMatches(ms[k], segs) && !PatternMatches(ms[k], verb, segs)
    requires Resolve(ms[k + 1..], verb, segs) == NoHandler
    ensures Resolve(ms[k..], verb, segs) == MethodNotAllowed
  {
    assert ms[k..][0] == ms[k] && ms[k..][1..] == ms[k + 1..];
  }

  lemma WalkEnds(ms: seq<Mapping>, verb: Method, segs: seq<string>)
    ensures Resolve(ms[|ms|..], verb, segs) == NoHandler
    ensures ms[0..] == ms
  {
    assert ms[|ms|..] == [];
  }

  /** `AuthController` under `/auth`. */
  const AuthMappings: seq<Mapping> := [
    Mapping(POST, [Lit("auth"), Lit("login")], "createAuthenticationToken")
  ]

  /** `UsuarioController` under `/usuarios`. */
  const UsuarioMappings: seq<Mapping> := [
    Mapping(GET, [Lit("usuarios")], "getAllUsuarios"),
    Mapping(POST, [Lit("usuarios")], "createUsuario"),
    Mapping(GET, [Lit("usuarios"), LongVar], "getUsuarioById"),
    Mapping(GET, [Lit("usuarios"), Lit("activos")], "getActiveUsuarios"),
    Mapping(PUT, [Lit("usuarios"), LongVar], "updateUsuario"),
    Mapping(DELETE, [Lit("usuarios"), LongVar], "deleteUsuario")
  ]

  /** `LectorController` under `/lectores`. */
  const LectorMappings: seq<Mapping> := [
    Mapping(GET, [Lit("lectores")], "getAllLectores"),
    Mapping(POST, [Lit("lectores")], "createLector"),
    Mapping(GET, [Lit("lectores"), LongVar], "getLectorById"),
    Mapping(PUT, [Lit("lectores"), LongVar], "updateLector"),
    Mapping(DELETE, [Lit("lectores"), LongVar], "deleteLector")
  ]

  /** `RegistroController` under `/registros`. */
  const RegistroMappings: seq<Mapping> := [
    Mapping(GET, [Lit("registros")], "getAllRegistros"),
    Mapping(GET, [Lit("registros"), Lit("ultimo-desconocido")], "getUltimoTagDesconocido"),
    Mapping(POST, [Lit("registros")], "createRegistro"),
    Mapping(POST, [Lit("registros"), Lit("rfid")], "createRegistroByRfid"),
    Mapping(GET, [Lit("registros"), Lit("fecha"), DateVar], "getRegistrosByFecha"),
    Mapping(GET, [Lit("registros"), Lit("usuario"), LongVar], "getRegistrosByUsuario"),
    Mapping(GET, [Lit("registros"), Lit("lector"), LongVar], "getRegistrosByLector")
  ]

  /** All mappings of the backend. */
  const Mappings: seq<Mapping> := AuthMappings + UsuarioMappings + LectorMappings + RegistroMappings
}

=== FILE: seqs.dfy ===
/** `Array.prototype.filter`, order-preserving subsequences and counting over immutable
    sequences. */
module Seqs {

  /** `a` is obtained from `b` by deleting elements, keeping the order of the rest. */
  predicate IsSubsequence<T(==)>(a: seq<T>, b: seq<T>)
    decreases |b|
  {
    if |b| == 0 then |a| == 0
    else (|a| > 0 && a[0] == b[0] && IsSubsequence(a[1..], b[1..])) || IsSubsequence(a, b[1..])
  }

  lemma {:induction false} SubsequenceOfItself<T>(a: seq<T>)
    ensures IsSubsequence(a, a)
    decreases |a|
  {
    if |a| > 0 { SubsequenceOfItself(a[1..]); }
  }

  /** `xs.filter(p)`. */
  function Keep<T>(xs: seq<T>, p: T -> bool): (r: seq<T>)
    ensures |r| <= |xs|
    ensures forall i :: 0 <= i < |r| ==> r[i] in xs && p(r[i])
    ensures forall i :: 0 <= i < |xs| && p(xs[i]) ==> xs[i] in r
    ensures IsSubsequence(r, xs)
    decreases |xs|
  {
    if |xs| == 0 then []
    else
      var rest := Keep(xs[1..], p);
      assert xs == [xs[0]] + xs[1..];
      if p(xs[0]) then
        var r := [xs[0]] + rest;
        assert r[1..] == rest;
        r
      else rest
  }

  lemma {:induction false} KeepAll<T>(xs: seq<T>, p: T -> bool)
    requires forall x :: x in xs ==> p(x)
    ensures Keep(xs, p) == xs
    decreases |xs|
  {
    if |xs| > 0 {
      assert xs[0] in xs;
      forall x | x in xs[1..] ensures p(x) { assert x in xs; }
      KeepAll(xs[1..], p);
      assert [xs[0]] + xs[1..] == xs;
    }
  }

  /** Filtering by `p` then by `q` is filtering by their conjunction. */
  lemma {:induction false} KeepKeep<T>(xs: seq<T>, p: T -> bool, q: T -> bool, pq: T -> bool)
    requires forall x :: pq(x) == (p(x) && q(x))
    ensures Keep(Keep(xs, p), q) == Keep(xs, pq)
    decreases |xs|
  {
    if |xs| > 0 {
      KeepKeep(xs[1..], p, q, pq);
      if p(xs[0]) {
        var k := Keep(xs, p);
        assert k == [xs[0]] + Keep(xs[1..], p);
        assert k[1..] == Keep(xs[1..], p);
      }
    }
  }

  lemma {:induction false} KeepAppend<T>(xs: seq<T>, ys: seq<T>, p: T -> bool)
    ensures Keep(xs + ys, p) == Keep(xs, p) + Keep(ys, p)
    decreases |xs|
  {
    if |xs| > 0 {
      assert (xs + ys)[1..] == xs[1..] + ys;
      KeepAppend(xs[1..], ys, p);
    } else {
      assert xs + ys == ys;
    }
  }

  /** The number of elements satisfying `p`, `xs.filter(p).length`. */
  function Count<T>(xs: seq<T>, p: T -> bool): nat
  {
    |Keep(xs, p)|
  }

  /** Two disjoint predicates count at most every element once, and exactly once when every
      element satisfies one of them. */
  lemma {:induction false} CountDisjoint<T>(xs: seq<T>, p: T -> bool, q: T -> bool)
    requires forall x :: !(p(x) && q(x))
    ensures Count(xs, p) + Count(xs, q) <= |xs|
    ensures (forall i :: 0 <= i < |xs| ==> p(xs[i]) || q(xs[i])) ==> Count(xs, p) + Count(xs, q) == |xs|
    decreases |xs|
  {
    if |xs| > 0 {
      CountDisjoint(xs[1..], p, q);
      if forall i :: 0 <= i < |xs| ==> p(xs[i]) || q(xs[i]) {
        forall i | 0 <= i < |xs[1..]| ensures p(xs[1..][i]) || q(xs[1..][i]) {
          assert xs[1..][i] == xs[i + 1];
        }
      }
    }
  }

  lemma {:induction false} CountNone<T>(xs: seq<T>, p: T -> bool)
    requires forall i :: 0 <= i < |xs| ==> !p(xs[i])
    ensures Count(xs, p) == 0
    decreases |xs|
  {
    if |xs| > 0 {
      assert !p(xs[0]);
      forall i | 0 <= i < |xs[1..]| ensures !p(xs[1..][i]) { assert xs[1..][i] == xs[i + 1]; }
      CountNone(xs[1..], p);
    }
  }
  /** Predicates that agree on every element count the same elements. */
  lemma {:induction false} CountSame<T>(xs: seq<T>, p: T -> bool, q: T -> bool)
    requires forall i :: 0 <= i < |xs| ==> p(xs[i]) == q(xs[i])
    ensures Count(xs, p) == Count(xs, q)
    decreases |xs|
  {
    if |xs| > 0 {
      forall i | 0 <= i < |xs[1..]| ensures p(xs[1..][i]) == q(xs[1..][i]) { assert xs[1..][i] == xs[i + 1]; }
      CountSame(xs[1..], p, q);
    }
  }
}

=== FILE: text.dfy ===
/** Character and string operations shared by the Java backend and the JavaScript frontend:
    ASCII case folding, prefix and substring tests, lexicographic order, decimal rendering of
    integers, and single-character split/join. */
module Text {

  /** `Character.toLowerCase` / `String.prototype.toLowerCase` restricted to ASCII letters. */
  function LowerChar(c: char): char
  {
    if 'A' <= c <= 'Z' then (c as int + 32) as char else c
  }

  /** `toUpperCase` restricted to ASCII letters. */
  function UpperChar(c: char): char
  {
    if 'a' <= c <= 'z' then (c as int - 32) as char else c
  }

  function ToLower(s: string): (r: string)
    ensures |r| == |s|
    ensures forall i :: 0 <= i < |s| ==> r[i] == LowerChar(s[i])
  {
    if |s| == 0 then "" else [LowerChar(s[0])] + ToLower(s[1..])
  }

  function ToUpper(s: string): (r: string)
    ensures |r| == |s|
    ensures forall i :: 0 <= i < |s| ==> r[i] == UpperChar(s[i])
  {
    if |s| == 0 then "" else [UpperChar(s[0])] + ToUpper(s[1..])
  }

  lemma {:induction false} ToUpperAppend(a: string, b: string)
    ensures ToUpper(a + b) == ToUpper(a) + ToUpper(b)
    decreases |a|
  {
    if |a| == 0 {
      assert a + b == b;
    } else {
      assert (a + b)[1..] == a[1..] + b;
      ToUpperAppend(a[1..], b);
    }
  }

  lemma ToLowerIdempotent(s: string)
    ensures ToLower(ToLower(s)) == ToLower(s)
  {
  }

  /** Java's `a.equalsIgnoreCase(b)` on non-null strings. */
  predicate EqualsIgnoreCase(a: string, b: string)
  {
    ToLower(a) == ToLower(b)
  }

  /** Java's and JavaScript's `s.startsWith(prefix)`. */
  predicate StartsWith(s: string, prefix: string)
  {
    |prefix| <= |s| && s[..|prefix|] == prefix
  }

  /** JavaScript's `s.includes(sub)`: `sub` occurs at some position of `s`. */
  predicate Contains(s: string, sub: string)
    decreases |s|
  {
    StartsWith(s, sub) || (|s| > 0 && Contains(s[1..], sub))
  }

  lemma ContainsEmpty(s: string)
    ensures Contains(s, "")
  {
    assert StartsWith(s, "");
  }

  /** JavaScript's `a <= b` on strings: lexicographic by character code, a prefix sorting first. */
  predicate LexLe(a: string, b: string)
    decreases |a|
  {
    if |a| == 0 then true
    else if |b| == 0 then false
    else if a[0] != b[0] then a[0] < b[0]
    else LexLe(a[1..], b[1..])
  }

  lemma {:induction false} LexLeReflexive(a: string)
    ensures LexLe(a, a)
    decreases |a|
  {
    if |a| > 0 { LexLeReflexive(a[1..]); }
  }

  lemma {:induction false} LexLeAntisymmetric(a: string, b: string)
    requires LexLe(a, b) && LexLe(b, a)
    ensures a == b
    decreases |a|
  {
    if |a| > 0 && |b| > 0 {
      LexLeAntisymmetric(a[1..], b[1..]);
      assert a == [a[0]] + a[1..] && b == [b[0]] + b[1..];
    }
  }

  // ---- decimal rendering -------------------------------------------------------------

  predicate IsDigit(c: char)
  {
    '0' <= c <= '9'
  }

  predicate AllDigits(s: string)
  {
    forall i :: 0 <= i < |s| ==> IsDigit(s[i])
  }

  function DigitChar(d: int): (c: char)
    requires 0 <= d < 10
    ensures IsDigit(c)
  {
    ('0' as int + d) as char
  }

  /** The number a string of decimal digits denotes, most significant digit first. */
  function DigitsValue(s: string): nat
    requires AllDigits(s)
    decreases |s|
  {
    if |s| == 0 then 0 else DigitsValue(s[..|s| - 1]) * 10 + (s[|s| - 1] as int - '0' as int)
  }

  /** Decimal digits of `n` without leading zeros. */
  function NatToString(n: nat): (r: string)
    ensures |r| > 0 && AllDigits(r)
    ensures DigitsValue(r) == n
    ensures r[0] == '0' <==> n == 0
    ensures n >= 10 ==> |r| >= 2
    decreases n
  {
    if n < 10 then [DigitChar(n)]
    else
      var r := NatToString(n / 10) + [DigitChar(n % 10)];
      assert r[..|r| - 1] == NatToString(n / 10);
      r
  }

  /** `Number.prototype.toString()` / `Long.toString()` of an integer id: the decimal
      digits of its magnitude, without leading zeros, after a '-' when it is negative. */
  function IntToString(i: int): (r: string)
    ensures |r| > 0
    ensures i >= 0 ==> AllDigits(r) && DigitsValue(r) == i
    ensures i < 0 ==> r[0] == '-' && |r| > 1 && AllDigits(r[1..]) && DigitsValue(r[1..]) == -i
    ensures r[0] == '0' ==> r == "0"
  {
    if i < 0 then
      var r := "-" + NatToString(-i);
      assert r[1..] == NatToString(-i);
      r
    else NatToString(i)
  }

  predicate IsHexDigit(c: char)
  {
    IsDigit(c) || 'a' <= c <= 'f' || 'A' <= c <= 'F'
  }

  predicate AllHexDigits(s: string)
  {
    forall i :: 0 <= i < |s| ==> IsHexDigit(s[i])
  }

  /** What `Long.valueOf` reads: an optional sign, then decimal digits. */
  predicate IsDecimalLiteral(s: string)
  {
    (|s| > 0 && AllDigits(s)) || (|s| > 1 && (s[0] == '-' || s[0] == '+') && AllDigits(s[1..]))
  }

  /** What `Long.decode` reads once the text starts, after an optional '-', with `0x`, `0X`
      or `#`: hexadecimal digits after the prefix. */
  predicate IsHexLiteral(s: string)
  {
    var b := if |s| > 0 && s[0] == '-' then s[1..] else s;
    || (|b| > 2 && b[0] == '0' && (b[1] == 'x' || b[1] == 'X') && AllHexDigits(b[2..]))
    || (|b| > 1 && b[0] == '#' && AllHexDigits(b[1..]))
  }

  /** A path segment Spring's conversion to `Long` (`NumberUtils.parseNumber`) accepts:
      hexadecimal when it starts, after an optional '-', with `0x`, `0X` or `#`, and
      otherwise a signed decimal. Whitespace trimming and the 64-bit range are left out. */
  predicate IsLongLiteral(s: string)
  {
    IsHexLiteral(s) || IsDecimalLiteral(s)
  }

  /** A segment starting with a letter other than the leading digit of a hex prefix is never
      a number, and a leading '+' or '#' can be one. */
  lemma LongLiteralStarts(s: string)
    ensures |s| > 0 && ('a' <= s[0] <= 'z' || 'A' <= s[0] <= 'Z') ==> !IsLongLiteral(s)
    ensures IsLongLiteral("+1") && IsLongLiteral("#1F") && IsLongLiteral("-0x1f")
    ensures !IsLongLiteral("0x") && !IsLongLiteral("+0x1") && !IsLongLiteral("-")
  {
    assert "+1"[1..] == "1";
    assert "-0x1f"[1..] == "0x1f" && "0x1f"[2..] == "1f";
    assert "#1F"[1..] == "1F";
    assert "+0x1"[1..] == "0x1" && !IsDigit("0x1"[1]);
  }

  lemma IntToStringIsLong(i: int)
    ensures IsLongLiteral(IntToString(i))
  {
  }

  lemma {:induction false} NatToStringInjective(a: nat, b: nat)
    requires NatToString(a) == NatToString(b)
    ensures a == b
    decreases a
  {
    if a >= 10 && b >= 10 {
      var sa, sb := NatToString(a), NatToString(b);
      assert sa[|sa| - 1] == DigitChar(a % 10) && sb[|sb| - 1] == DigitChar(b % 10);
      assert sa[..|sa| - 1] == NatToString(a / 10);
      assert sb[..|sb| - 1] == NatToString(b / 10);
      NatToStringInjective(a / 10, b / 10);
    }
  }

  lemma IntToStringInjective(a: int, b: int)
    requires IntToString(a) == IntToString(b)
    ensures a == b
  {
    var sa, sb := IntToString(a), IntToString(b);
    if a < 0 && b < 0 {
      assert sa[1..] == NatToString(-a) && sb[1..] == NatToString(-b);
      NatToStringInjective(-a, -b);
    } else if a >= 0 && b >= 0 {
      NatToStringInjective(a, b);
    }
  }

  // ---- split and join on one character -----------------------------------------------

  /** `parts.join(sep)`. */
  function Join(parts: seq<string>, sep: char): string
  {
    if |parts| == 0 then ""
    else if |parts| == 1 then parts[0]
    else parts[0] + [sep] + Join(parts[1..], sep)
  }

  /** `s.split(sep)`: the maximal runs between occurrences of `sep`; always at least one part. */
  function Split(s: string, sep: char): (r: seq<string>)
    ensures |r| > 0
    decreases |s|
  {
    if |s| == 0 then [""]
    else if s[0] == sep then [""] + Split(s[1..], sep)
    else
      var rest := Split(s[1..], sep);
      [[s[0]] + rest[0]] + rest[1..]
  }

  lemma {:induction false} SplitWithoutSeparator(p: string, sep: char)
    requires sep !in p
    ensures Split(p, sep) == [p]
    decreases |p|
  {
    if |p| > 0 {
      SplitWithoutSeparator(p[1..], sep);
      assert [p[0]] + p[1..] == p;
    }
  }

  lemma {:induction false} SplitAtFirstSeparator(p: string, t: string, sep: char)
    requires sep !in p
    ensures Split(p + [sep] + t, sep) == [p] + Split(t, sep)
    decreases |p|
  {
    var s := p + [sep] + t;
    if |p| == 0 {
      assert s[0] == sep && s[1..] == t;
    } else {
      assert s[0] == p[0] && s[1..] == p[1..] + [sep] + t;
      SplitAtFirstSeparator(p[1..], t, sep);
      assert [p[0]] + p[1..] == p;
    }
  }

  /** Splitting a join recovers the parts exactly when no part contains the separator. */
  lemma {:induction false} SplitJoin(parts: seq<string>, sep: char)
    requires |parts| > 0
    requires forall i :: 0 <= i < |parts| ==> sep !in parts[i]
    ensures Split(Join(parts, sep), sep) == parts
    decreases |parts|
  {
    if |parts| == 1 {
      SplitWithoutSeparator(parts[0], sep);
    } else {
      SplitJoin(parts[1..], sep);
      SplitAtFirstSeparator(parts[0], Join(parts[1..], sep), sep);
      assert [parts[0]] + parts[1..] == parts;
    }
  }

  /** The joined string holds the separator only where `Join` put it. */
  lemma {:induction false} JoinAvoids(parts: seq<string>, sep: char, c: char)
    requires c != sep
    requires forall i :: 0 <= i < |parts| ==> c !in parts[i]
    ensures c !in Join(parts, sep)
    decreases |parts|
  {
    if |parts| > 1 {
      JoinAvoids(parts[1..], sep, c);
      assert Join(parts, sep) == parts[0] + [sep] + Join(parts[1..], sep);
    }
  }
}

=== FILE: usuario_controller.dfy ===
/** `/usuarios`: create with the `estado` default, lookup, the `activos` query, the
    four-field update and delete, over the user table. */
module UsuarioController {
  import opened Wrappers
  import opened Persistence

  /** The `RuntimeException("Usuario no encontrado con id: ...")` of get and update. */
  datatype UsuarioError = UsuarioNoEncontrado(id: int)

  /** Rows are stored under their own id. */
  predicate Wf(t: Table<Usuario>)
  {
    KeysBelowNext(t) && forall k :: k in t.rows ==> t.rows[k].id == k
  }

  /** An `estado` the create endpoint replaces: null or the empty string. */
  predicate EstadoMissing(estado: Option<string>)
  {
    estado == None || estado == Some("")
  }

  /** `POST /usuarios`: `estado` is defaulted to "Activo" and the body is passed to `save`.
      `bodyId` is the body's `id`, `None` when the JSON has none. `save` persists a body
      without an id as a new row; a body carrying the id of a stored row is merged over that
      row; a body carrying an id no row has is persisted as a new row as well. */
  function CreateUsuario(t: Table<Usuario>, bodyId: Option<int>, body: Usuario): (r: (Table<Usuario>, Usuario))
    ensures bodyId.Some? && bodyId.value in t.rows ==> r.1.id == bodyId.value && r.0 == Put(t, bodyId.value, r.1)
    ensures !(bodyId.Some? && bodyId.value in t.rows) ==> r.1.id == t.nextId && r.0 == Insert(t, r.1)
    ensures r.1.nombre == body.nombre && r.1.documento == body.documento && r.1.rfidTag == body.rfidTag
    ensures EstadoMissing(body.estado) ==> r.1.estado == Some("Activo")
    ensures !EstadoMissing(body.estado) ==> r.1.estado == body.estado
    ensures r.1.estado.Some? && r.1.estado.value != ""
  {
    var estado := if EstadoMissing(body.estado) then Some("Activo") else body.estado;
    if bodyId.Some? && bodyId.value in t.rows then
      var saved := body.(id := bodyId.value, estado := estado);
      (Put(t, bodyId.value, saved), saved)
    else
      var saved := body.(id := t.nextId, estado := estado);
      (Insert(t, saved), saved)
  }

  /** `GET /usuarios/{id}`. */
  function GetUsuarioById(t: Table<Usuario>, id: int): (r: Result<Usuario, UsuarioError>)
    ensures r.Ok? <==> id in t.rows
    ensures r.Ok? ==> r.value == t.rows[id]
    ensures r.Err? ==> r.error == UsuarioNoEncontrado(id)
  {
    match FindById(t, id)
    case Some(u) => Ok(u)
    case None => Err(UsuarioNoEncontrado(id))
  }

  /** `GET /usuarios/activos`: `findByEstado("Activo")`, an exact comparison. */
  function GetActiveUsuarios(t: Table<Usuario>): (r: map<int, Usuario>)
    ensures forall id :: id in r <==> id in t.rows && t.rows[id].estado == Some("Activo")
    ensures forall id :: id in r ==> r[id] == t.rows[id]
  {
    FindByEstado(t, (u: Usuario) => u.estado, "Activo")
  }

  /** `PUT /usuarios/{id}`: nombre, documento, rfidTag and estado are copied from the body,
      null included; the id and the rest of the table are untouched. */
  function UpdateUsuario(t: Table<Usuario>, id: int, body: Usuario): (r: Result<(Table<Usuario>, Usuario), UsuarioError>)
    ensures id !in t.rows ==> r == Err(UsuarioNoEncontrado(id))
    ensures id in t.rows ==> r.Ok? && r.value.0 == Put(t, id, r.value.1)
    ensures r.Ok? ==> r.value.1.id == t.rows[id].id
    ensures r.Ok? ==> r.value.1.nombre == body.nombre && r.value.1.documento == body.documento
    ensures r.Ok? ==> r.value.1.rfidTag == body.rfidTag && r.value.1.estado == body.estado
  {
    match FindById(t, id)
    case None => Err(UsuarioNoEncontrado(id))
    case Some(u) =>
      var saved := u.(nombre := body.nombre, documento := body.documento, rfidTag := body.rfidTag, estado := body.estado);
      Ok((Put(t, id, saved), saved))
  }

  /** `DELETE /usuarios/{id}`. */
  function DeleteUsuario(t: Table<Usuario>, id: int): (r: Table<Usuario>)
    ensures id !in r.rows
    ensures forall k :: k in t.rows && k != id ==> k in r.rows && r.rows[k] == t.rows[k]
    ensures forall k :: k in r.rows ==> k in t.rows
  {
    DeleteById(t, id)
  }

  // ---- properties relating the operations -------------------------------------------

  /** A created user can be read back under its id and the table stays well formed. A body
      without an id gets a new id, which was free, and no other row changes. */
  lemma CreateThenGet(t: Table<Usuario>, bodyId: Option<int>, body: Usuario)
    requires Wf(t)
    ensures var (t', u) := CreateUsuario(t, bodyId, body);
      && Wf(t')
      && GetUsuarioById(t', u.id) == Ok(u)
      && forall k :: k in t.rows && k != u.id ==> GetUsuarioById(t', k) == GetUsuarioById(t, k)
    ensures bodyId.None? ==> var (t', u) := CreateUsuario(t, bodyId, body);
      && u.id == t.nextId && t.nextId !in t.rows
      && forall k :: k in t.rows ==> GetUsuarioById(t', k) == GetUsuarioById(t, k)
  {
  }

  /** A POST whose body carries the id of a stored user adds no row: it overwrites that
      user with the body, so the create endpoint also edits. */
  lemma CreateWithStoredIdOverwrites(t: Table<Usuario>, k: int, body: Usuario)
    requires Wf(t) && k in t.rows
    ensures var (t', u) := CreateUsuario(t, Some(k), body);
      && t'.rows.Keys == t.rows.Keys && t'.nextId == t.nextId
      && GetUsuarioById(t', k) == Ok(u)
      && u.nombre == body.nombre && u.documento == body.documento && u.rfidTag == body.rfidTag
  {
  }

  /** A user created without an estado is listed by `/activos`; one created with any estado
      other than "Activo" is not. */
  lemma CreatedUserActiveIff(t: Table<Usuario>, bodyId: Option<int>, body: Usuario)
    requires Wf(t)
    ensures var (t', u) := CreateUsuario(t, bodyId, body);
      u.id in GetActiveUsuarios(t') <==> (EstadoMissing(body.estado) || body.estado == Some("Activo"))
  {
  }

  /** An update does not apply the create default: a null `estado` stays null, and that
      user drops out of `/activos`. */
  lemma UpdateKeepsNullEstado(t: Table<Usuario>, id: int, body: Usuario)
    requires id in t.rows && body.estado == None
    ensures UpdateUsuario(t, id, body).Ok?
    ensures var (t', u) := UpdateUsuario(t, id, body).value;
      u.estado == None && id !in GetActiveUsuarios(t')
  {
  }

  /** Updating twice with the same body is the same as updating once. */
  lemma UpdateIdempotent(t: Table<Usuario>, id: int, body: Usuario)
    requires id in t.rows
    ensures var t1 := UpdateUsuario(t, id, body).value.0;
      UpdateUsuario(t1, id, body).value.0 == t1
  {
  }

  /** Read after update returns the updated row; read after delete fails. */
  lemma UpdateThenGetThenDelete(t: Table<Usuario>, id: int, body: Usuario)
    requires id in t.rows
    ensures var (t1, u) := UpdateUsuario(t, id, body).value;
      GetUsuarioById(t1, id) == Ok(u) && GetUsuarioById(DeleteUsuario(t1, id), id) == Err(UsuarioNoEncontrado(id))
  {
  }
}

=== FILE: usuarios.dfy ===
/** The user page of the frontend: the cached list of users, the modal form, and the list
    edits applied after each call to the backend. */
module Usuarios {
  import opened Wrappers
  import opened Seqs

  /** A user as the backend returns it. */
  datatype UsuarioItem = UsuarioItem(id: int, nombre: string, documento: string, rfidTag: Option<string>, estado: Option<string>)

  /** `formData`: the two inputs over `base`, the user the modal was opened with. Opened
      blank, the object has only `nombre` and `documento`; opened on a user, it is a copy of
      that user whose two fields are then edited. */
  datatype UsuarioForm = UsuarioForm(nombre: string, documento: string, base: Option<UsuarioItem>)

  const BlankForm := UsuarioForm("", "", None)

  /** `{...u, ...formData}`: the form's fields win, those it lacks come from `u`. */
  function Spread(u: UsuarioItem, f: UsuarioForm): (r: UsuarioItem)
    ensures r.nombre == f.nombre && r.documento == f.documento
    ensures f.base.None? ==> r.id == u.id && r.rfidTag == u.rfidTag && r.estado == u.estado
    ensures f.base.Some? ==> r.id == f.base.value.id && r.rfidTag == f.base.value.rfidTag && r.estado == f.base.value.estado
  {
    var over := if f.base.Some? then f.base.value else u;
    over.(nombre := f.nombre, documento := f.documento)
  }

  datatype UsuariosPage = UsuariosPage(usuarios: seq<UsuarioItem>, showModal: bool, editing: Option<UsuarioItem>, form: UsuarioForm)

  const Inicial := UsuariosPage([], false, None, BlankForm)

  /** The form was opened on the user being edited, as `openModal` leaves it. */
  predicate Coherent(s: UsuariosPage)
  {
    s.form.base == s.editing
  }

  /** The first load: on a failed request the list stays as it was. */
  function Load(s: UsuariosPage, fetched: Option<seq<UsuarioItem>>): (r: UsuariosPage)
    ensures fetched.Some? ==> r.usuarios == fetched.value
    ensures fetched.None? ==> r == s
    ensures r.showModal == s.showModal && r.editing == s.editing && r.form == s.form
  {
    if fetched.Some? then s.(usuarios := fetched.value) else s
  }

  /** `openModal(user)`. */
  function OpenModal(s: UsuariosPage, user: Option<UsuarioItem>): (r: UsuariosPage)
    ensures r.showModal && r.editing == user && Coherent(r)
    ensures user.None? ==> r.form == UsuarioForm("", "", None)
    ensures user.Some? ==> r.form.nombre == user.value.nombre && r.form.documento == user.value.documento
    ensures r.usuarios == s.usuarios
  {
    s.(showModal := true, editing := user,
       form := if user.Some? then UsuarioForm(user.value.nombre, user.value.documento, user) else BlankForm)
  }

  /** `closeModal`. */
  function CloseModal(s: UsuariosPage): (r: UsuariosPage)
    ensures !r.showModal && r.editing.None? && r.form == UsuarioForm("", "", None) && Coherent(r)
    ensures r.usuarios == s.usuarios
  {
    s.(showModal := false, editing := None, form := BlankForm)
  }

  function SetNombre(s: UsuariosPage, v: string): (r: UsuariosPage)
    ensures r.form.nombre == v && r.form.documento == s.form.documento
    ensures Coherent(s) ==> Coherent(r)
  {
    s.(form := s.form.(nombre := v))
  }

  function SetDocumento(s: UsuariosPage, v: string): (r: UsuariosPage)
    ensures r.form.documento == v && r.form.nombre == s.form.nombre
    ensures Coherent(s) ==> Coherent(r)
  {
    s.(form := s.form.(documento := v))
  }

  function MergeById(us: seq<UsuarioItem>, id: int, f: UsuarioForm): (r: seq<UsuarioItem>)
    ensures |r| == |us|
    ensures forall i :: 0 <= i < |us| ==> r[i] == if us[i].id == id then Spread(us[i], f) else us[i]
  {
    seq(|us|, i requires 0 <= i < |us| => if us[i].id == id then Spread(us[i], f) else us[i])
  }

  /** `handleSubmit` with the backend's reply (`None` when the call throws). Both inputs are
      `required`, so an empty one blocks the submission. A thrown call is caught before any
      state changes, so the modal, the form and the list stay as they were; on success an
      edit merges the form into the matching users, a create appends the returned user, and
      the modal closes. */
  function Submit(s: UsuariosPage, reply: Option<UsuarioItem>): (r: UsuariosPage)
    ensures s.form.nombre == "" || s.form.documento == "" || reply.None? ==> r == s
    ensures s.form.nombre != "" && s.form.documento != "" && reply.Some? ==> r == CloseModal(r)
    ensures s.form.nombre != "" && s.form.documento != "" && reply.Some? && s.editing.Some? ==>
      r.usuarios == MergeById(s.usuarios, s.editing.value.id, s.form)
    ensures s.form.nombre != "" && s.form.documento != "" && reply.Some? && s.editing.None? ==>
      r.usuarios == s.usuarios + [reply.value]
  {
    if s.form.nombre == "" || s.form.documento == "" || reply.None? then s
    else if s.editing.Some? then CloseModal(s.(usuarios := MergeById(s.usuarios, s.editing.value.id, s.form)))
    else CloseModal(s.(usuarios := s.usuarios + [reply.value]))
  }

  /** The body sent to the backend is `formData`: for an edit, the edited user's whole copy. */
  function SubmitBody(s: UsuariosPage): (body: UsuarioItem)
    requires Coherent(s)
    ensures body.nombre == s.form.nombre && body.documento == s.form.documento
    ensures s.editing.Some? ==> body.id == s.editing.value.id && body.rfidTag == s.editing.value.rfidTag
                                && body.estado == s.editing.value.estado
    ensures s.editing.None? ==> body.rfidTag.None? && body.estado.None?
  {
    Spread(UsuarioItem(0, "", "", None, None), s.form)
  }

  /** An accepted edit touches only the users with the edited id: each becomes the edited
      user with the new name and document, and the length and the others stay. */
  lemma EditChangesOnlyTarget(s: UsuariosPage, reply: UsuarioItem)
    requires Coherent(s) && s.editing.Some? && s.form.nombre != "" && s.form.documento != ""
    ensures var r := Submit(s, Some(reply));
      var e := s.editing.value;
      && |r.usuarios| == |s.usuarios|
      && (forall i :: 0 <= i < |s.usuarios| && s.usuarios[i].id != e.id ==> r.usuarios[i] == s.usuarios[i])
      && (forall i :: 0 <= i < |s.usuarios| && s.usuarios[i].id == e.id ==>
            r.usuarios[i] == e.(nombre := s.form.nombre, documento := s.form.documento))
  {
  }

  /** A create grows the list by exactly one, the returned user, at the end. */
  lemma CreateAppendsOne(s: UsuariosPage, reply: UsuarioItem)
    requires s.editing.None? && s.form.nombre != "" && s.form.documento != ""
    ensures |Submit(s, Some(reply)).usuarios| == |s.usuarios| + 1
    ensures Submit(s, Some(reply)).usuarios[|s.usuarios|] == reply
    ensures Submit(s, Some(reply)).usuarios[..|s.usuarios|] == s.usuarios
  {
  }

  /** A failed save can be retried: the same form is still open. */
  lemma FailedSaveKeepsModal(s: UsuariosPage)
    ensures Submit(s, None) == s
  {
  }

  /** `deleteUser`: after confirmation; a thrown call is caught and the list stays. */
  function Delete(us: seq<UsuarioItem>, id: int, confirmed: bool, apiOk: bool): (r: seq<UsuarioItem>)
    ensures !confirmed || !apiOk ==> r == us
    ensures IsSubsequence(r, us)
  {
    if confirmed && apiOk then Keep(us, (u: UsuarioItem) => u.id != id) else (SubsequenceOfItself(us); us)
  }

  lemma DeleteRemovesExactly(us: seq<UsuarioItem>, id: int, x: UsuarioItem)
    ensures x in Delete(us, id, true, true) <==> x in us && x.id != id
  {
    var r := Delete(us, id, true, true);
    if x in r { var i :| 0 <= i < |r| && r[i] == x; }
    if x in us && x.id != id { var i :| 0 <= i < |us| && us[i] == x; }
  }

  /** Opening blank and closing leave the same empty form. */
  lemma OpenBlankIsClosedForm(s: UsuariosPage)
    ensures OpenModal(s, None).form == CloseModal(s).form
  {
  }
}

=== FILE: wrappers.dfy ===
/** Option stands for a Java `null` or a JavaScript `null`/`undefined`; Result for a value or
    the exception an operation throws instead of returning. */
module Wrappers {

  datatype Option<+T> = None | Some(value: T) {

    /** The value, or `default` when there is none. */
    function GetOr(default: T): T
    {
      match this
      case Some(v) => v
      case None => default
    }
  }

  datatype Result<+T, +E> = Ok(value: T) | Err(error: E)
}
